=== FILE: README.md ===
# Calf treatment scheduler: a Dafny model

This project models the scheduling engine of a small herd-management application. A
calf's treatments form a chain of dated nodes: birth, a first vaccination (Bovalto1), an
optional dehorning, a Restall treatment, and then either the sale date (fattening calves)
or a second vaccination and two ringworm treatments (breeding calves). Each node's
expected date follows from its predecessor's date by fixed rest days, moved off weekends.
Sales always fall on a Tuesday. The herd keeps the two kinds of calf in two lists.
Ear tags are meant to be unique across both lists. After every change the herd
re-batches its breeding calves: calves born close together share one ringworm date, and
a group too small for a visit has its ringworm treatments cleared.

Modules, in dependency order:

- `Wrappers` (`wrappers.dfy`): `Option` and `Result`.
- `Day` (`day.dfy`): dates as day ordinals (0001-01-01 is day 1, as `date.toordinal()`
  counts), weekdays, `handle_weekends` and `get_next_tuesday`.
- `Calendar` (`calendar.dfy`): the proleptic Gregorian calendar and the ISO 8601 week
  number that `date.isocalendar().week` returns.
- `Genders` (`gender.py`'s enum and parser, in `gender.dfy`).
- `Treatments` (`treatment.dfy`): treatment kinds, order ids, rest days, nodes, and the
  date policy and comparison operators.
- `Seqs` (`seqs.dfy`) and `Sorting` (`sorting.dfy`): sequence facts and the stable sort
  by birth date.
- `Calves` (`calf.dfy`): fattening and breeding calves, every edit with its cascade,
  `reset`, `as_tuple`, and the cached `treatments` list.
- `Batching` (`batching.dfy`): `set_ringworm`, as slicing, choosing an anchor and settling.
- `Farms` (`farm.dfy`): the herd, with adding, finding, deleting and re-tagging calves.
- `Edits` (`edit.dfy`): `edit_calf` dispatch.
- `Reports` (`reports.dfy`): `get_jobs_in_week`, the highest-ear-tag queries and
  `get_calves_as_tuple`.
- `Scenarios` (`scenario.dfy`): worked dates for a calf born on 2023-11-20.

Everything is a pure function over immutable values. Where the Python code mutates a calf
or the farm in place, the model returns the new value. Where it raises, the model
returns a `Failure`.

### Key modelling decisions

- A treatment is `Treatment(expected, actual: Option<Date>)`; its kind is carried
  beside it. `Resolved` is `get_date`: the actual date if recorded, else the expected one.
- A calf's cached `treatments` list is a field. It is rebuilt (`Refresh`) wherever the
  source calls `__update_treatments`. `ListCurrent(c)` says the cache matches the nodes.
- `Strip(c)` is a breeding calf without its ringworm nodes and its cache. Re-batching
  reads only this part. So the outcome of `set_ringworm` depends on `Strip` of each calf
  alone (`Batching.SetRingwormReadsStripped`), and applying it twice changes nothing.
- `Farms.Error` names the three ways an operation raises: a duplicate ear tag on add,
  an unknown ear tag (the source's `get_calf` returns `None`, and the caller then fails
  on it), and an edit of a node that is `None`.

## Model

| member | source | states |
|---|---|---|
| `Day.WeekdayStep` | models/day.py:5-12 | Moving `k` days moves the weekday `k` places round the Monday-0 … Sunday-6 cycle |
| `Day.HandleWeekends` | models/day.py:35-44 | The result is a Monday–Friday, at most two days later, with no workday skipped: it is the first workday on or after the input |
| `Day.HandleWeekendsShift` | models/day.py:35-44 | A Saturday gains two days, a Sunday one, and Monday–Friday are returned unchanged |
| `Day.HandleWeekendsIdempotent` | models/day.py:35-44 | Shifting an already shifted date changes nothing |
| `Day.NextTuesday` | models/day.py:15-32 | The result is a Tuesday, at most six days later, with no Tuesday skipped, so a Tuesday input is returned as it is |
| `Day.FirstTuesdayUnique` | models/day.py:15-32 | Only one day is the first Tuesday on or after a date, so the contract of `NextTuesday` fixes its result |
| `Day.NextTuesdayAfterHandleWeekends` | models/treatment.py:181-187 | Moving a weekend day to Monday before rolling on to Tuesday gives the same Tuesday |
| `Calendar.YearLength` | models/treatment.py:140-145 | A year has 366 days when it is a Gregorian leap year, else 365 |
| `Calendar.YearOfBounds` | models/treatment.py:140-145 | The year computed for a day ordinal is the year that contains that day |
| `Calendar.IsoWeekConstantOverWeek` | models/treatment.py:140-145 | All days of one Monday-to-Sunday week have the same ISO week number |
| `Calendar.IsoWeekRange` | models/treatment.py:140-145 | An ISO week number lies between 1 and 53 |
| `Genders.Lower` | models/gender.py:11 | Lower-casing keeps the length and leaves no upper-case letter. Each upper-case letter becomes its lower-case partner in place, and every other character is kept |
| `Genders.LowerIdempotent` | models/gender.py:11 | Lower-casing an already lower-cased string changes nothing |
| `Genders.FromStr` | models/gender.py:8-13 | "m" or "M" parses as Male and "w" or "W" as Female, and nothing else does; every other string fails with "Invalid gender string" |
| `Genders.FromStrValue` | models/gender.py:4-13 | Parsing a member's value gives that member back |
| `Treatments.DisplayNameInjective` | models/treatment.py:112-120 | Different kinds have different display names |
| `Treatments.Week` | models/treatment.py:140-145 | A node's week is the ISO week of its resolved date, and is between 1 and 53 |
| `Treatments.Derive` | models/treatment.py:112-128 | A new node has no actual date. Its expected date is at least the predecessor's resolved date plus the rest days. It is a workday at most two days past that point, or for `Sell` a Tuesday at most six days past it |
| `Treatments.SellIsFirstTuesday` | models/treatment.py:181-187 | `Sell` is due on the first Tuesday on or after birth plus 28 days |
| `Treatments.DeriveIsFresh` | models/treatment.py:122-128 | A node built after a predecessor follows it by the kind's date policy with no actual date, and it is the only node that does |
| `Treatments.Update` | models/treatment.py:134-135 | Recording a date always stores it as the actual date, even when it equals the plan. The node then resolves to that date and its expected date is unchanged |
| `Treatments.Reset` | models/treatment.py:130-132 | After a reset, the expected and actual dates are exactly the ones given. The node resolves to the given actual date if there is one, else to the plan |
| `Treatments.ComparisonsByKey` | models/treatment.py:37-110 | All five operators compare one key: the resolved dates for two nodes of the same kind, the order ids otherwise |
| `Treatments.LessEqTransitive` | models/treatment.py:82-95 | `<=` is transitive among nodes that do not mix `Sell` with `Bovalto2` |
| `Treatments.LessEqNotTransitiveAcrossSharedRank` | models/treatment.py:181-195 | With `Sell` and `Bovalto2` both at order id 4, `<=` is not transitive: two `Sell` nodes chained through a `Bovalto2` need not be in date order |
| `Calves.CurrentTreatmentsShape` | models/calf.py:269-277 | The cached list has one entry per listed kind, in chain order, each holding the calf's node of that kind, and never the birth |
| `Calves.NewCalf` | models/calf.py:121-134 | A new calf (`FatteningCalf.__init__`, and likewise `BreedingCalf.__init__` at lines 241-256) has a dehorning node exactly when one is required. Every node below birth is freshly derived from its predecessor: Restall from the dehorning if present, else from Bovalto1; Sell from birth; Bovalto2 from Bovalto1; the ringworm pair from Bovalto2 |
| `Calves.EditBirth` | models/calf.py:334-342 | The birth node records the date, every node below it is rebuilt fresh with no actual dates, and the stored birthday stays |
| `Calves.EditBovalto1` | models/calf.py:344-351 | Bovalto1 records the date and everything built from it is rebuilt fresh. Birth and Sell are untouched |
| `Calves.EditDehorn` | models/calf.py:93-95 | Without a dehorning node the edit fails. Otherwise the node records the date, Restall is rebuilt from it, and no other node changes |
| `Calves.SetDehorn` | models/calf.py:97-99 | The given node becomes the dehorning node, Restall is rebuilt from it, and no other node changes |
| `Calves.ResetDehorn` | models/calf.py:101-108 | The flag is stored, and a dehorning node exists exactly when it is set. It is built fresh from Bovalto1 and records the date only when that date differs from the planned one. Restall is then rebuilt |
| `Calves.DeleteDehorn` | models/calf.py:110-113 | The flag and the dehorning node are cleared, Restall is rebuilt from Bovalto1, and no other node changes |
| `Calves.EditRestall` | models/calf.py:231-233 | Only Restall changes: it records the date |
| `Calves.EditSell` | models/calf.py:235-237 | Only Sell changes: it records the date |
| `Calves.EditBovalto2` | models/calf.py:373-378 | Bovalto2 records the date and the ringworm pair is rebuilt fresh from it |
| `Calves.EditRingworm1` | models/calf.py:380-387 | A missing Ringworm1 is first built from Bovalto2 and an existing one keeps its plan. It then records the date and Ringworm2 is rebuilt from it |
| `Calves.EditRingworm2` | models/calf.py:411-414 | Without a Ringworm2 node the edit fails; otherwise only that node changes, recording the date |
| `Calves.SetRingworm1` | models/calf.py:389-398 | The given node becomes Ringworm1, Ringworm2 is rebuilt from it, and no other node changes |
| `Calves.RecalcRingworm` | models/calf.py:400-409 | Ringworm1 is rebuilt fresh from the given second vaccination and Ringworm2 from it. No other node changes |
| `Calves.DeleteRingworm1` | models/calf.py:416-417 | Ringworm1 is cleared and nothing else changes, the cached list included |
| `Calves.DeleteRingworm2` | models/calf.py:419-420 | Ringworm2 is cleared and nothing else changes, the cached list included |
| `Calves.DeleteRingworm` | models/calf.py:422-425 | Both ringworm nodes are cleared, no other node changes, and the cached list is refreshed |
| `Calves.DeleteRingworm1LeavesListStale` | models/calf.py:416-417 | After clearing Ringworm1 alone, the cached list no longer matches the calf |
| `Calves.ChangeEarTag` | models/calf.py:87-88 | Only the ear tag changes |
| `Calves.EditGender` | models/calf.py:90-91 | Only the sex changes |
| `Calves.ResetFattening` | models/calf.py:178-196 | The fattening calf holds exactly the given nodes. The flag stays set only if a dehorning node is given. The cached list is refreshed |
| `Calves.ResetBreeding` | models/calf.py:310-332 | The breeding calf holds exactly the given nodes, ringworm ones included. The flag stays set only if a dehorning node is given. The cached list is refreshed |
| `Calves.AsTupleColumns` | models/calf.py:279-308 | The row holds the tag, type, birthday, sex and flag, and the resolved date of each node. A column is `None` where the calf has no such node |
| `Calves.FindByTag` | models/farm.py:139-149 | Lookup succeeds exactly when the tag is in the list, and finds the first calf with that tag |
| `Calves.FindByTagUnique` | models/farm.py:139-149 | With unique tags, looking up a calf's tag finds that calf |
| `Sorting.SortSorted` | models/farm.py:205 | The sorted list is in ascending key order |
| `Sorting.SortPermutes` | models/farm.py:205 | Sorting neither adds nor drops an element |
| `Sorting.SortStable` | models/farm.py:205 | Among calves with equal keys, sorting keeps their original order, as Python's `list.sort` does |
| `Sorting.SortOfSorted` | models/farm.py:205 | Sorting an already sorted list returns it unchanged |
| `Batching.SlicesShape` | models/farm.py:207-234 | The slices concatenate back to the sorted calves. Each slice is non-empty. Every slice but the last has at least five calves and ends where the next calf's ringworm week differs |
| `Batching.BatchesPartition` | models/farm.py:207-234 | The batches of ear tags concatenate to the sorted list's tags. No batch is empty, and every batch but the last holds at least five calves |
| `Batching.OneWeekBatches` | models/farm.py:215-234 | When every calf's fresh Ringworm1 falls in the same ISO week, all calves form one batch |
| `Batching.MaxBovalto2` | models/farm.py:239-243 | The chosen calf is in the batch, its Bovalto2 resolves no earlier than any other's, and it is the first such calf |
| `Batching.BatchAnchor` | models/farm.py:238-243 | A batch has an anchor exactly when it holds at least five calves. The anchor is one member's Bovalto2, and no member's Bovalto2 resolves later |
| `Batching.AnchorBounds` | models/farm.py:238-243 | For a single batch, the anchor is some calf's Bovalto2 and bounds all of theirs |
| `Batching.Settle` | models/farm.py:245-257 | With an anchor, a calf gets a fresh ringworm pair derived from it; without one, both ringworm nodes are cleared. Nothing else changes |
| `Batching.ApplyBatch` | models/farm.py:236-257 | Members of the batch are settled and other calves are untouched. The chain outside the ringworm pair is kept, and well-formedness and date consistency are kept too |
| `Batching.ApplyBatches` | models/farm.py:236-257 | After all batches, every covered calf is settled and every other calf is untouched, with the same invariants kept |
| `Batching.SetRingworm` | models/farm.py:204-257 | The result is the breeding list sorted by expected birth date. Every calf is settled, and nothing outside the ringworm pair changes |
| `Batching.SetRingwormOutcome` | models/farm.py:236-257 | With unique tags, a calf in a batch of five or more has Ringworm1 derived from that batch's latest Bovalto2 and Ringworm2 from Ringworm1, with no actual dates; a calf in a smaller batch has neither |
| `Batching.SmallHerdClears` | models/farm.py:253-257 | With fewer than five breeding calves, every ringworm node is cleared |
| `Batching.OneWeekOneBatch` | models/farm.py:215-247 | Five or more calves whose fresh Ringworm1 falls in one ISO week form one batch. All of them get the same Ringworm1, derived from the batch's latest Bovalto2 |
| `Batching.SetRingwormIdempotent` | models/farm.py:204-257 | Re-batching an already batched list changes nothing |
| `Batching.SetRingwormReadsStripped` | models/farm.py:204-257 | Re-batching ignores the ringworm nodes and cached lists it is given |
| `Batching.SetRingwormKeepsInvariants` | models/farm.py:204-257 | Re-batching keeps every calf well formed and date-consistent when they were before |
| `Batching.SetRingwormKeepsTags` | models/farm.py:204-257 | Re-batching keeps the multiset of ear tags |
| `Farms.Size` | models/farm.py:38-40 | The size is the number of calves in both lists |
| `Farms.FarmTagsSplit` | models/farm.py:190-191 | The farm's ear tags are the fattening calves' tags followed by the breeding calves' tags |
| `Farms.Rebatch` | models/farm.py:137 | Re-batching leaves the fattening list alone and keeps the ear tags |
| `Farms.RebatchSameTags` | models/farm.py:204-205 | After re-batching, the same tags are present and uniqueness holds exactly when it did before |
| `Farms.AddCalf` | models/farm.py:48-76 | Adding fails with "ear tag already exists" exactly when the tag is in either list, and then nothing is added. Otherwise the calf joins its own list and the size grows by one. A fattening calf is appended with the breeding list untouched. A breeding calf is appended to the breeding list, which is then re-batched exactly when asked. Unique tags stay unique |
| `Farms.AddCalves` | models/farm.py:42-46 | Adding several succeeds exactly when their tags are distinct and new. Each calf is then appended to its own list in order: the fattening list exactly, the breeding list exactly unless re-batching reorders it, and tags and size in any case. A refusal stops at some calf: that calf's tag is reported and is already in the farm. The calves before it were added in the same sense. Unique tags stay unique |
| `Farms.RebatchFindsStripped` | models/farm.py:204-205 | With unique tags, the calf found under a breeding tag after re-batching is the calf that had it, up to the ringworm dates re-batching recomputes |
| `Farms.GetCalf` | models/farm.py:151-159 | A calf is found exactly when its tag is present, fattening calves taking precedence. The result has that tag and is in the list of its category; that it is the first such calf is `Farms.GetCalfFirst` |
| `Farms.GetCalfFirst` | models/farm.py:139-159 | The calf found is the first one carrying the tag, reading the fattening list before the breeding list, so with duplicate tags the lookup picks the earliest |
| `Farms.RemoveTagTags` | models/farm.py:194-199 | Filtering out a tag removes all its occurrences and keeps every other tag's count |
| `Farms.RemoveAbsentTag` | models/farm.py:194-199 | Filtering out a tag that is absent changes nothing |
| `Farms.RemoveFromFarm` | models/farm.py:193-199 | Each list loses every calf carrying the tag and keeps every other calf, counted as a multiset. Other tags keep their counts, and an absent tag changes nothing |
| `Farms.DeleteCalf` | models/farm.py:193-202 | After deletion the tag is absent and looking it up finds nothing. The fattening list keeps every other calf. Without re-batching so does the breeding list; with it, the breeding list is the filtered list re-batched. Other tags keep their counts, deleting an absent tag without re-batching is a no-op, and unique tags stay unique |
| `Farms.RemoveAll` | models/farm.py:300-303 | Each list loses every calf whose tag is listed and keeps every other calf, counted as a multiset. Every other tag keeps its count |
| `Farms.DeleteCalves` | models/farm.py:300-304 | Every listed tag is gone and every other tag keeps its count. The fattening list keeps every calf whose tag is not listed. The breeding list is the filtered one re-batched once at the end. Unique tags stay unique |
| `Farms.ChangeEarTag` | models/farm.py:78-80 | Re-tagging fails on an unknown tag. Otherwise exactly the calf `get_calf` finds is re-tagged, in its own list and at its own position; the other list is untouched. The size is kept, and one occurrence of the old tag is replaced by the new one |
| `Farms.ChangeEarTagCanDuplicate` | models/farm.py:78-80 | Re-tagging can turn a herd with unique tags into one with a duplicate, since no uniqueness check is made |
| `Edits.DehornTransition` | models/farm.py:106-122 | The four flag transitions are create, delete, edit and nothing. Only an edit of a missing node fails. The flag afterwards is the requested one, and a requested dehorning resolves to the given date. Whenever the flag was or becomes set, the restall is rebuilt fresh after the dehorning, or after the first vaccination when the dehorning is gone |
| `Edits.EditShared` | models/farm.py:100-124 | Birth, Bovalto1, Dehorn and Restall edits apply to either category and rewrite only the nodes built from the edited one. The edited node resolves to the given date, and every node built from it is re-planned fresh: the whole chain after a birth edit, everything after Bovalto1 after a Bovalto1 edit, and the restall after a dehorning change |
| `Edits.EditOwn` | models/farm.py:126-135 | Sell applies only to fattening calves and Bovalto2 and the ringworm kinds only to breeding calves; otherwise the calf is unchanged. Only a missing Ringworm2 fails. The edited node takes the date; after Bovalto2 the ringworm pair, and after Ringworm1 the Ringworm2, is re-planned fresh |
| `Edits.EditTreatment` | models/farm.py:100-135 | The whole dispatch fails exactly on a missing dehorning or Ringworm2 node and rewrites only the nodes built from the edited kind. The edited node takes the date and every node built from it is re-planned fresh, and the invariants are kept |
| `Edits.EditTreatmentFailsOnlyOnClearedRingworm2` | models/farm.py:100-135 | On a well-formed calf, the only failing edit is of a cleared Ringworm2 |
| `Edits.EditCalf` | models/farm.py:82-137 | The edit fails for an unknown tag (except `Sell`, which only re-batches) and for a missing node. Otherwise tags and size are kept and the breeding list is left batched. The edited calf replaces the calf `get_calf` found, in place. For a fattening calf the breeding list is only re-batched. For a breeding calf the fattening list is untouched, and with unique tags the calf found afterwards is the edited one up to its ringworm dates |
| `Edits.EditCalfPlaced` | models/farm.py:100-137 | The calf edited through the farm replaces, at its own position, the calf `get_calf` found. The other list is untouched apart from re-batching |
| `Edits.EditCalfRingwormOverwritten` | models/farm.py:126-137 | Editing a breeding calf's Sell or ringworm dates, when it succeeds, leaves the farm as plain re-batching would |
| `Edits.RingwormEditsStripEqual` | models/calf.py:380-414 | The ringworm edits change only what re-batching recomputes |
| `Reports.SlotJobsMembers` | models/farm.py:262-270 | A calf yields a job exactly for each present cached node whose resolved week is `w`. The job carries the tag, the display name and the expected date |
| `Reports.ListJobsMembers` | models/farm.py:261-270 | The jobs of a list are exactly the jobs of its calves |
| `Reports.JobsInWeekMembers` | models/farm.py:259-283 | The week's jobs are exactly the present cached nodes of all calves whose resolved week is `w` |
| `Reports.CurrentSlots` | models/calf.py:269-277 | A current cached list holds exactly one entry per listed kind, carrying the calf's node |
| `Reports.CurrentCalfJobs` | models/farm.py:259-283 | For a calf with a current cache, the jobs are its listed nodes due in week `w`, and birth is never among them |
| `Reports.DeletedRingworm1StillListed` | models/calf.py:416-417 | After clearing Ringworm1 alone, the stale cache still reports it as a job |
| `Reports.StartsWith99Extend` | models/farm.py:286-291 | A tag's decimal form starts with 99 exactly when it extends one that does, or is 99 itself |
| `Reports.MaxOr0` | models/farm.py:292 | `max(..., default=0)`: 0 for none, else a member no smaller than any other |
| `Reports.EligibleTags` | models/farm.py:286-291 | The filtered tags are exactly those of calves whose decimal tag does not start with 99 |
| `Reports.MaxBreedingEarTag` | models/farm.py:285-292 | The result is the highest breeding tag not starting with 99, or 0 when there is none |
| `Reports.MaxFatteningEarTag` | models/farm.py:294-298 | The result is the highest fattening tag, or 0 when there are none |
| `Reports.CalvesAsTuple` | models/farm.py:164-188 | There is one row per calf, fattening first. Each row carries its calf's tag and resolved node dates |
| `Scenarios.SundayMovesToMonday` | models/day.py:35-44 | Sunday 2023-12-10 moves to Monday 2023-12-11 |
| `Scenarios.FirstSteps` | models/treatment.py:157-178 | From birth on 2023-11-20, Bovalto1 is due 11-30, Dehorn 12-05, and Restall 12-11 (12-10 is a Sunday) |
| `Scenarios.SellStep` | models/treatment.py:181-187 | Sell after birth on 2023-11-20 is due on Tuesday 12-19 |
| `Scenarios.BreedingSteps` | models/treatment.py:190-211 | After Bovalto1 on 11-30, Bovalto2 is due 12-21, Ringworm1 12-26 and Ringworm2 2024-01-09 |
| `Scenarios.FatteningBornNovember20` | models/calf.py:121-134 | A fattening calf born 2023-11-20 that is to be dehorned gets Bovalto1 11-30, Dehorn 12-05, Restall 12-11 and Sell 12-19 |
| `Scenarios.BreedingBornNovember20` | models/calf.py:241-256 | A breeding calf born 2023-11-20 gets Bovalto1 11-30, Restall 12-11, Bovalto2 12-21, Ringworm1 12-26 and Ringworm2 2024-01-09 |

### Where the model follows the code rather than its description

- `get_calf` returns `None` for an unknown tag rather than raising. `Farms.GetCalf`
  returns `None` to match.
  - `change_ear_tag` and `edit_calf` then fail on that `None`; the model gives
    `Failure(CalfNotFound(tag))`.
  - `edit_calf` with kind `Sell` and an unknown tag reaches no attribute access. It
    re-batches and succeeds, and `Edits.EditCalf` says so.
- `Gender` defines no `__str__`, so `str(Gender.Male)` is `"Gender.Male"`, not `"m"`.
  `Genders.Repr` gives that form. The value `"m"` or `"w"` is `Genders.Value`.
- `edit_calf` re-batches after every edit. So edits of a breeding calf's ringworm dates
  (or of Sell on a breeding calf, which does nothing) are overwritten by the re-batching
  (`Edits.EditCalfRingwormOverwritten`).
- `Farm.change_ear_tag` makes no uniqueness check (`Farms.ChangeEarTagCanDuplicate`).
- `delete_ringworm1` and `delete_ringworm2` on their own leave the cached list stale, so
  `get_jobs_in_week` still reports the cleared node (`Reports.DeletedRingworm1StillListed`).
  `delete_ringworm`, the one `set_ringworm` uses, refreshes the list.
- `Sell` and `Bovalto2` share order id 4, so `<=` across kinds is not a total order
  (`Treatments.LessEqNotTransitiveAcrossSharedRank`). The two never appear on the same calf.

## Left out

- Persistence (`data/db_handler.py`), the spreadsheet import (`data/__init__.py`) and the
  Streamlit pages and views: they are I/O and user interface, not scheduling logic.
- The weight tables and pages: they are not connected to the models.
- `__str__`, `__repr__`, `print_treatment_dates` and the diagnostic `print` calls in
  `set_ringworm` and `get_calf`: console output only.
- `Calf.__lt__` and the other birthday comparisons on calves (models/calf.py:54-67): no
  operation of the scheduler uses them; batching sorts by `birth.expected_date` directly.
- Parsing a birthday given as a string in `Calf.__init__` (models/calf.py:76-78): the
  model takes the birthday as a day ordinal.
- The `Exception` for a calf that is neither fattening nor breeding (models/farm.py:57-60)
  and the repeated duplicate checks inside `__add_fattening_calf` and `__add_breeding_calf`
  (models/farm.py:62-76): the calf type is a closed datatype, and the first check in
  `add_calf` already rejects duplicates.
- The "Rest days not defined" exception in `calculate_expected_date`: every kind defines
  its rest days.
- Python's date range (years 1 to 9999) and the `datetime.date` type: dates are unbounded
  integer ordinals.
- Farms.AddCalves: with re-batching on, the breeding calves added are described by their
  tags and their number, not calf by calf. Each addition re-sorts that list and recomputes
  its ringworm dates, so its order is `set_ringworm`'s and not the order of addition. The
  fattening list is stated exactly.
- Genders.Lower: lower-cases ASCII letters only, where Python's `str.lower` follows
  Unicode. No other character lower-cases to "m" or "w", so `FromStr` accepts exactly
  the same strings.
- The ordering operators compare kinds by class identity (`isinstance`). The model
  compares the `Kind` tags, which is the same, since no treatment class inherits from
  another.

=== FILE: batching.dfy ===
/**
 * `Farm.set_ringworm` (models/farm.py): breeding calves are sorted by planned birth
 * date, cut into batches that share a ringworm week, and every batch of at least
 * five gets its ringworm treatments synchronised to its latest second vaccination;
 * smaller batches lose them.
 */
module Batching {
  import opened Wrappers
  import opened Treatments
  import opened Calves
  import opened Sorting
  import opened Seqs

  /** The sort key: `birth.expected_date`, not the resolved birth date. */
  function BirthKey(c: BreedingCalf): int
  {
    c.birth.expected
  }

  /** The ISO week of a fresh `Ringworm1(bovalto_2)`: the week the look-ahead compares. */
  function RingwormWeek(c: BreedingCalf): int
  {
    Week(Derive(Ringworm1, c.bovalto2))
  }

  /** What the batching loop reads of one calf. */
  datatype Key = Key(tag: int, week: int)

  function Keys(cs: seq<BreedingCalf>): seq<Key>
  {
    seq(|cs|, i requires 0 <= i < |cs| => Key(cs[i].earTag, RingwormWeek(cs[i])))
  }

  /**
   * The loop that cuts the sorted calves into batches. `open` is the batch being filled;
   * the source's counter `i` is `|open| + 1`. A calf stays in the open batch when the next
   * calf's ringworm week is the same or the batch is still short of five; otherwise the
   * batch closes after it. The last calf always closes its batch.
   */
  function Slices(keys: seq<Key>, open: seq<Key>): seq<seq<Key>>
    decreases |keys|
  {
    if |keys| == 0 then []
    else if |keys| == 1 then [open + [keys[0]]]
    else if keys[0].week == keys[1].week || |open| + 1 < 5 then Slices(keys[1..], open + [keys[0]])
    else [open + [keys[0]]] + Slices(keys[1..], [])
  }

  /** Inside a batch, a calf is followed by one of the same week, or the batch is still short of five at that point. */
  predicate Linked(s: seq<Key>)
  {
    forall p :: 0 <= p < |s| - 1 ==> s[p].week == s[p + 1].week || p < 4
  }

  /**
   * The shape of the batches: none is empty; inside each, every step is justified by a
   * shared week or a batch still short of five; and each batch but the last holds at
   * least five and closes where the week changes.
   */
  predicate Shaped(S: seq<seq<Key>>)
  {
    && |S| > 0
    && (forall i :: 0 <= i < |S| ==> |S[i]| > 0 && Linked(S[i]))
    && (forall i :: 0 <= i < |S| - 1 ==> |S[i]| >= 5 && S[i][|S[i]| - 1].week != S[i + 1][0].week)
  }

  /** The look-ahead lays the calves end to end in order, in batches of that shape. */
  lemma {:induction false} SlicesShape(keys: seq<Key>, open: seq<Key>)
    requires |keys| > 0
    requires Linked(open)
    requires |open| > 0 ==> open[|open| - 1].week == keys[0].week || |open| - 1 < 4
    ensures Shaped(Slices(keys, open))
    ensures Concat(Slices(keys, open)) == open + keys
    ensures Slices(keys, open)[0][0] == (open + keys)[0]
  {
    var S := Slices(keys, open);
    var o := open + [keys[0]];
    LinkedAppend(open, keys[0]);
    assert o + keys[1..] == open + keys;
    if |keys| == 1 {
      assert Concat(S) == o + Concat(S[1..]);
    } else if keys[0].week == keys[1].week || |open| + 1 < 5 {
      SlicesShape(keys[1..], o);
    } else {
      SlicesShape(keys[1..], []);
      var T := Slices(keys[1..], []);
      assert S == [o] + T;
      ShapedCons(o, T);
    }
  }

  /** One more key on a linked open batch keeps it linked, when the step is justified. */
  lemma LinkedAppend(open: seq<Key>, k: Key)
    requires Linked(open)
    requires |open| > 0 ==> open[|open| - 1].week == k.week || |open| - 1 < 4
    ensures Linked(open + [k])
  {
    var o := open + [k];
    forall p | 0 <= p < |o| - 1
      ensures o[p].week == o[p + 1].week || p < 4
    {
      if p < |open| - 1 {
        assert o[p] == open[p] && o[p + 1] == open[p + 1];
      }
    }
  }

  /** A closed batch of five or more in front of well-shaped batches starting in another week. */
  lemma ShapedCons(o: seq<Key>, T: seq<seq<Key>>)
    requires |o| >= 5 && Linked(o) && Shaped(T)
    requires o[|o| - 1].week != T[0][0].week
    ensures Shaped([o] + T)
  {
    var S: seq<seq<Key>> := [o] + T;
    forall i | 0 <= i < |S| - 1
      ensures |S[i]| >= 5 && S[i][|S[i]| - 1].week != S[i + 1][0].week
    {
      if i > 0 {
        assert S[i] == T[i - 1] && S[i + 1] == T[i];
      }
    }
  }

  function TagsOfKeys(ks: seq<Key>): seq<int>
  {
    seq(|ks|, i requires 0 <= i < |ks| => ks[i].tag)
  }

  /** `ear_tag_slices`: the batches of a sorted list, as ear tags. */
  function Batches(sorted: seq<BreedingCalf>): seq<seq<int>>
  {
    var S := Slices(Keys(sorted), []);
    seq(|S|, j requires 0 <= j < |S| => TagsOfKeys(S[j]))
  }

  lemma {:induction false} ConcatTags(S: seq<seq<Key>>)
    ensures Concat(seq(|S|, j requires 0 <= j < |S| => TagsOfKeys(S[j]))) == TagsOfKeys(Concat(S))
  {
    if |S| > 0 {
      var B := seq(|S|, j requires 0 <= j < |S| => TagsOfKeys(S[j]));
      ConcatTags(S[1..]);
      assert B[1..] == seq(|S[1..]|, j requires 0 <= j < |S[1..]| => TagsOfKeys(S[1..][j]));
      assert TagsOfKeys(S[0] + Concat(S[1..])) == TagsOfKeys(S[0]) + TagsOfKeys(Concat(S[1..]));
    }
  }

  /**
   * Every breeding calf is in a batch: the batches hold the sorted ear tags end to end,
   * none is empty, and all but the last hold at least five.
   */
  lemma BatchesPartition(sorted: seq<BreedingCalf>)
    ensures Concat(Batches(sorted)) == EarTags(sorted)
    ensures forall j :: 0 <= j < |Batches(sorted)| ==> |Batches(sorted)[j]| > 0
    ensures forall j :: 0 <= j < |Batches(sorted)| - 1 ==> |Batches(sorted)[j]| >= 5
  {
    var S := Slices(Keys(sorted), []);
    ConcatTags(S);
    if |sorted| > 0 {
      SlicesShape(Keys(sorted), []);
      assert TagsOfKeys(Keys(sorted)) == EarTags(sorted);
    }
  }

  /**
   * `max(..., key=lambda calf: calf.bovalto_2)`: scanning left to right, a later calf
   * replaces the current maximum only when its second vaccination compares greater, so
   * the first calf with the latest resolved date wins.
   */
  function MaxBovalto2(cs: seq<BreedingCalf>): (m: BreedingCalf)
    requires |cs| > 0
    ensures m in cs
    ensures forall x :: x in cs ==> Resolved(x.bovalto2) <= Resolved(m.bovalto2)
    ensures exists i :: 0 <= i < |cs| && cs[i] == m &&
                        forall j :: 0 <= j < i ==> Resolved(cs[j].bovalto2) < Resolved(m.bovalto2)
    decreases |cs|
  {
    if |cs| == 1 then cs[0]
    else
      var best := MaxBovalto2(cs[..|cs| - 1]);
      var x := cs[|cs| - 1];
      var m := if Greater(Bovalto2, x.bovalto2, Bovalto2, best.bovalto2) then x else best;
      MaxStep(cs, cs[..|cs| - 1], best, m);
      m
  }

  /** One step of the scan: the last calf wins only when strictly greater than the best before it. */
  lemma MaxStep(cs: seq<BreedingCalf>, p: seq<BreedingCalf>, best: BreedingCalf, m: BreedingCalf)
    requires |cs| > 1 && p == cs[..|cs| - 1]
    requires best in p
    requires forall y :: y in p ==> Resolved(y.bovalto2) <= Resolved(best.bovalto2)
    requires exists i :: 0 <= i < |p| && p[i] == best &&
                         forall j :: 0 <= j < i ==> Resolved(p[j].bovalto2) < Resolved(best.bovalto2)
    requires m == if Greater(Bovalto2, cs[|cs| - 1].bovalto2, Bovalto2, best.bovalto2) then cs[|cs| - 1] else best
    ensures m in cs
    ensures forall y :: y in cs ==> Resolved(y.bovalto2) <= Resolved(m.bovalto2)
    ensures exists i :: 0 <= i < |cs| && cs[i] == m &&
                        forall j :: 0 <= j < i ==> Resolved(cs[j].bovalto2) < Resolved(m.bovalto2)
  {
    var x := cs[|cs| - 1];
    ComparisonsByKey(Bovalto2, x.bovalto2, Bovalto2, best.bovalto2);
    assert cs == p + [x];
    var i :| 0 <= i < |p| && p[i] == best &&
             forall j :: 0 <= j < i ==> Resolved(p[j].bovalto2) < Resolved(best.bovalto2);
    if Greater(Bovalto2, x.bovalto2, Bovalto2, best.bovalto2) {
      assert forall j :: 0 <= j < |p| ==> cs[j] in p;
    } else {
      assert cs[i] == m;
    }
  }

  /** The maximum depends only on the second vaccinations, position by position. */
  lemma {:induction false} MaxBovalto2ReadsBovalto2(a: seq<BreedingCalf>, b: seq<BreedingCalf>)
    requires |a| == |b| > 0
    requires forall i :: 0 <= i < |a| ==> a[i].bovalto2 == b[i].bovalto2
    ensures MaxBovalto2(a).bovalto2 == MaxBovalto2(b).bovalto2
  {
    if |a| > 1 {
      MaxBovalto2ReadsBovalto2(a[..|a| - 1], b[..|b| - 1]);
    }
  }

  /** Every ear tag of a batch belongs to a calf of the list. */
  predicate Covered(list: seq<BreedingCalf>, tags: seq<int>)
  {
    forall t :: t in tags ==> t in EarTags(list)
  }

  /** `self.get_breeding_calf(ear_tag) for ear_tag in ear_tags_list`. */
  function LookupAll(list: seq<BreedingCalf>, tags: seq<int>): (r: seq<BreedingCalf>)
    requires Covered(list, tags)
    ensures |r| == |tags|
    ensures forall k :: 0 <= k < |tags| ==> Some(r[k]) == FindByTag(list, tags[k])
  {
    seq(|tags|, k requires 0 <= k < |tags| => FindByTag(list, tags[k]).value)
  }

  /**
   * The anchor of a batch: with at least five ear tags, the latest second vaccination
   * among the calves its tags look up; with fewer, none.
   */
  function BatchAnchor(list: seq<BreedingCalf>, tags: seq<int>): (a: Option<Treatment>)
    requires Covered(list, tags)
    ensures a.Some? <==> |tags| >= 5
    ensures a.Some? ==> exists t :: t in tags && FindByTag(list, t).value.bovalto2 == a.value
    ensures a.Some? ==> forall t :: t in tags ==> Resolved(FindByTag(list, t).value.bovalto2) <= Resolved(a.value)
  {
    if |tags| >= 5 then
      var cands := LookupAll(list, tags);
      var m := MaxBovalto2(cands);
      LookupAllMembers(list, tags, m);
      Some(m.bovalto2)
    else None
  }

  /** The calves looked up are those of the tags, and the maximum among them is one of them. */
  lemma LookupAllMembers(list: seq<BreedingCalf>, tags: seq<int>, m: BreedingCalf)
    requires Covered(list, tags) && m in LookupAll(list, tags)
    ensures forall t :: t in tags ==> FindByTag(list, t).value in LookupAll(list, tags)
    ensures exists t :: t in tags && FindByTag(list, t).value == m
  {
    var cands := LookupAll(list, tags);
    forall t | t in tags
      ensures FindByTag(list, t).value in cands
    {
      var k :| 0 <= k < |tags| && tags[k] == t;
      assert cands[k] == FindByTag(list, t).value;
    }
    var k :| 0 <= k < |cands| && cands[k] == m;
    assert tags[k] in tags && FindByTag(list, tags[k]).value == m;
  }

  /** The anchor depends only on the ear tags and second vaccinations of the list. */
  lemma AnchorReadsStripped(l1: seq<BreedingCalf>, l2: seq<BreedingCalf>, tags: seq<int>)
    requires |l1| == |l2| && forall i :: 0 <= i < |l1| ==> Strip(l1[i]) == Strip(l2[i])
    requires Covered(l1, tags)
    ensures Covered(l2, tags) && BatchAnchor(l1, tags) == BatchAnchor(l2, tags)
  {
    assert EarTags(l1) == EarTags(l2) by {
      forall i | 0 <= i < |l1|
        ensures EarTags(l1)[i] == EarTags(l2)[i]
      {
        assert Strip(l1[i]).earTag == Strip(l2[i]).earTag;
      }
    }
    if |tags| >= 5 {
      var c1 := LookupAll(l1, tags);
      var c2 := LookupAll(l2, tags);
      forall k | 0 <= k < |tags|
        ensures c1[k].bovalto2 == c2[k].bovalto2
      {
        var i := IndexOf(EarTags(l1), tags[k]);
        assert Strip(l1[i]).bovalto2 == Strip(l2[i]).bovalto2;
      }
      MaxBovalto2ReadsBovalto2(c1, c2);
    }
  }

  /** A settled calf: ringworm treatments both present or both absent, and the cached list current. */
  predicate Settled(c: BreedingCalf)
  {
    ListCurrent(c) && (c.ringworm1.Some? <==> c.ringworm2.Some?)
  }

  /** One member of a batch: `recalc_ringworm` from the anchor, or `delete_ringworm` when there is none. */
  function Settle(c: BreedingCalf, anchor: Option<Treatment>): (r: BreedingCalf)
    ensures Strip(r) == Strip(c)
    ensures Settled(r)
    ensures anchor.Some? ==> r.ringworm1 == Some(Derive(Ringworm1, anchor.value)) && FreshFromRingworm1(r)
    ensures anchor.None? ==> r.ringworm1.None? && r.ringworm2.None?
    ensures Consistent(Strip(c)) ==> Consistent(r)
  {
    match anchor
    case Some(b2) => RecalcRingworm(c, b2)
    case None => DeleteRingworm(c)
  }

  /** Settling reads nothing of the calf's old ringworm treatments or cached list. */
  lemma SettleReadsStripped(c1: BreedingCalf, c2: BreedingCalf, anchor: Option<Treatment>)
    requires Strip(c1) == Strip(c2)
    ensures Settle(c1, anchor) == Settle(c2, anchor)
  {
  }

  /** One batch applied: every calf whose tag is in the batch is settled against the batch's anchor. */
  function ApplyBatch(list: seq<BreedingCalf>, tags: seq<int>): (r: seq<BreedingCalf>)
    requires Covered(list, tags)
    ensures |r| == |list|
    ensures forall i :: 0 <= i < |list| ==> Strip(r[i]) == Strip(list[i])
    ensures forall i :: 0 <= i < |list| && list[i].earTag in tags ==> Settled(r[i])
    ensures forall i :: 0 <= i < |list| && list[i].earTag !in tags ==> r[i] == list[i]
    ensures forall i :: 0 <= i < |list| && WellFormed(list[i]) ==> WellFormed(r[i])
    ensures forall i :: 0 <= i < |list| && Consistent(list[i]) ==> Consistent(r[i])
  {
    var anchor := BatchAnchor(list, tags);
    seq(|list|, i requires 0 <= i < |list| => if list[i].earTag in tags then Settle(list[i], anchor) else list[i])
  }

  /** All ear tags of all batches belong to calves of the list. */
  predicate CoveredAll(list: seq<BreedingCalf>, batches: seq<seq<int>>)
  {
    forall j :: 0 <= j < |batches| ==> Covered(list, batches[j])
  }

  lemma StripKeepsTags(l1: seq<BreedingCalf>, l2: seq<BreedingCalf>)
    requires |l1| == |l2| && forall i :: 0 <= i < |l1| ==> Strip(l1[i]) == Strip(l2[i])
    ensures EarTags(l1) == EarTags(l2)
  {
    forall i | 0 <= i < |l1|
      ensures EarTags(l1)[i] == EarTags(l2)[i]
    {
      assert Strip(l1[i]).earTag == Strip(l2[i]).earTag;
    }
  }

  /**
   * The batches applied in order. Every calf whose tag some batch holds ends up settled;
   * the others are left as they were; nothing but ringworm treatments and cached lists changes.
   */
  function ApplyBatches(list: seq<BreedingCalf>, batches: seq<seq<int>>): (r: seq<BreedingCalf>)
    requires CoveredAll(list, batches)
    ensures |r| == |list|
    ensures forall i :: 0 <= i < |list| ==> Strip(r[i]) == Strip(list[i])
    ensures forall i :: 0 <= i < |list| && list[i].earTag in Concat(batches) ==> Settled(r[i])
    ensures forall i :: 0 <= i < |list| && list[i].earTag !in Concat(batches) ==> r[i] == list[i]
    ensures forall i :: 0 <= i < |list| && WellFormed(list[i]) ==> WellFormed(r[i])
    ensures forall i :: 0 <= i < |list| && Consistent(list[i]) ==> Consistent(r[i])
    decreases |batches|
  {
    if |batches| == 0 then list
    else
      var next := ApplyBatch(list, batches[0]);
      StripKeepsTags(next, list);
      assert CoveredAll(next, batches[1..]) by {
        forall j | 0 <= j < |batches[1..]|
          ensures Covered(next, batches[1..][j])
        {
          assert Covered(list, batches[j + 1]);
        }
      }
      ApplyBatches(next, batches[1..])
  }

  /** `set_ringworm` on the breeding list: sort, cut into batches, apply them. */
  function SetRingworm(breeding: seq<BreedingCalf>): (r: seq<BreedingCalf>)
    ensures |r| == |breeding|
    ensures SortedBy(r, BirthKey)
    ensures forall i :: 0 <= i < |r| ==> Strip(r[i]) == Strip(Sort(breeding, BirthKey)[i])
    ensures forall i :: 0 <= i < |r| ==> Settled(r[i])
  {
    var sorted := Sort(breeding, BirthKey);
    SortSorted(breeding, BirthKey);
    BatchesCoverAll(sorted);
    var r := ApplyBatches(sorted, Batches(sorted));
    StripKeepsBirthKeys(r, sorted);
    r
  }

  /** The batches of a list hold exactly its ear tags, so every calf is in one. */
  lemma BatchesCoverAll(sorted: seq<BreedingCalf>)
    ensures CoveredAll(sorted, Batches(sorted))
    ensures forall i :: 0 <= i < |sorted| ==> sorted[i].earTag in Concat(Batches(sorted))
  {
    var batches := Batches(sorted);
    BatchesPartition(sorted);
    forall j, t | 0 <= j < |batches| && t in batches[j]
      ensures t in EarTags(sorted)
    {
      ConcatMember(batches, j, t);
    }
    forall i | 0 <= i < |sorted|
      ensures sorted[i].earTag in Concat(batches)
    {
      assert EarTags(sorted)[i] == sorted[i].earTag;
    }
  }

  /** Lists equal up to ringworm treatments are ordered alike. */
  lemma StripKeepsBirthKeys(r: seq<BreedingCalf>, sorted: seq<BreedingCalf>)
    requires |r| == |sorted| && forall i :: 0 <= i < |r| ==> Strip(r[i]) == Strip(sorted[i])
    requires SortedBy(sorted, BirthKey)
    ensures SortedBy(r, BirthKey)
  {
    forall i | 0 <= i < |r|
      ensures BirthKey(r[i]) == BirthKey(sorted[i])
    {
      assert Strip(r[i]).birth == Strip(sorted[i]).birth;
    }
  }

  /** Two runs over lists equal up to ringworm treatments agree on every calf some batch settles. */
  lemma {:induction false} ApplyBatchesAgree(l1: seq<BreedingCalf>, l2: seq<BreedingCalf>,
                                             batches: seq<seq<int>>, done: set<int>)
    requires CoveredAll(l1, batches)
    requires |l1| == |l2|
    requires forall i :: 0 <= i < |l1| ==> Strip(l1[i]) == Strip(l2[i])
    requires forall i :: 0 <= i < |l1| && l1[i].earTag in done ==> l1[i] == l2[i]
    ensures CoveredAll(l2, batches)
    ensures forall i :: 0 <= i < |l1| && (l1[i].earTag in done || l1[i].earTag in Concat(batches)) ==>
              ApplyBatches(l1, batches)[i] == ApplyBatches(l2, batches)[i]
    decreases |batches|
  {
    StripKeepsTags(l1, l2);
    if |batches| > 0 {
      var n1 := ApplyBatch(l1, batches[0]);
      var n2 := ApplyBatch(l2, batches[0]);
      AnchorReadsStripped(l1, l2, batches[0]);
      forall i | 0 <= i < |l1| && l1[i].earTag in batches[0]
        ensures n1[i] == n2[i]
      {
        SettleReadsStripped(l1[i], l2[i], BatchAnchor(l1, batches[0]));
      }
      StripKeepsTags(n1, l1);
      assert CoveredAll(n1, batches[1..]) by {
        forall j | 0 <= j < |batches[1..]|
          ensures Covered(n1, batches[1..][j])
        {
          assert Covered(l1, batches[j + 1]);
        }
      }
      var done' := done + set t | t in batches[0];
      ApplyBatchesAgree(n1, n2, batches[1..], done');
      forall i | 0 <= i < |l1| && (l1[i].earTag in done || l1[i].earTag in Concat(batches))
        ensures ApplyBatches(l1, batches)[i] == ApplyBatches(l2, batches)[i]
      {
        assert n1[i].earTag == l1[i].earTag;
        assert n1[i].earTag in done' || n1[i].earTag in Concat(batches[1..]);
      }
    }
  }

  /** Running batching on its own output changes nothing. */
  lemma SetRingwormIdempotent(breeding: seq<BreedingCalf>)
    ensures SetRingworm(SetRingworm(breeding)) == SetRingworm(breeding)
  {
    var sorted := Sort(breeding, BirthKey);
    var r := SetRingworm(breeding);
    SortOfSorted(r, BirthKey);
    assert Keys(r) == Keys(sorted) by {
      forall i | 0 <= i < |r|
        ensures Keys(r)[i] == Keys(sorted)[i]
      {
        assert Strip(r[i]).earTag == Strip(sorted[i]).earTag;
        assert Strip(r[i]).bovalto2 == Strip(sorted[i]).bovalto2;
      }
    }
    var batches := Batches(sorted);
    BatchesPartition(sorted);
    assert CoveredAll(r, batches) by {
      StripKeepsTags(r, sorted);
      forall j, t | 0 <= j < |batches| && t in batches[j]
        ensures t in EarTags(r)
      {
        ConcatMember(batches, j, t);
      }
    }
    ApplyBatchesAgree(r, sorted, batches, {});
    forall i | 0 <= i < |r|
      ensures r[i].earTag in Concat(batches)
    {
      assert Strip(r[i]).earTag == Strip(sorted[i]).earTag;
      assert EarTags(sorted)[i] == sorted[i].earTag;
    }
  }

  function TagOf(c: BreedingCalf): int
  {
    c.earTag
  }

  /** Sorting keeps the ear tags unique. */
  lemma SortKeepsUnique(breeding: seq<BreedingCalf>)
    requires Unique(EarTags(breeding))
    ensures Unique(EarTags(Sort(breeding, BirthKey)))
  {
    SortKeepsTags(breeding);
    UniqueMultiset(EarTags(breeding));
    UniqueMultiset(EarTags(Sort(breeding, BirthKey)));
  }

  /** With tags unique overall, each calf is settled by the one batch holding its tag, against that batch's anchor. */
  lemma {:induction false} ApplyBatchesOutcome(list: seq<BreedingCalf>, batches: seq<seq<int>>)
    requires CoveredAll(list, batches) && Unique(Concat(batches))
    ensures forall i, j :: 0 <= i < |list| && 0 <= j < |batches| && list[i].earTag in batches[j] ==>
      ApplyBatches(list, batches)[i] == Settle(list[i], BatchAnchor(list, batches[j]))
    decreases |batches|
  {
    if |batches| > 0 {
      var next := ApplyBatch(list, batches[0]);
      StripKeepsTags(next, list);
      assert CoveredAll(next, batches[1..]) by {
        forall j | 0 <= j < |batches[1..]|
          ensures Covered(next, batches[1..][j])
        {
          assert Covered(list, batches[j + 1]);
        }
      }
      UniqueSplit(batches[0], Concat(batches[1..]));
      ApplyBatchesOutcome(next, batches[1..]);
      forall i, j | 0 <= i < |list| && 0 <= j < |batches| && list[i].earTag in batches[j]
        ensures ApplyBatches(list, batches)[i] == Settle(list[i], BatchAnchor(list, batches[j]))
      {
        assert next[i].earTag == list[i].earTag;
        if j == 0 {
          assert list[i].earTag !in Concat(batches[1..]);
        } else {
          assert batches[1..][j - 1] == batches[j];
          ConcatMember(batches[1..], j - 1, list[i].earTag);
          assert next[i] == list[i];
          AnchorReadsStripped(next, list, batches[j]);
        }
      }
    }
  }

  /**
   * The outcome per calf, when ear tags are unique: in a batch of five or more, Ringworm1
   * is freshly derived from the batch's latest second vaccination and Ringworm2 from it;
   * in a smaller batch both are cleared.
   */
  lemma SetRingwormOutcome(breeding: seq<BreedingCalf>)
    requires Unique(EarTags(breeding))
    ensures var sorted := Sort(breeding, BirthKey); CoveredAll(sorted, Batches(sorted))
    ensures var sorted := Sort(breeding, BirthKey); var batches := Batches(sorted); var r := SetRingworm(breeding);
      forall i, j :: 0 <= i < |r| && 0 <= j < |batches| && r[i].earTag in batches[j] ==>
        && (|batches[j]| >= 5 ==>
              r[i].ringworm1 == Some(Derive(Ringworm1, BatchAnchor(sorted, batches[j]).value)) &&
              FreshFromRingworm1(r[i]))
        && (|batches[j]| < 5 ==> r[i].ringworm1.None? && r[i].ringworm2.None?)
  {
    var sorted := Sort(breeding, BirthKey);
    var batches := Batches(sorted);
    var r := SetRingworm(breeding);
    BatchesPartition(sorted);
    SortKeepsUnique(breeding);
    assert CoveredAll(sorted, batches) by {
      forall j, t | 0 <= j < |batches| && t in batches[j]
        ensures t in EarTags(sorted)
      {
        ConcatMember(batches, j, t);
      }
    }
    ApplyBatchesOutcome(sorted, batches);
    forall i, j | 0 <= i < |r| && 0 <= j < |batches| && r[i].earTag in batches[j]
      ensures sorted[i].earTag in batches[j]
    {
      assert Strip(r[i]).earTag == Strip(sorted[i]).earTag;
    }
  }

  /** Fewer than five breeding calves make no batch of five: every ringworm treatment is cleared. */
  lemma SmallHerdClears(breeding: seq<BreedingCalf>)
    requires Unique(EarTags(breeding)) && |breeding| < 5
    ensures forall i :: 0 <= i < |SetRingworm(breeding)| ==>
      SetRingworm(breeding)[i].ringworm1.None? && SetRingworm(breeding)[i].ringworm2.None?
  {
    forall i | 0 <= i < |SetRingworm(breeding)|
      ensures SetRingworm(breeding)[i].ringworm1.None? && SetRingworm(breeding)[i].ringworm2.None?
    {
      SmallHerdAt(breeding, Sort(breeding, BirthKey), SetRingworm(breeding), i);
    }
  }

  /** `SmallHerdClears` for the calf at position `i`. */
  lemma SmallHerdAt(breeding: seq<BreedingCalf>, sorted: seq<BreedingCalf>, r: seq<BreedingCalf>, i: int)
    requires sorted == Sort(breeding, BirthKey) && r == SetRingworm(breeding)
    requires Unique(EarTags(breeding)) && |breeding| < 5 && 0 <= i < |r|
    ensures r[i].ringworm1.None? && r[i].ringworm2.None?
  {
    var batches := Batches(sorted);
    BatchesPartition(sorted);
    assert Strip(r[i]).earTag == Strip(sorted[i]).earTag;
    assert EarTags(sorted)[i] == r[i].earTag;
    ConcatSplit(batches, r[i].earTag);
    var j :| 0 <= j < |batches| && r[i].earTag in batches[j];
    ConcatLength(batches, j);
    SetRingwormOutcomeAt(breeding, sorted, r, i, j);
  }

  /** With every key in one week, the look-ahead never closes a batch early: one batch holds all. */
  lemma {:induction false} SingleWeekSlices(keys: seq<Key>, open: seq<Key>, w: int)
    requires |keys| > 0
    requires forall p :: 0 <= p < |keys| ==> keys[p].week == w
    ensures Slices(keys, open) == [open + keys]
    decreases |keys|
  {
    if |keys| == 1 {
      assert keys == [keys[0]];
    } else {
      assert keys[0].week == keys[1].week;
      SingleWeekSlices(keys[1..], open + [keys[0]], w);
      assert open + [keys[0]] + keys[1..] == open + keys;
    }
  }

  /** A sorted list whose ringworm treatments share one week is a single batch. */
  lemma OneWeekBatches(sorted: seq<BreedingCalf>, w: int)
    requires |sorted| > 0
    requires forall c :: c in sorted ==> RingwormWeek(c) == w
    ensures Batches(sorted) == [EarTags(sorted)]
  {
    var keys := Keys(sorted);
    assert forall p :: 0 <= p < |keys| ==> keys[p].week == w by {
      forall p | 0 <= p < |keys|
        ensures keys[p].week == w
      {
        assert sorted[p] in sorted;
      }
    }
    SingleWeekSlices(keys, [], w);
    assert [] + keys == keys;
    assert TagsOfKeys(keys) == EarTags(sorted);
  }

  /**
   * Breeding calves whose sorted list forms a single batch of five or more all get the same
   * first ringworm treatment, derived from the batch's anchor. `sorted` and `r` name the
   * sorted list and the result of `set_ringworm`.
   */
  lemma OneBatchRingworm(breeding: seq<BreedingCalf>, sorted: seq<BreedingCalf>, r: seq<BreedingCalf>)
    requires sorted == Sort(breeding, BirthKey) && r == SetRingworm(breeding)
    requires Unique(EarTags(breeding)) && |breeding| >= 5
    requires Batches(sorted) == [EarTags(sorted)]
    ensures Covered(sorted, EarTags(sorted)) && BatchAnchor(sorted, EarTags(sorted)).Some?
    ensures forall i :: 0 <= i < |r| ==>
      r[i].ringworm1 == Some(Derive(Ringworm1, BatchAnchor(sorted, EarTags(sorted)).value))
  {
    forall i | 0 <= i < |r|
      ensures r[i].ringworm1 == Some(Derive(Ringworm1, BatchAnchor(sorted, EarTags(sorted)).value))
    {
      OneBatchAt(breeding, sorted, r, i);
    }
  }

  /** `OneBatchRingworm` for the calf at position `i`. */
  lemma OneBatchAt(breeding: seq<BreedingCalf>, sorted: seq<BreedingCalf>, r: seq<BreedingCalf>, i: int)
    requires sorted == Sort(breeding, BirthKey) && r == SetRingworm(breeding)
    requires Unique(EarTags(breeding)) && |breeding| >= 5 && 0 <= i < |breeding|
    requires Batches(sorted) == [EarTags(sorted)]
    ensures Covered(sorted, EarTags(sorted))
    ensures r[i].ringworm1 == Some(Derive(Ringworm1, BatchAnchor(sorted, EarTags(sorted)).value))
  {
    assert Strip(r[i]).earTag == Strip(sorted[i]).earTag;
    assert EarTags(sorted)[i] == r[i].earTag;
    SetRingwormOutcomeAt(breeding, sorted, r, i, 0);
  }

  /** `SetRingwormOutcome` for the calf at position `i`, whose tag is in batch `j`. */
  lemma SetRingwormOutcomeAt(breeding: seq<BreedingCalf>, sorted: seq<BreedingCalf>, r: seq<BreedingCalf>, i: int, j: int)
    requires sorted == Sort(breeding, BirthKey) && r == SetRingworm(breeding)
    requires Unique(EarTags(breeding))
    requires 0 <= i < |r| && 0 <= j < |Batches(sorted)| && r[i].earTag in Batches(sorted)[j]
    ensures Covered(sorted, Batches(sorted)[j])
    ensures |Batches(sorted)[j]| >= 5 ==>
      r[i].ringworm1 == Some(Derive(Ringworm1, BatchAnchor(sorted, Batches(sorted)[j]).value))
    ensures |Batches(sorted)[j]| < 5 ==> r[i].ringworm1.None? && r[i].ringworm2.None?
  {
    SetRingwormOutcome(breeding);
  }

  /**
   * Five or more breeding calves whose ringworm treatment falls in one week form one
   * batch: every calf gets the same first ringworm treatment, derived from the batch's
   * anchor, which `AnchorBounds` shows is the latest second vaccination among them.
   */
  lemma OneWeekOneBatch(breeding: seq<BreedingCalf>, sorted: seq<BreedingCalf>, r: seq<BreedingCalf>, w: int)
    requires sorted == Sort(breeding, BirthKey) && r == SetRingworm(breeding)
    requires Unique(EarTags(breeding)) && |breeding| >= 5
    requires forall i :: 0 <= i < |breeding| ==> RingwormWeek(breeding[i]) == w
    ensures Batches(sorted) == [EarTags(sorted)]
    ensures Covered(sorted, EarTags(sorted)) && BatchAnchor(sorted, EarTags(sorted)).Some?
    ensures forall i :: 0 <= i < |r| ==>
      r[i].ringworm1 == Some(Derive(Ringworm1, BatchAnchor(sorted, EarTags(sorted)).value))
  {
    SortedOneWeekBatches(breeding, w);
    OneBatchRingworm(breeding, sorted, r);
  }

  /** A herd whose ringworm treatments share one week is, once sorted, a single batch. */
  lemma SortedOneWeekBatches(breeding: seq<BreedingCalf>, w: int)
    requires |breeding| > 0
    requires forall i :: 0 <= i < |breeding| ==> RingwormWeek(breeding[i]) == w
    ensures Batches(Sort(breeding, BirthKey)) == [EarTags(Sort(breeding, BirthKey))]
  {
    SortSameMembers(breeding);
    OneWeekBatches(Sort(breeding, BirthKey), w);
  }

  /** The anchor of a batch holding a whole list of unique tags is a second vaccination of the list, and the latest. */
  lemma AnchorBounds(sorted: seq<BreedingCalf>, a: Treatment)
    requires Unique(EarTags(sorted)) && |sorted| >= 5
    requires Covered(sorted, EarTags(sorted)) && BatchAnchor(sorted, EarTags(sorted)) == Some(a)
    ensures exists c :: c in sorted && c.bovalto2 == a
    ensures forall c :: c in sorted ==> Resolved(c.bovalto2) <= Resolved(a)
  {
    var t :| t in EarTags(sorted) && FindByTag(sorted, t).value.bovalto2 == a;
    assert FindByTag(sorted, t).value in sorted;
    forall c | c in sorted
      ensures Resolved(c.bovalto2) <= Resolved(a)
    {
      var i :| 0 <= i < |sorted| && sorted[i] == c;
      assert EarTags(sorted)[i] == c.earTag;
      FindByTagUnique(sorted, i);
    }
  }

  /** Sorting keeps the same calves. */
  lemma SortSameMembers(breeding: seq<BreedingCalf>)
    ensures forall c :: c in Sort(breeding, BirthKey) <==> c in breeding
  {
    SortPermutes(breeding, BirthKey);
    var sorted := Sort(breeding, BirthKey);
    assert forall c :: c in sorted <==> c in multiset(sorted);
    assert forall c :: c in breeding <==> c in multiset(breeding);
  }

  /** Batching keeps every calf well formed and consistent. */
  lemma SetRingwormKeepsInvariants(breeding: seq<BreedingCalf>)
    ensures (forall c :: c in breeding ==> WellFormed(c)) ==> forall c :: c in SetRingworm(breeding) ==> WellFormed(c)
    ensures (forall c :: c in breeding ==> Consistent(c)) ==> forall c :: c in SetRingworm(breeding) ==> Consistent(c)
  {
    var sorted := Sort(breeding, BirthKey);
    var batches := Batches(sorted);
    SortPermutes(breeding, BirthKey);
    BatchesPartition(sorted);
    assert CoveredAll(sorted, batches) by {
      forall j, t | 0 <= j < |batches| && t in batches[j]
        ensures t in EarTags(sorted)
      {
        ConcatMember(batches, j, t);
      }
    }
    var r := ApplyBatches(sorted, batches);
    assert r == SetRingworm(breeding);
    forall i | 0 <= i < |sorted|
      ensures sorted[i] in breeding
    {
      assert sorted[i] in multiset(sorted);
    }
  }

  lemma SortReadsStripped(b1: seq<BreedingCalf>, b2: seq<BreedingCalf>)
    requires |b1| == |b2| && forall i :: 0 <= i < |b1| ==> Strip(b1[i]) == Strip(b2[i])
    ensures var s1 := Sort(b1, BirthKey); var s2 := Sort(b2, BirthKey);
      |s1| == |s2| && forall i :: 0 <= i < |s1| ==> Strip(s1[i]) == Strip(s2[i])
  {
    var s1 := Sort(b1, BirthKey);
    var s2 := Sort(b2, BirthKey);
    SortCommutes(b1, BirthKey, Strip, BirthKey);
    SortCommutes(b2, BirthKey, Strip, BirthKey);
    assert Image(Strip, b1) == Image(Strip, b2) by {
      forall i | 0 <= i < |b1|
        ensures Image(Strip, b1)[i] == Image(Strip, b2)[i]
      {
      }
    }
    assert Image(Strip, s1) == Image(Strip, s2);
    forall i | 0 <= i < |s1|
      ensures Strip(s1[i]) == Strip(s2[i])
    {
      assert Image(Strip, s1)[i] == Image(Strip, s2)[i];
    }
  }

  /** Batching reads nothing of the calves' old ringworm treatments or cached lists. */
  lemma SetRingwormReadsStripped(b1: seq<BreedingCalf>, b2: seq<BreedingCalf>)
    requires |b1| == |b2| && forall i :: 0 <= i < |b1| ==> Strip(b1[i]) == Strip(b2[i])
    ensures SetRingworm(b1) == SetRingworm(b2)
  {
    var s1 := Sort(b1, BirthKey);
    var s2 := Sort(b2, BirthKey);
    SortReadsStripped(b1, b2);
    assert Keys(s1) == Keys(s2) by {
      forall i | 0 <= i < |s1|
        ensures Keys(s1)[i] == Keys(s2)[i]
      {
        assert Strip(s1[i]).earTag == Strip(s2[i]).earTag;
        assert Strip(s1[i]).bovalto2 == Strip(s2[i]).bovalto2;
      }
    }
    var batches := Batches(s1);
    BatchesPartition(s1);
    assert CoveredAll(s1, batches) by {
      forall j, t | 0 <= j < |batches| && t in batches[j]
        ensures t in EarTags(s1)
      {
        ConcatMember(batches, j, t);
      }
    }
    ApplyBatchesAgree(s1, s2, batches, {});
    forall i | 0 <= i < |s1|
      ensures s1[i].earTag in Concat(batches)
    {
      assert EarTags(s1)[i] == s1[i].earTag;
    }
    assert ApplyBatches(s1, batches) == ApplyBatches(s2, batches);
  }

  /** Batching keeps the multiset of ear tags. */
  lemma SetRingwormKeepsTags(breeding: seq<BreedingCalf>)
    ensures multiset(EarTags(SetRingworm(breeding))) == multiset(EarTags(breeding))
  {
    SortKeepsTags(breeding);
    StripKeepsTags(SetRingworm(breeding), Sort(breeding, BirthKey));
  }

  /** Sorting permutes the ear tags. */
  lemma SortKeepsTags(breeding: seq<BreedingCalf>)
    ensures multiset(EarTags(Sort(breeding, BirthKey))) == multiset(EarTags(breeding))
  {
    SortPermutesImage(breeding, BirthKey, TagOf);
    assert Image(TagOf, breeding) == EarTags(breeding);
    assert Image(TagOf, Sort(breeding, BirthKey)) == EarTags(Sort(breeding, BirthKey));
  }

}

=== FILE: calendar.dfy ===
/**
 * The proleptic Gregorian calendar behind Python's `datetime.date`: conversion between
 * (year, month, day) and day ordinals, and the ISO 8601 week number that
 * `date.isocalendar().week` reports.
 */
module Calendar {
  import opened Day

  /** Days in the years before `y`: year 1 starts after day 0. */
  function DaysBeforeYear(y: int): int
  {
    var y1 := y - 1;
    y1 * 365 + y1 / 4 - y1 / 100 + y1 / 400
  }

  predicate IsLeap(y: int)
  {
    y % 4 == 0 && (y % 100 != 0 || y % 400 == 0)
  }

  function DaysInMonth(y: int, m: int): int
    requires 1 <= m <= 12
  {
    if m == 2 then (if IsLeap(y) then 29 else 28)
    else if m == 4 || m == 6 || m == 9 || m == 11 then 30
    else 31
  }

  function DaysBeforeMonth(y: int, m: int): int
    requires 1 <= m <= 12
    decreases m
  {
    if m == 1 then 0 else DaysBeforeMonth(y, m - 1) + DaysInMonth(y, m - 1)
  }

  /** `date(y, m, d).toordinal()`. */
  function Ordinal(y: int, m: int, d: int): Date
    requires 1 <= m <= 12 && 1 <= d <= DaysInMonth(y, m)
  {
    DaysBeforeYear(y) + DaysBeforeMonth(y, m) + d
  }

  /**
   * The year of day `n`, computed as `date.fromordinal` does: whole 400-, 100-, 4- and
   * 1-year cycles, where a fourth 100- or 1-year step lands on the last day of a leap cycle.
   */
  function YearOf(n: Date): int
  {
    var n0 := n - 1;
    var n400 := n0 / 146097;
    var r400 := n0 % 146097;
    var n100 := r400 / 36524;
    var r100 := r400 % 36524;
    var n4 := r100 / 1461;
    var r4 := r100 % 1461;
    var n1 := r4 / 365;
    var year := n400 * 400 + n100 * 100 + n4 * 4 + n1 + 1;
    if n1 == 4 || n100 == 4 then year - 1 else year
  }

  /** The Thursday of the Monday-to-Sunday week holding `n`. */
  function ThursdayOf(n: Date): Date
  {
    n - Value(WeekdayOf(n)) + 3
  }

  /**
   * The ISO 8601 week number of day `n`: weeks run Monday to Sunday, and a week belongs
   * to the year that holds its Thursday; week 1 is the one holding that year's first
   * Thursday. The year is not part of the result, as `isocalendar().week` is compared
   * without it.
   */
  function IsoWeek(n: Date): int
  {
    var t := ThursdayOf(n);
    (t - DaysBeforeYear(YearOf(t)) - 1) / 7 + 1
  }

  /** Days of one Monday-to-Sunday week share their ISO week number. */
  lemma IsoWeekConstantOverWeek(a: Date, b: Date)
    requires a - Value(WeekdayOf(a)) == b - Value(WeekdayOf(b))
    ensures IsoWeek(a) == IsoWeek(b)
  {
    assert ThursdayOf(a) == ThursdayOf(b);
  }

  /** A year has 365 days, or 366 in a leap year. */
  lemma YearLength(y: int)
    ensures DaysBeforeYear(y + 1) - DaysBeforeYear(y) == if IsLeap(y) then 366 else 365
  {
    StepBy4(y - 1);
    StepBy100(y - 1);
    StepBy400(y - 1);
  }

  lemma StepBy4(x: int)
    ensures (x + 1) / 4 - x / 4 == if (x + 1) % 4 == 0 then 1 else 0
  {
    if x % 4 == 3 { assert x + 1 == 4 * (x / 4 + 1); }
  }

  lemma StepBy100(x: int)
    ensures (x + 1) / 100 - x / 100 == if (x + 1) % 100 == 0 then 1 else 0
  {
    if x % 100 == 99 { assert x + 1 == 100 * (x / 100 + 1); }
  }

  lemma StepBy400(x: int)
    ensures (x + 1) / 400 - x / 400 == if (x + 1) % 400 == 0 then 1 else 0
  {
    if x % 400 == 399 { assert x + 1 == 400 * (x / 400 + 1); }
  }

  /** The calendar repeats every 400 years, which hold 146097 days. */
  lemma FourHundredYearCycle(q: int, k: int)
    ensures DaysBeforeYear(400 * q + 1 + k) == 146097 * q + DaysBeforeYear(1 + k)
  {
    var y1 := 400 * q + k;
    assert y1 / 4 == 100 * q + k / 4;
    assert y1 / 100 == 4 * q + k / 100;
    assert y1 / 400 == q + k / 400;
  }

  /** Within a 400-year cycle: centuries of 36524 days, leap cycles of 1461 days, years of 365 days. */
  lemma WithinCycle(a: int, b: int, c: int)
    requires 0 <= a <= 3 && 0 <= b <= 24 && 0 <= c <= 3
    ensures DaysBeforeYear(1 + 100 * a + 4 * b + c) == 36524 * a + 1461 * b + 365 * c
  {
    var y1 := 100 * a + 4 * b + c;
    assert y1 / 4 == 25 * a + b;
    assert y1 / 100 == a;
    assert y1 / 400 == 0;
  }

  /** The cycle counts `YearOf` computes, with the ranges its divisions guarantee. */
  lemma CycleCounts(n: Date) returns (q: int, a: int, b: int, c: int, e: int)
    ensures n - 1 == 146097 * q + 36524 * a + 1461 * b + 365 * c + e
    ensures 0 <= a <= 4 && 0 <= b <= 24 && 0 <= c <= 4 && 0 <= e <= 364
    ensures a == 4 ==> b == 0 && c == 0 && e == 0
    ensures c == 4 ==> a <= 3 && b <= 23 && e == 0
    ensures YearOf(n) == 400 * q + 100 * a + 4 * b + c + (if a == 4 || c == 4 then 0 else 1)
  {
    var n0 := n - 1;
    q := n0 / 146097;
    var r400 := n0 % 146097;
    a := r400 / 36524;
    var r100 := r400 % 36524;
    b := r100 / 1461;
    var r4 := r100 % 1461;
    c := r4 / 365;
    e := r4 % 365;
  }

  /** `YearOf` finds the year that holds day `n`. */
  lemma YearOfBounds(n: Date)
    ensures DaysBeforeYear(YearOf(n)) < n <= DaysBeforeYear(YearOf(n) + 1)
  {
    var q, a, b, c, e := CycleCounts(n);
    var y := YearOf(n);
    if a == 4 {
      assert y == 400 * q + 400 && n == 146097 * q + 146096 + 1;
      LastDayOfCycle(q);
    } else if c == 4 {
      assert y == 400 * q + 100 * a + 4 * b + 4;
      assert n == 146097 * q + 36524 * a + 1461 * b + 365 * 4 + 1;
      LastDayOfLeapCycle(q, a, b);
    } else {
      assert y == 400 * q + 100 * a + 4 * b + c + 1;
      assert n == 146097 * q + 36524 * a + 1461 * b + 365 * c + e + 1;
      InsideYear(q, a, b, c, e);
    }
  }

  /** The last day of a 400-year cycle ends its last year. */
  lemma LastDayOfCycle(q: int)
    ensures DaysBeforeYear(400 * q + 400) < 146097 * q + 146096 + 1 <= DaysBeforeYear(400 * q + 401)
  {
    FourHundredYearCycle(q, 399);
    FourHundredYearCycle(q + 1, 0);
    assert 400 * (q + 1) + 1 + 0 == 400 * q + 401;
  }

  /** The last day of a leap cycle ends its leap year. */
  lemma LastDayOfLeapCycle(q: int, a: int, b: int)
    requires 0 <= a <= 3 && 0 <= b <= 23
    ensures var y := 400 * q + 100 * a + 4 * b + 4;
      var n := 146097 * q + 36524 * a + 1461 * b + 365 * 4 + 1;
      DaysBeforeYear(y) < n <= DaysBeforeYear(y + 1)
  {
    FourHundredYearCycle(q, 100 * a + 4 * b + 3);
    WithinCycle(a, b, 3);
    FourHundredYearCycle(q, 100 * a + 4 * (b + 1));
    WithinCycle(a, b + 1, 0);
  }

  /** Any other day falls inside the year its cycle counts name. */
  lemma InsideYear(q: int, a: int, b: int, c: int, e: int)
    requires 0 <= a <= 3 && 0 <= b <= 24 && 0 <= c <= 3 && 0 <= e <= 364
    ensures var y := 400 * q + 100 * a + 4 * b + c + 1;
      var n := 146097 * q + 36524 * a + 1461 * b + 365 * c + e + 1;
      DaysBeforeYear(y) < n <= DaysBeforeYear(y + 1)
  {
    var y := 400 * q + 100 * a + 4 * b + c + 1;
    FourHundredYearCycle(q, 100 * a + 4 * b + c);
    WithinCycle(a, b, c);
    YearLength(y);
  }

  /** ISO week numbers run from 1 to 53. */
  lemma IsoWeekRange(n: Date)
    ensures 1 <= IsoWeek(n) <= 53
  {
    var t := ThursdayOf(n);
    YearOfBounds(t);
    YearLength(YearOf(t));
  }
}

=== FILE: calf.dfy ===
/**
 * A calf and its treatment chain (models/calf.py). A fattening calf is sold,
 * a breeding calf is kept and gets a second vaccination and two ringworm treatments.
 * Every edit returns the updated calf; which downstream nodes it rebuilds is the
 * point of each operation.
 */
module Calves {
  import opened Wrappers
  import opened Day
  import opened Genders
  import opened Treatments
  import opened Seqs

  /** One entry of a calf's `treatments` list: the node of that kind, or `None` where the list holds `None`. */
  datatype Slot = Slot(kind: Kind, node: Option<Treatment>)

  /**
   * `FatteningCalf` and `BreedingCalf`. `treatments` is the list the calf caches; the
   * operations refresh it, except `DeleteRingworm1` and `DeleteRingworm2` on their own.
   */
  datatype Calf =
    | Fattening(earTag: int, birthday: Date, gender: Gender, dehorningRequired: bool,
                birth: Treatment, bovalto1: Treatment, dehorn: Option<Treatment>, restall: Treatment,
                sell: Treatment,
                treatments: seq<Slot>)
    | Breeding(earTag: int, birthday: Date, gender: Gender, dehorningRequired: bool,
               birth: Treatment, bovalto1: Treatment, dehorn: Option<Treatment>, restall: Treatment,
               bovalto2: Treatment, ringworm1: Option<Treatment>, ringworm2: Option<Treatment>,
               treatments: seq<Slot>)

  /** The element types of the farm's two lists. */
  type FatteningCalf = c: Calf | c.Fattening? witness NewCalf(false, 1, Male, 0, false)
  type BreedingCalf = c: Calf | c.Breeding? witness NewCalf(true, 1, Male, 0, false)

  /** `calf_type`: the class name without "Calf", lower-cased. */
  function CalfType(c: Calf): string
  {
    if c.Fattening? then "fattening" else "breeding"
  }

  /** The node of kind `k`, or `None` when the calf has none: no dehorning, a cleared ringworm, or a kind of the other category. */
  function NodeOf(c: Calf, k: Kind): Option<Treatment>
  {
    match k
    case Birth => Some(c.birth)
    case Bovalto1 => Some(c.bovalto1)
    case Dehorn => c.dehorn
    case Restall => Some(c.restall)
    case Sell => if c.Fattening? then Some(c.sell) else None
    case Bovalto2 => if c.Breeding? then Some(c.bovalto2) else None
    case Ringworm1 => if c.Breeding? then c.ringworm1 else None
    case Ringworm2 => if c.Breeding? then c.ringworm2 else None
  }

  /** The kinds the `treatments` list holds, in order; `Birth` is never among them. */
  function ListedKinds(c: Calf): seq<Kind>
  {
    if c.Fattening? then [Bovalto1, Dehorn, Restall, Sell]
    else [Bovalto1, Dehorn, Restall, Bovalto2, Ringworm1, Ringworm2]
  }

  /** `__update_treatments`: the list rebuilt from the current fields. */
  function CurrentTreatments(c: Calf): seq<Slot>
  {
    match c
    case Fattening(_, _, _, _, _, b1, dh, rs, sell, _) =>
      [Slot(Bovalto1, Some(b1)), Slot(Dehorn, dh), Slot(Restall, Some(rs)), Slot(Sell, Some(sell))]
    case Breeding(_, _, _, _, _, b1, dh, rs, b2, r1, r2, _) =>
      [Slot(Bovalto1, Some(b1)), Slot(Dehorn, dh), Slot(Restall, Some(rs)),
       Slot(Bovalto2, Some(b2)), Slot(Ringworm1, r1), Slot(Ringworm2, r2)]
  }

  /** The rebuilt list pairs each listed kind with the calf's node of that kind, and leaves `Birth` out. */
  lemma CurrentTreatmentsShape(c: Calf)
    ensures |CurrentTreatments(c)| == |ListedKinds(c)|
    ensures forall i :: 0 <= i < |ListedKinds(c)| ==>
      CurrentTreatments(c)[i] == Slot(ListedKinds(c)[i], NodeOf(c, ListedKinds(c)[i]))
    ensures Birth !in ListedKinds(c)
  {
  }

  function Refresh(c: Calf): Calf
  {
    c.(treatments := CurrentTreatments(c))
  }

  /** The cached list agrees with the fields. */
  predicate ListCurrent(c: Calf)
  {
    c.treatments == CurrentTreatments(c)
  }

  /** A dehorning flag is always backed by a node, and the two ringworm treatments come and go together. */
  predicate WellFormed(c: Calf)
  {
    && (c.dehorningRequired ==> c.dehorn.Some?)
    && (c.Breeding? ==> (c.ringworm1.Some? <==> c.ringworm2.Some?))
  }

  /**
   * Every derived node carries the expected date its kind's policy gives after its
   * predecessor's resolved date. `Ringworm1` is exempt: herd batching schedules it from
   * another calf's second vaccination.
   */
  predicate Consistent(c: Calf)
  {
    && Follows(Bovalto1, c.birth, c.bovalto1)
    && (c.dehorn.Some? ==> Follows(Dehorn, c.bovalto1, c.dehorn.value))
    && Follows(Restall, c.dehorn.GetOr(c.bovalto1), c.restall)
    && (c.Fattening? ==> Follows(Sell, c.birth, c.sell))
    && (c.Breeding? ==> Follows(Bovalto2, c.bovalto1, c.bovalto2))
    && (c.Breeding? && c.ringworm1.Some? && c.ringworm2.Some? ==>
          Follows(Ringworm2, c.ringworm1.value, c.ringworm2.value))
  }

  // What an edit rebuilds: each predicate says the nodes below a point are exactly
  // what the constructors build from their predecessors, with no actual dates.

  predicate FreshFromRingworm1(c: Calf)
  {
    c.Breeding? && c.ringworm1.Some? && c.ringworm2.Some? &&
    FreshAfter(Ringworm2, c.ringworm1.value, c.ringworm2.value)
  }

  predicate FreshFromBovalto2(c: Calf)
  {
    c.Breeding? && c.ringworm1.Some? && FreshAfter(Ringworm1, c.bovalto2, c.ringworm1.value) &&
    FreshFromRingworm1(c)
  }

  predicate FreshFromDehorn(c: Calf)
  {
    FreshAfter(Restall, c.dehorn.GetOr(c.bovalto1), c.restall)
  }

  predicate FreshFromBovalto1(c: Calf)
  {
    && (c.dehorn.Some? ==> FreshAfter(Dehorn, c.bovalto1, c.dehorn.value))
    && FreshFromDehorn(c)
    && (c.Breeding? ==> FreshAfter(Bovalto2, c.bovalto1, c.bovalto2) && FreshFromBovalto2(c))
  }

  predicate FreshFromBirth(c: Calf)
  {
    && FreshAfter(Bovalto1, c.birth, c.bovalto1)
    && (c.Fattening? ==> FreshAfter(Sell, c.birth, c.sell))
    && FreshFromBovalto1(c)
  }

  /** `r` is the same animal as `c`: category, ear tag, birthday and sex. */
  predicate SameAnimal(c: Calf, r: Calf)
  {
    c.Fattening? == r.Fattening? && r.earTag == c.earTag && r.birthday == c.birthday && r.gender == c.gender
  }

  /** Every node whose kind is not in `changed` is the same in `r` as in `c`. */
  predicate Unchanged(c: Calf, r: Calf, changed: set<Kind>)
  {
    forall k :: k !in changed ==> NodeOf(r, k) == NodeOf(c, k)
  }

  /**
   * The cascade table: the kinds an edit of kind `k` may rewrite, namely `k` and every
   * node built from it, directly or through others.
   */
  function Downstream(k: Kind): set<Kind>
  {
    match k
    case Birth => {Birth, Bovalto1, Dehorn, Restall, Sell, Bovalto2, Ringworm1, Ringworm2}
    case Bovalto1 => {Bovalto1, Dehorn, Restall, Bovalto2, Ringworm1, Ringworm2}
    case Dehorn => {Dehorn, Restall}
    case Restall => {Restall}
    case Sell => {Sell}
    case Bovalto2 => {Bovalto2, Ringworm1, Ringworm2}
    case Ringworm1 => {Ringworm1, Ringworm2}
    case Ringworm2 => {Ringworm2}
  }

  /** `Dehorn(bovalto_1) if dehorning_required else None`. */
  function DehornAfter(bovalto1: Treatment, required: bool): Option<Treatment>
  {
    if required then Some(Derive(Dehorn, bovalto1)) else None
  }

  /** `Restall(dehorn or bovalto_1)`: after the dehorning when there is one, else after the first vaccination. */
  function RestallAfter(dehorn: Option<Treatment>, bovalto1: Treatment): Treatment
  {
    Derive(Restall, dehorn.GetOr(bovalto1))
  }

  /** The ringworm pair scheduled after a second vaccination. */
  function RingwormAfter(bovalto2: Treatment): (Treatment, Treatment)
  {
    var r1 := Derive(Ringworm1, bovalto2);
    (r1, Derive(Ringworm2, r1))
  }

  /** `FatteningCalf(...)` and `BreedingCalf(...)`: the whole chain built from the birthday. */
  function NewCalf(breeding: bool, birthday: Date, gender: Gender, earTag: int, dehorningRequired: bool): (c: Calf)
    ensures c.Breeding? == breeding
    ensures c.earTag == earTag && c.birthday == birthday && c.gender == gender
    ensures c.dehorningRequired == dehorningRequired
    ensures c.birth == NewBirth(birthday)
    ensures c.dehorn.Some? <==> dehorningRequired
    ensures FreshFromBirth(c)
    ensures WellFormed(c) && Consistent(c) && ListCurrent(c)
  {
    var birth := NewBirth(birthday);
    var b1 := Derive(Bovalto1, birth);
    var dh := DehornAfter(b1, dehorningRequired);
    var rs := RestallAfter(dh, b1);
    if breeding then
      var b2 := Derive(Bovalto2, b1);
      var (r1, r2) := RingwormAfter(b2);
      Refresh(Breeding(earTag, birthday, gender, dehorningRequired, birth, b1, dh, rs, b2, Some(r1), Some(r2), []))
    else
      Refresh(Fattening(earTag, birthday, gender, dehorningRequired, birth, b1, dh, rs, Derive(Sell, birth), []))
  }

  /**
   * `edit_birth`: records the actual birth date and rebuilds every node below it,
   * dropping their actual dates; the stored birthday stays.
   */
  function EditBirth(c: Calf, d: Date): (r: Calf)
    ensures SameAnimal(c, r) && r.dehorningRequired == c.dehorningRequired
    ensures r.birth == Update(c.birth, d)
    ensures r.dehorn.Some? <==> c.dehorningRequired
    ensures FreshFromBirth(r)
    ensures WellFormed(r) && Consistent(r) && ListCurrent(r)
  {
    var birth := Update(c.birth, d);
    var b1 := Derive(Bovalto1, birth);
    var dh := DehornAfter(b1, c.dehorningRequired);
    var rs := RestallAfter(dh, b1);
    if c.Breeding? then
      var b2 := Derive(Bovalto2, b1);
      var (r1, r2) := RingwormAfter(b2);
      Refresh(c.(birth := birth, bovalto1 := b1, dehorn := dh, restall := rs,
                 bovalto2 := b2, ringworm1 := Some(r1), ringworm2 := Some(r2)))
    else
      Refresh(c.(birth := birth, bovalto1 := b1, dehorn := dh, restall := rs, sell := Derive(Sell, birth)))
  }

  /**
   * `edit_bovalto1`: records the first vaccination and rebuilds the dehorning (per the
   * flag), the restall and, for a breeding calf, the second vaccination and both
   * ringworm treatments. Birth and sale stay.
   */
  function EditBovalto1(c: Calf, d: Date): (r: Calf)
    ensures SameAnimal(c, r) && r.dehorningRequired == c.dehorningRequired
    ensures r.bovalto1 == Update(c.bovalto1, d)
    ensures Unchanged(c, r, Downstream(Bovalto1))
    ensures r.dehorn.Some? <==> c.dehorningRequired
    ensures FreshFromBovalto1(r)
    ensures WellFormed(r) && ListCurrent(r)
    ensures Consistent(c) ==> Consistent(r)
  {
    var b1 := Update(c.bovalto1, d);
    var dh := DehornAfter(b1, c.dehorningRequired);
    var rs := RestallAfter(dh, b1);
    if c.Breeding? then
      var b2 := Derive(Bovalto2, b1);
      var (r1, r2) := RingwormAfter(b2);
      Refresh(c.(bovalto1 := b1, dehorn := dh, restall := rs,
                 bovalto2 := b2, ringworm1 := Some(r1), ringworm2 := Some(r2)))
    else
      Refresh(c.(bovalto1 := b1, dehorn := dh, restall := rs, sell := c.sell))
  }

  /**
   * `edit_dehorn`: records the dehorning and rebuilds only the restall. A calf
   * without a dehorning node raises (`None` has no `update`).
   */
  function EditDehorn(c: Calf, d: Date): (r: Result<Calf, Kind>)
    ensures r.Failure? <==> c.dehorn.None?
    ensures r.Failure? ==> r.error == Dehorn
    ensures r.Success? ==>
      var n := r.value;
      && SameAnimal(c, n) && n.dehorningRequired == c.dehorningRequired
      && n.dehorn == Some(Update(c.dehorn.value, d))
      && Unchanged(c, n, Downstream(Dehorn))
      && FreshFromDehorn(n)
      && ListCurrent(n)
      && (WellFormed(c) ==> WellFormed(n))
      && (Consistent(c) ==> Consistent(n))
  {
    match c.dehorn
    case None => Failure(Dehorn)
    case Some(t) =>
      var dh := Update(t, d);
      Success(Refresh(c.(dehorn := Some(dh), restall := Derive(Restall, dh))))
  }

  /** `set_dehorn`: installs a given dehorning node and rebuilds the restall after it; the flag stays. */
  function SetDehorn(c: Calf, t: Treatment): (r: Calf)
    ensures SameAnimal(c, r) && r.dehorningRequired == c.dehorningRequired
    ensures r.dehorn == Some(t)
    ensures Unchanged(c, r, Downstream(Dehorn))
    ensures FreshFromDehorn(r)
    ensures ListCurrent(r)
    ensures WellFormed(c) ==> WellFormed(r)
    ensures Consistent(c) && Follows(Dehorn, c.bovalto1, t) ==> Consistent(r)
  {
    Refresh(c.(dehorn := Some(t), restall := Derive(Restall, t)))
  }

  /**
   * `reset_dehorn`: stores the flag; with the flag set, builds a fresh dehorning after
   * the first vaccination and records `d` as its actual date unless `d` is the expected
   * date; without it, drops the dehorning. Then rebuilds the restall.
   */
  function ResetDehorn(c: Calf, d: Date, required: bool): (r: Calf)
    ensures SameAnimal(c, r) && r.dehorningRequired == required
    ensures r.dehorn.Some? <==> required
    ensures required ==>
      && Follows(Dehorn, c.bovalto1, r.dehorn.value)
      && Resolved(r.dehorn.value) == d
      && (r.dehorn.value.actual.None? <==> d == r.dehorn.value.expected)
    ensures Unchanged(c, r, Downstream(Dehorn))
    ensures FreshFromDehorn(r)
    ensures ListCurrent(r)
    ensures WellFormed(c) ==> WellFormed(r)
    ensures Consistent(c) ==> Consistent(r)
  {
    var derived := DehornAfter(c.bovalto1, required);
    var dh := if derived.Some? && derived.value.expected != d then Some(Update(derived.value, d)) else derived;
    Refresh(c.(dehorningRequired := required, dehorn := dh, restall := RestallAfter(dh, c.bovalto1)))
  }

  /** `delete_dehorn`: clears the flag and the dehorning, and rebuilds the restall after the first vaccination. */
  function DeleteDehorn(c: Calf): (r: Calf)
    ensures SameAnimal(c, r) && !r.dehorningRequired && r.dehorn.None?
    ensures Unchanged(c, r, Downstream(Dehorn))
    ensures FreshAfter(Restall, c.bovalto1, r.restall)
    ensures ListCurrent(r)
    ensures WellFormed(c) ==> WellFormed(r)
    ensures Consistent(c) ==> Consistent(r)
  {
    Refresh(c.(dehorningRequired := false, dehorn := None, restall := Derive(Restall, c.bovalto1)))
  }

  /** `edit_restall`: records the restall date; nothing is derived from it. */
  function EditRestall(c: Calf, d: Date): (r: Calf)
    ensures SameAnimal(c, r) && r.dehorningRequired == c.dehorningRequired
    ensures r.restall == Update(c.restall, d)
    ensures Unchanged(c, r, Downstream(Restall))
    ensures ListCurrent(r)
    ensures WellFormed(c) ==> WellFormed(r)
    ensures Consistent(c) ==> Consistent(r)
  {
    Refresh(c.(restall := Update(c.restall, d)))
  }

  /** `edit_sell` (fattening calves only): records the sale date; nothing is derived from it. */
  function EditSell(c: Calf, d: Date): (r: Calf)
    requires c.Fattening?
    ensures SameAnimal(c, r) && r.dehorningRequired == c.dehorningRequired
    ensures r.sell == Update(c.sell, d)
    ensures Unchanged(c, r, Downstream(Sell))
    ensures ListCurrent(r)
    ensures WellFormed(c) ==> WellFormed(r)
    ensures Consistent(c) ==> Consistent(r)
  {
    Refresh(c.(sell := Update(c.sell, d)))
  }

  /** `edit_bovalto2` (breeding calves only): records the second vaccination and rebuilds both ringworm treatments. */
  function EditBovalto2(c: Calf, d: Date): (r: Calf)
    requires c.Breeding?
    ensures SameAnimal(c, r) && r.dehorningRequired == c.dehorningRequired
    ensures r.bovalto2 == Update(c.bovalto2, d)
    ensures Unchanged(c, r, Downstream(Bovalto2))
    ensures FreshFromBovalto2(r)
    ensures ListCurrent(r)
    ensures WellFormed(c) ==> WellFormed(r)
    ensures Consistent(c) ==> Consistent(r)
  {
    var b2 := Update(c.bovalto2, d);
    var (r1, r2) := RingwormAfter(b2);
    Refresh(c.(bovalto2 := b2, ringworm1 := Some(r1), ringworm2 := Some(r2)))
  }

  /**
   * `edit_ringworm1` (breeding calves only): recreates the first ringworm treatment from
   * the second vaccination when it is absent, records its date, and rebuilds the second.
   */
  function EditRingworm1(c: Calf, d: Date): (r: Calf)
    requires c.Breeding?
    ensures SameAnimal(c, r) && r.dehorningRequired == c.dehorningRequired
    ensures r.ringworm1.Some? && r.ringworm1.value.actual == Some(d)
    ensures c.ringworm1.Some? ==> r.ringworm1.value.expected == c.ringworm1.value.expected
    ensures c.ringworm1.None? ==> Follows(Ringworm1, c.bovalto2, r.ringworm1.value)
    ensures Unchanged(c, r, Downstream(Ringworm1))
    ensures FreshFromRingworm1(r)
    ensures WellFormed(c) ==> WellFormed(r)
    ensures ListCurrent(r)
    ensures Consistent(c) ==> Consistent(r)
  {
    var r1 := Update(c.ringworm1.GetOr(Derive(Ringworm1, c.bovalto2)), d);
    Refresh(c.(ringworm1 := Some(r1), ringworm2 := Some(Derive(Ringworm2, r1))))
  }

  /** `edit_ringworm2` (breeding calves only): records the date; a cleared treatment raises (`None` has no `update`). */
  function EditRingworm2(c: Calf, d: Date): (r: Result<Calf, Kind>)
    requires c.Breeding?
    ensures r.Failure? <==> c.ringworm2.None?
    ensures r.Failure? ==> r.error == Ringworm2
    ensures r.Success? ==>
      var n := r.value;
      && SameAnimal(c, n) && n.dehorningRequired == c.dehorningRequired
      && n.ringworm2 == Some(Update(c.ringworm2.value, d))
      && Unchanged(c, n, Downstream(Ringworm2))
      && ListCurrent(n)
      && (WellFormed(c) ==> WellFormed(n))
      && (Consistent(c) ==> Consistent(n))
  {
    match c.ringworm2
    case None => Failure(Ringworm2)
    case Some(t) => Success(Refresh(c.(ringworm2 := Some(Update(t, d)))))
  }

  /** `set_ringworm1` (breeding calves only): installs a first ringworm treatment and rebuilds the second after it. */
  function SetRingworm1(c: Calf, t: Treatment): (r: Calf)
    requires c.Breeding?
    ensures SameAnimal(c, r) && r.dehorningRequired == c.dehorningRequired
    ensures r.ringworm1 == Some(t)
    ensures Unchanged(c, r, Downstream(Ringworm1))
    ensures FreshFromRingworm1(r)
    ensures WellFormed(c) ==> WellFormed(r)
    ensures ListCurrent(r)
    ensures Consistent(c) ==> Consistent(r)
  {
    Refresh(c.(ringworm1 := Some(t), ringworm2 := Some(Derive(Ringworm2, t))))
  }

  /**
   * `recalc_ringworm` (breeding calves only): both ringworm treatments rebuilt after a
   * given second vaccination, which herd batching takes from another calf.
   */
  function RecalcRingworm(c: Calf, bovalto2: Treatment): (r: Calf)
    requires c.Breeding?
    ensures SameAnimal(c, r) && r.dehorningRequired == c.dehorningRequired
    ensures r.ringworm1.Some? && FreshAfter(Ringworm1, bovalto2, r.ringworm1.value)
    ensures Unchanged(c, r, Downstream(Ringworm1))
    ensures FreshFromRingworm1(r)
    ensures WellFormed(c) ==> WellFormed(r)
    ensures ListCurrent(r)
    ensures Consistent(c) ==> Consistent(r)
  {
    var (r1, r2) := RingwormAfter(bovalto2);
    Refresh(c.(ringworm1 := Some(r1), ringworm2 := Some(r2)))
  }

  /** `delete_ringworm1` (breeding calves only): clears the first ringworm treatment and leaves the cached list as it was. */
  function DeleteRingworm1(c: Calf): (r: Calf)
    requires c.Breeding?
    ensures SameAnimal(c, r) && r.dehorningRequired == c.dehorningRequired
    ensures r.ringworm1.None?
    ensures Unchanged(c, r, {Ringworm1})
    ensures r.treatments == c.treatments
  {
    c.(ringworm1 := None)
  }

  /** `delete_ringworm2` (breeding calves only): clears the second ringworm treatment and leaves the cached list as it was. */
  function DeleteRingworm2(c: Calf): (r: Calf)
    requires c.Breeding?
    ensures SameAnimal(c, r) && r.dehorningRequired == c.dehorningRequired
    ensures r.ringworm2.None?
    ensures Unchanged(c, r, {Ringworm2})
    ensures r.treatments == c.treatments
  {
    c.(ringworm2 := None)
  }

  /** `delete_ringworm`: both deletions, then the list refresh the single deletions lack. */
  function DeleteRingworm(c: Calf): (r: Calf)
    requires c.Breeding?
    ensures SameAnimal(c, r) && r.dehorningRequired == c.dehorningRequired
    ensures r.ringworm1.None? && r.ringworm2.None?
    ensures Unchanged(c, r, Downstream(Ringworm1))
    ensures ListCurrent(r)
    ensures WellFormed(c) ==> WellFormed(r)
    ensures Consistent(c) ==> Consistent(r)
  {
    Refresh(DeleteRingworm2(DeleteRingworm1(c)))
  }

  /** A single ringworm deletion on a calf that had that treatment leaves the cached list out of date. */
  lemma DeleteRingworm1LeavesListStale(c: Calf)
    requires c.Breeding? && c.ringworm1.Some? && ListCurrent(c)
    ensures !ListCurrent(DeleteRingworm1(c))
  {
    assert DeleteRingworm1(c).treatments[4] != CurrentTreatments(DeleteRingworm1(c))[4];
  }

  /** `change_ear_tag`. */
  function ChangeEarTag(c: Calf, earTag: int): (r: Calf)
    ensures r.earTag == earTag
    ensures r.Fattening? == c.Fattening? && r.birthday == c.birthday && r.gender == c.gender
    ensures r.dehorningRequired == c.dehorningRequired && Unchanged(c, r, {})
    ensures r.treatments == c.treatments
  {
    c.(earTag := earTag)
  }

  /** `edit_gender`. */
  function EditGender(c: Calf, g: Gender): (r: Calf)
    ensures r.gender == g
    ensures r.Fattening? == c.Fattening? && r.earTag == c.earTag && r.birthday == c.birthday
    ensures r.dehorningRequired == c.dehorningRequired && Unchanged(c, r, {})
    ensures r.treatments == c.treatments
  {
    c.(gender := g)
  }

  /**
   * `FatteningCalf.reset`: installs stored nodes verbatim. The flag is cleared when no
   * dehorning is given and otherwise kept; the stored birthday stays.
   */
  function ResetFattening(c: Calf, birth: Treatment, bovalto1: Treatment, dehorn: Option<Treatment>,
                          restall: Treatment, sell: Treatment): (r: Calf)
    requires c.Fattening?
    ensures SameAnimal(c, r)
    ensures r.dehorningRequired == (c.dehorningRequired && dehorn.Some?)
    ensures NodeOf(r, Birth) == Some(birth) && NodeOf(r, Bovalto1) == Some(bovalto1)
    ensures NodeOf(r, Dehorn) == dehorn && NodeOf(r, Restall) == Some(restall) && NodeOf(r, Sell) == Some(sell)
    ensures WellFormed(r) && ListCurrent(r)
  {
    var flag := if dehorn.None? then false else c.dehorningRequired;
    Refresh(c.(birth := birth, bovalto1 := bovalto1, dehorningRequired := flag, dehorn := dehorn,
               restall := restall, sell := sell))
  }

  /** `BreedingCalf.reset`: as `ResetFattening`, for the breeding chain; the ringworm pair is taken as given. */
  function ResetBreeding(c: Calf, birth: Treatment, bovalto1: Treatment, dehorn: Option<Treatment>,
                         restall: Treatment, bovalto2: Treatment,
                         ringworm1: Option<Treatment>, ringworm2: Option<Treatment>): (r: Calf)
    requires c.Breeding?
    ensures SameAnimal(c, r)
    ensures r.dehorningRequired == (c.dehorningRequired && dehorn.Some?)
    ensures NodeOf(r, Birth) == Some(birth) && NodeOf(r, Bovalto1) == Some(bovalto1)
    ensures NodeOf(r, Dehorn) == dehorn && NodeOf(r, Restall) == Some(restall)
    ensures NodeOf(r, Bovalto2) == Some(bovalto2) && NodeOf(r, Ringworm1) == ringworm1 && NodeOf(r, Ringworm2) == ringworm2
    ensures ListCurrent(r)
    ensures (ringworm1.Some? <==> ringworm2.Some?) ==> WellFormed(r)
  {
    var flag := if dehorn.None? then false else c.dehorningRequired;
    Refresh(c.(birth := birth, bovalto1 := bovalto1, dehorningRequired := flag, dehorn := dehorn,
               restall := restall, bovalto2 := bovalto2, ringworm1 := ringworm1, ringworm2 := ringworm2))
  }

  /** One row of `as_tuple`: identity columns, then each treatment column's resolved date or `None`. */
  datatype Row = Row(earTag: int, calfType: string, birthday: Date, gender: string, dehorningRequired: bool,
                     bovalto1: Option<Date>, dehorn: Option<Date>, restall: Option<Date>, sell: Option<Date>,
                     bovalto2: Option<Date>, ringworm1: Option<Date>, ringworm2: Option<Date>)

  /** The column of a row that holds kind `k`. */
  function Column(row: Row, k: Kind): Option<Date>
    requires k != Birth
  {
    match k
    case Bovalto1 => row.bovalto1
    case Dehorn => row.dehorn
    case Restall => row.restall
    case Sell => row.sell
    case Bovalto2 => row.bovalto2
    case Ringworm1 => row.ringworm1
    case Ringworm2 => row.ringworm2
  }

  function ResolvedOf(t: Option<Treatment>): Option<Date>
  {
    match t
    case None => None
    case Some(n) => Some(Resolved(n))
  }

  /** `as_tuple`: the twelve display columns of a calf. */
  function AsTuple(c: Calf): Row
  {
    match c
    case Fattening(tag, bd, g, flag, _, b1, dh, rs, sell, _) =>
      Row(tag, CalfType(c), bd, Repr(g), flag,
          Some(Resolved(b1)), ResolvedOf(dh), Some(Resolved(rs)), Some(Resolved(sell)),
          None, None, None)
    case Breeding(tag, bd, g, flag, _, b1, dh, rs, b2, r1, r2, _) =>
      Row(tag, CalfType(c), bd, Repr(g), flag,
          Some(Resolved(b1)), ResolvedOf(dh), Some(Resolved(rs)), None,
          Some(Resolved(b2)), ResolvedOf(r1), ResolvedOf(r2))
  }

  /**
   * Every treatment column of the row holds the resolved date of the calf's node of
   * that kind, and `None` where the calf has no such node; the birthday column is the
   * stored birthday, not the resolved birth.
   */
  lemma AsTupleColumns(c: Calf)
    ensures forall k :: k != Birth ==> Column(AsTuple(c), k) == ResolvedOf(NodeOf(c, k))
    ensures AsTuple(c).birthday == c.birthday
    ensures AsTuple(c).earTag == c.earTag && AsTuple(c).dehorningRequired == c.dehorningRequired
    ensures AsTuple(c).gender == Repr(c.gender) && AsTuple(c).calfType == CalfType(c)
  {
    forall k | k != Birth
      ensures Column(AsTuple(c), k) == ResolvedOf(NodeOf(c, k))
    {
    }
  }

  /** The ear tags of a list of calves, in order. */
  function EarTags(cs: seq<Calf>): seq<int>
  {
    seq(|cs|, i requires 0 <= i < |cs| => cs[i].earTag)
  }

  /** A tag is among the ear tags exactly when some calf of the list carries it. */
  lemma InEarTags(cs: seq<Calf>, t: int)
    ensures t in EarTags(cs) <==> exists c :: c in cs && c.earTag == t
  {
    if exists c :: c in cs && c.earTag == t {
      var c :| c in cs && c.earTag == t;
      var i :| 0 <= i < |cs| && cs[i] == c;
      assert EarTags(cs)[i] == t;
    }
  }

  lemma EarTagsAppend(a: seq<Calf>, b: seq<Calf>)
    ensures EarTags(a + b) == EarTags(a) + EarTags(b)
  {
  }

  /**
   * `get_fattening_calf` and `get_breeding_calf`: the first calf of the list with that
   * ear tag. Where the source raises "... not found", the result is `None`.
   */
  function FindByTag(cs: seq<Calf>, tag: int): (r: Option<Calf>)
    ensures r.Some? <==> tag in EarTags(cs)
    ensures r.Some? ==> r.value.earTag == tag
    ensures r.Some? ==> exists i :: 0 <= i < |cs| && cs[i] == r.value &&
                                    forall j :: 0 <= j < i ==> cs[j].earTag != tag
  {
    var i := IndexOf(EarTags(cs), tag);
    if i < |cs| then
      assert forall j :: 0 <= j < i ==> cs[j].earTag == EarTags(cs)[j];
      Some(cs[i])
    else None
  }

  /** With unique ear tags, looking up a calf's own tag finds that calf. */
  lemma FindByTagUnique(cs: seq<Calf>, i: int)
    requires Unique(EarTags(cs)) && 0 <= i < |cs|
    ensures FindByTag(cs, cs[i].earTag) == Some(cs[i])
  {
    assert EarTags(cs)[i] == cs[i].earTag;
  }

  /** A breeding calf without its ringworm treatments and cached list: all that herd batching reads. */
  function Strip(c: BreedingCalf): BreedingCalf
  {
    c.(ringworm1 := None, ringworm2 := None, treatments := [])
  }
}

=== FILE: day.dfy ===
/** Day-level date policies of the scheduler (models/day.py). */
module Day {

  /** A calendar date as a proleptic Gregorian day ordinal: 0001-01-01 is day 1, as `date.toordinal()` numbers it. */
  type Date = int

  /** The `Day` enum. */
  datatype Weekday = Monday | Tuesday | Wednesday | Thursday | Friday | Saturday | Sunday

  /** The enum value of a weekday: Monday is 0, Sunday is 6. */
  function Value(w: Weekday): nat
  {
    match w
    case Monday => 0
    case Tuesday => 1
    case Wednesday => 2
    case Thursday => 3
    case Friday => 4
    case Saturday => 5
    case Sunday => 6
  }

  /** `date.weekday()`: day 1 (0001-01-01) was a Monday. */
  function WeekdayOf(d: Date): Weekday
  {
    match (d + 6) % 7
    case 0 => Monday
    case 1 => Tuesday
    case 2 => Wednesday
    case 3 => Thursday
    case 4 => Friday
    case 5 => Saturday
    case _ => Sunday
  }

  /** Monday to Friday. */
  predicate IsWorkday(d: Date)
  {
    WeekdayOf(d) != Saturday && WeekdayOf(d) != Sunday
  }

  /** Consecutive days step through the weekdays cyclically. */
  lemma WeekdayStep(d: Date, k: int)
    ensures Value(WeekdayOf(d + k)) == (Value(WeekdayOf(d)) + k) % 7
  {
  }

  /**
   * `handle_weekends`: a Saturday moves on two days and a Sunday one day, onto the
   * following Monday; Monday to Friday stay. Its contract states the same thing
   * declaratively: the result is the first workday on or after the input.
   */
  function HandleWeekends(d: Date): (r: Date)
    ensures IsWorkday(r)
    ensures d <= r <= d + 2
    ensures forall x :: d <= x < r ==> !IsWorkday(x)
  {
    match WeekdayOf(d)
    case Saturday =>
      WeekdayStep(d, 1);
      WeekdayStep(d, 2);
      d + 2
    case Sunday =>
      WeekdayStep(d, 1);
      d + 1
    case _ => d
  }

  /** `get_next_tuesday`: the first Tuesday on or after the input; a Tuesday stays as it is. */
  function NextTuesday(d: Date): (r: Date)
    ensures WeekdayOf(r) == Tuesday
    ensures d <= r <= d + 6
    ensures forall x :: d <= x < r ==> WeekdayOf(x) != Tuesday
  {
    WeekdayStep(d, 1); WeekdayStep(d, 2); WeekdayStep(d, 3);
    WeekdayStep(d, 4); WeekdayStep(d, 5); WeekdayStep(d, 6);
    match WeekdayOf(d)
    case Monday => d + 1
    case Tuesday => d
    case Wednesday => d + 6
    case Thursday => d + 5
    case Friday => d + 4
    case Saturday => d + 3
    case Sunday => d + 2
  }

  /** The shift `handle_weekends` applies, by weekday: two days for Saturday, one for Sunday, none otherwise. */
  lemma HandleWeekendsShift(d: Date)
    ensures WeekdayOf(d) == Saturday ==> HandleWeekends(d) == d + 2
    ensures WeekdayOf(d) == Sunday ==> HandleWeekends(d) == d + 1
    ensures IsWorkday(d) ==> HandleWeekends(d) == d
  {
    WeekdayStep(d, 1);
  }

  /** Shifting twice is shifting once: the shifted date is already a workday. */
  lemma HandleWeekendsIdempotent(d: Date)
    ensures HandleWeekends(HandleWeekends(d)) == HandleWeekends(d)
  {
    var r := HandleWeekends(d);
    assert IsWorkday(r);
    assert HandleWeekends(r) == r;
  }

  /** The first day on or after `d` that satisfies a weekday test is unique. */
  lemma FirstTuesdayUnique(d: Date, a: Date, b: Date)
    requires d <= a && WeekdayOf(a) == Tuesday && forall x :: d <= x < a ==> WeekdayOf(x) != Tuesday
    requires d <= b && WeekdayOf(b) == Tuesday && forall x :: d <= x < b ==> WeekdayOf(x) != Tuesday
    ensures a == b
  {
  }

  /** Rolling to the next Tuesday absorbs a weekend shift done first: no weekend day is a Tuesday. */
  lemma NextTuesdayAfterHandleWeekends(d: Date)
    ensures NextTuesday(HandleWeekends(d)) == NextTuesday(d)
  {
    var h := HandleWeekends(d);
    var t := NextTuesday(d);
    var t' := NextTuesday(h);
    assert h <= t;
    forall x | d <= x < t'
      ensures WeekdayOf(x) != Tuesday
    {
      if x < h {
        assert !IsWorkday(x);
      }
    }
    FirstTuesdayUnique(d, t, t');
  }
}

=== FILE: edit.dfy ===
/**
 * `Farm.edit_calf` (models/farm.py): one treatment of one calf edited through the farm,
 * followed by a re-batching of the breeding calves. The per-calf part is the dispatch on
 * the treatment kind; the farm part finds the calf by ear tag and puts the edited calf back
 * where it was found.
 */
module Edits {
  import opened Wrappers
  import opened Day
  import opened Treatments
  import opened Calves
  import opened Seqs
  import opened Batching
  import opened Farms

  /**
   * The four cases of the dehorning edit, on the calf's flag and the requested one:
   * switched on, a fresh dehorning recorded on `d`; switched off, the dehorning deleted;
   * kept on, the date recorded; kept off, nothing.
   */
  function DehornTransition(c: Calf, d: Date, required: bool): (r: Result<Calf, Kind>)
    ensures r.Failure? <==> c.dehorningRequired && required && c.dehorn.None?
    ensures r.Failure? ==> r.error == Dehorn
    ensures r.Success? ==> SameAnimal(c, r.value) && r.value.dehorningRequired == required
    ensures r.Success? && required ==> r.value.dehorn.Some? && Resolved(r.value.dehorn.value) == d
    ensures r.Success? && c.dehorningRequired && !required ==> r.value.dehorn.None?
    ensures !c.dehorningRequired && !required ==> r == Success(c)
    ensures r.Success? ==> Unchanged(c, r.value, Downstream(Dehorn))
    ensures r.Success? && (c.dehorningRequired || required) ==> FreshFromDehorn(r.value)
    ensures r.Success? && WellFormed(c) ==> WellFormed(r.value)
    ensures r.Success? && Consistent(c) ==> Consistent(r.value)
  {
    if !c.dehorningRequired && required then Success(ResetDehorn(c, d, required))
    else if c.dehorningRequired && !required then Success(DeleteDehorn(c))
    else if c.dehorningRequired && required then EditDehorn(c, d)
    else Success(c)
  }

  /** Whether an edit of kind `k` reaches a calf of this category at all. */
  predicate Applies(c: Calf, k: Kind)
  {
    match k
    case Sell => c.Fattening?
    case Bovalto2 | Ringworm1 | Ringworm2 => c.Breeding?
    case _ => true
  }

  /** The kinds every calf has, dispatched first by `edit_calf`. */
  predicate Shared(k: Kind)
  {
    k in {Birth, Bovalto1, Dehorn, Restall}
  }

  /** The first dispatch of `edit_calf`, on the kinds every calf has. */
  function EditShared(c: Calf, kind: Kind, d: Date, required: bool): (r: Result<Calf, Kind>)
    requires Shared(kind)
    ensures r.Failure? <==> kind == Dehorn && c.dehorningRequired && required && c.dehorn.None?
    ensures r.Failure? ==> r.error == kind
    ensures r.Success? ==> SameAnimal(c, r.value)
    ensures r.Success? && !Applies(c, kind) ==> r.value == c
    ensures r.Success? ==> Unchanged(c, r.value, Downstream(kind))
    ensures r.Success? ==> r.value.dehorningRequired == if kind == Dehorn then required else c.dehorningRequired
    ensures r.Success? && Applies(c, kind) && (kind != Dehorn || required) ==>
      NodeOf(r.value, kind).Some? && Resolved(NodeOf(r.value, kind).value) == d
    ensures r.Success? && kind == Birth ==> FreshFromBirth(r.value)
    ensures r.Success? && kind == Bovalto1 ==> FreshFromBovalto1(r.value)
    ensures r.Success? && kind == Dehorn && (c.dehorningRequired || required) ==> FreshFromDehorn(r.value)
    ensures r.Success? && WellFormed(c) ==> WellFormed(r.value)
    ensures r.Success? && Consistent(c) ==> Consistent(r.value)
  {
    match kind
    case Birth =>
      var n := EditBirth(c, d);
      // Every kind lies downstream of the birth, so `Unchanged` holds of any result.
      assert forall k: Kind :: k in Downstream(Birth) by {
        forall k: Kind
          ensures k in Downstream(Birth)
        {
          assert k.Birth? || k.Bovalto1? || k.Dehorn? || k.Restall? ||
                 k.Sell? || k.Bovalto2? || k.Ringworm1? || k.Ringworm2?;
        }
      }
      assert NodeOf(n, Birth) == Some(n.birth);
      Success(n)
    case Bovalto1 =>
      var n := EditBovalto1(c, d);
      assert NodeOf(n, Bovalto1) == Some(n.bovalto1);
      Success(n)
    case Dehorn => DehornTransition(c, d, required)
    case Restall =>
      var n := EditRestall(c, d);
      assert NodeOf(n, Restall) == Some(n.restall);
      Success(n)
  }

  /**
   * The second dispatch of `edit_calf`: `Sell` for a fattening calf, the second
   * vaccination and the ringworm kinds for a breeding calf; a kind of the other category
   * leaves the calf as it is.
   */
  function EditOwn(c: Calf, kind: Kind, d: Date): (r: Result<Calf, Kind>)
    requires !Shared(kind)
    ensures r.Failure? <==> kind == Ringworm2 && c.Breeding? && c.ringworm2.None?
    ensures r.Failure? ==> r.error == kind
    ensures r.Success? ==> SameAnimal(c, r.value)
    ensures r.Success? && !Applies(c, kind) ==> r.value == c
    ensures r.Success? ==> Unchanged(c, r.value, Downstream(kind))
    ensures r.Success? ==> r.value.dehorningRequired == c.dehorningRequired
    ensures r.Success? && Applies(c, kind) ==>
      NodeOf(r.value, kind).Some? && Resolved(NodeOf(r.value, kind).value) == d
    ensures r.Success? && kind == Bovalto2 && c.Breeding? ==> FreshFromBovalto2(r.value)
    ensures r.Success? && kind == Ringworm1 && c.Breeding? ==> FreshFromRingworm1(r.value)
    ensures r.Success? && WellFormed(c) ==> WellFormed(r.value)
    ensures r.Success? && Consistent(c) ==> Consistent(r.value)
  {
    match kind
    case Sell => if c.Fattening? then Success(EditSell(c, d)) else Success(c)
    case Bovalto2 => if c.Breeding? then Success(EditBovalto2(c, d)) else Success(c)
    case Ringworm1 => if c.Breeding? then Success(EditRingworm1(c, d)) else Success(c)
    case Ringworm2 => if c.Breeding? then EditRingworm2(c, d) else Success(c)
  }

  /**
   * The calf part of `edit_calf`: one of the two dispatches applies, by kind. A `Failure`
   * names the kind whose node was missing; the calf is then unchanged in the source too,
   * since the failing call raises before it writes.
   */
  function EditTreatment(c: Calf, kind: Kind, d: Date, required: bool): (r: Result<Calf, Kind>)
    ensures r.Failure? <==>
      || (kind == Dehorn && c.dehorningRequired && required && c.dehorn.None?)
      || (kind == Ringworm2 && c.Breeding? && c.ringworm2.None?)
    ensures r.Failure? ==> r.error == kind
    ensures r.Success? ==> SameAnimal(c, r.value)
    ensures r.Success? && !Applies(c, kind) ==> r.value == c
    ensures r.Success? ==> Unchanged(c, r.value, Downstream(kind))
    ensures r.Success? ==> r.value.dehorningRequired == if kind == Dehorn then required else c.dehorningRequired
    ensures r.Success? && Applies(c, kind) && (kind != Dehorn || required) ==>
      NodeOf(r.value, kind).Some? && Resolved(NodeOf(r.value, kind).value) == d
    ensures r.Success? && kind == Birth ==> FreshFromBirth(r.value)
    ensures r.Success? && kind == Bovalto1 ==> FreshFromBovalto1(r.value)
    ensures r.Success? && kind == Dehorn && (c.dehorningRequired || required) ==> FreshFromDehorn(r.value)
    ensures r.Success? && kind == Bovalto2 && c.Breeding? ==> FreshFromBovalto2(r.value)
    ensures r.Success? && kind == Ringworm1 && c.Breeding? ==> FreshFromRingworm1(r.value)
    ensures r.Success? && WellFormed(c) ==> WellFormed(r.value)
    ensures r.Success? && Consistent(c) ==> Consistent(r.value)
  {
    if Shared(kind) then EditShared(c, kind, d, required) else EditOwn(c, kind, d)
  }

  /** On a well-formed calf only a cleared second ringworm treatment can make an edit fail. */
  lemma EditTreatmentFailsOnlyOnClearedRingworm2(c: Calf, kind: Kind, d: Date, required: bool)
    requires WellFormed(c)
    ensures EditTreatment(c, kind, d, required).Failure? <==> kind == Ringworm2 && c.Breeding? && c.ringworm2.None?
  {
  }

  /**
   * The calf `get_calf` finds for `tag`, replaced by `c2` in its own list at the position
   * it was found; the calf object is edited in place in the source.
   */
  function Replace(f: Farm, tag: int, c2: Calf): (r: Farm)
    requires tag in FarmTags(f)
    requires c2.Fattening? <==> tag in EarTags(f.fattening)
    requires c2.earTag == tag
    ensures Size(r) == Size(f)
    ensures FarmTags(r) == FarmTags(f)
    ensures GetCalf(r, tag) == Some(c2)
    ensures c2.Fattening? ==>
      r.breeding == f.breeding &&
      exists i :: 0 <= i < |f.fattening| && GetCalf(f, tag) == Some(f.fattening[i]) &&
        r.fattening == f.fattening[i := c2]
    ensures c2.Breeding? ==>
      r.fattening == f.fattening &&
      exists i :: 0 <= i < |f.breeding| && GetCalf(f, tag) == Some(f.breeding[i]) &&
        r.breeding == f.breeding[i := c2]
  {
    FarmTagsSplit(f);
    if tag in EarTags(f.fattening) then
      var i := IndexOf(EarTags(f.fattening), tag);
      var fat := f.fattening[i := c2];
      assert GetCalf(f, tag) == Some(f.fattening[i]);
      UpdateTags(f.fattening, i, c2);
      assert EarTags(fat) == EarTags(f.fattening);
      FarmTagsSplit(Farm(fat, f.breeding));
      Farm(fat, f.breeding)
    else
      var i := IndexOf(EarTags(f.breeding), tag);
      var br := f.breeding[i := c2];
      assert GetCalf(f, tag) == Some(f.breeding[i]);
      UpdateTags(f.breeding, i, c2);
      assert EarTags(br) == EarTags(f.breeding);
      FarmTagsSplit(Farm(f.fattening, br));
      Farm(f.fattening, br)
  }

  /**
   * `edit_calf`: the calf found by `tag` edited, then the breeding calves re-batched. An
   * unknown tag raises for every kind but `Sell`, where neither branch applies and the
   * re-batching still runs.
   */
  function EditCalf(f: Farm, tag: int, kind: Kind, d: Date, required: bool): (r: Result<Farm, Error>)
    ensures r.Failure? <==>
      if tag in FarmTags(f) then EditTreatment(GetCalf(f, tag).value, kind, d, required).Failure?
      else kind != Sell
    ensures r.Failure? && tag !in FarmTags(f) ==> r.error == CalfNotFound(tag)
    ensures r.Failure? && tag in FarmTags(f) ==> r.error == TreatmentMissing(tag, kind)
    ensures tag !in FarmTags(f) && kind == Sell ==> r == Success(Rebatch(f))
    ensures r.Success? ==> Size(r.value) == Size(f) && multiset(FarmTags(r.value)) == multiset(FarmTags(f))
    ensures r.Success? ==> SetRingworm(r.value.breeding) == r.value.breeding
    ensures r.Success? && tag in EarTags(f.fattening) ==>
      GetCalf(r.value, tag) == Some(EditTreatment(GetCalf(f, tag).value, kind, d, required).value)
    ensures r.Success? && tag in EarTags(f.fattening) ==>
      r.value.breeding == SetRingworm(f.breeding) &&
      exists i :: 0 <= i < |f.fattening| && GetCalf(f, tag) == Some(f.fattening[i]) &&
        r.value.fattening == f.fattening[i := EditTreatment(f.fattening[i], kind, d, required).value]
    ensures r.Success? && tag in FarmTags(f) && tag !in EarTags(f.fattening) ==>
      r.value.fattening == f.fattening &&
      exists i :: 0 <= i < |f.breeding| && GetCalf(f, tag) == Some(f.breeding[i]) &&
        EditTreatment(f.breeding[i], kind, d, required).value.Breeding? &&
        r.value.breeding == SetRingworm(f.breeding[i := EditTreatment(f.breeding[i], kind, d, required).value])
    ensures r.Success? && UniqueTags(f) && tag in EarTags(f.breeding) ==>
      && GetCalf(r.value, tag).Some? && GetCalf(r.value, tag).value.Breeding?
      && EditTreatment(GetCalf(f, tag).value, kind, d, required).value.Breeding?
      && Strip(GetCalf(r.value, tag).value) == Strip(EditTreatment(GetCalf(f, tag).value, kind, d, required).value)
    ensures r.Success? && UniqueTags(f) ==> UniqueTags(r.value)
  {
    match GetCalf(f, tag)
    case None =>
      if kind == Sell then
        RebatchSameTags(f);
        SetRingwormIdempotent(f.breeding);
        Success(Rebatch(f))
      else Failure(CalfNotFound(tag))
    case Some(c) =>
      match EditTreatment(c, kind, d, required)
      case Failure(k) => Failure(TreatmentMissing(tag, k))
      case Success(c2) =>
        var g := Replace(f, tag, c2);
        RebatchSameTags(g);
        SetRingwormIdempotent(g.breeding);
        FarmTagsSplit(f);
        FarmTagsSplit(Rebatch(g));
        EditCalfPlaced(f, tag, kind, d, required);
        Success(Rebatch(g))
  }

  /**
   * Where the edited calf ends up: in place of the calf `get_calf` found, in its own list,
   * with the breeding list re-batched afterwards.
   */
  lemma EditCalfPlaced(f: Farm, tag: int, kind: Kind, d: Date, required: bool)
    requires tag in FarmTags(f) && EditTreatment(GetCalf(f, tag).value, kind, d, required).Success?
    ensures var e := EditTreatment(GetCalf(f, tag).value, kind, d, required).value;
      var r := Rebatch(Replace(f, tag, e));
      && (tag in EarTags(f.fattening) ==>
            r.breeding == SetRingworm(f.breeding) &&
            exists i :: 0 <= i < |f.fattening| && GetCalf(f, tag) == Some(f.fattening[i]) &&
              r.fattening == f.fattening[i := EditTreatment(f.fattening[i], kind, d, required).value])
      && (tag !in EarTags(f.fattening) ==>
            r.fattening == f.fattening &&
            exists i :: 0 <= i < |f.breeding| && GetCalf(f, tag) == Some(f.breeding[i]) &&
              EditTreatment(f.breeding[i], kind, d, required).value.Breeding? &&
              r.breeding == SetRingworm(f.breeding[i := EditTreatment(f.breeding[i], kind, d, required).value]))
      && (UniqueTags(f) && tag in EarTags(f.breeding) ==>
            && GetCalf(r, tag).Some? && GetCalf(r, tag).value.Breeding? && e.Breeding?
            && Strip(GetCalf(r, tag).value) == Strip(e))
  {
    var e := EditTreatment(GetCalf(f, tag).value, kind, d, required).value;
    var g := Replace(f, tag, e);
    FarmTagsSplit(f);
    if UniqueTags(f) && tag in EarTags(f.breeding) {
      UniqueSplit(EarTags(f.fattening), EarTags(f.breeding));
      FarmTagsSplit(g);
      RebatchFindsStripped(g, tag);
    }
  }

  /** The ringworm edits only touch what batching recomputes. */
  lemma RingwormEditsStripEqual(c: BreedingCalf, d: Date)
    ensures Strip(EditRingworm1(c, d)) == Strip(c)
    ensures EditRingworm2(c, d).Success? ==> Strip(EditRingworm2(c, d).value) == Strip(c)
  {
  }

  /**
   * Editing a ringworm date of a breeding calf through the farm has no lasting effect:
   * the re-batching that follows recomputes both ringworm treatments from the batch, so
   * the result is the farm re-batched as it was. So is editing a kind the calf's
   * category does not have.
   */
  lemma EditCalfRingwormOverwritten(f: Farm, tag: int, kind: Kind, d: Date, required: bool)
    requires tag in EarTags(f.breeding) && tag !in EarTags(f.fattening)
    requires kind in {Sell, Ringworm1, Ringworm2}
    ensures EditCalf(f, tag, kind, d, required).Success? ==> EditCalf(f, tag, kind, d, required) == Success(Rebatch(f))
  {
    FarmTagsSplit(f);
    var c := GetCalf(f, tag).value;
    RingwormKindsStripped(c, kind, d, required);
    var e := EditTreatment(c, kind, d, required);
    if e.Success? {
      ReplaceStrippedRebatch(f, tag, e.value);
    }
  }

  /** On a breeding calf, selling and the ringworm edits leave the stripped calf as it was. */
  lemma RingwormKindsStripped(c: Calf, kind: Kind, d: Date, required: bool)
    requires c.Breeding? && kind in {Sell, Ringworm1, Ringworm2}
    ensures EditTreatment(c, kind, d, required).Success? ==>
      EditTreatment(c, kind, d, required).value.Breeding? &&
      Strip(EditTreatment(c, kind, d, required).value) == Strip(c)
  {
    RingwormEditsStripEqual(c, d);
  }

  /** Putting back a calf that differs only in what batching recomputes changes nothing once re-batched. */
  lemma ReplaceStrippedRebatch(f: Farm, tag: int, c2: Calf)
    requires tag in EarTags(f.breeding) && tag !in EarTags(f.fattening)
    requires c2.Breeding? && c2.earTag == tag
    requires GetCalf(f, tag).Some? && GetCalf(f, tag).value.Breeding?
    requires Strip(c2) == Strip(GetCalf(f, tag).value)
    ensures tag in FarmTags(f)
    ensures Rebatch(Replace(f, tag, c2)) == Rebatch(f)
  {
    FarmTagsSplit(f);
    var i := IndexOf(EarTags(f.breeding), tag);
    var g := Replace(f, tag, c2);
    assert g.breeding == f.breeding[i := c2];
    assert f.breeding[i] == GetCalf(f, tag).value;
    SetRingwormReadsStripped(g.breeding, f.breeding);
  }
}

=== FILE: farm.dfy ===
/**
 * The herd (models/farm.py): fattening and breeding calves in two lists, with ear tags
 * meant to be unique across both. Operations return the new farm; where the source
 * raises, the result is a `Failure`.
 */
module Farms {
  import opened Wrappers
  import opened Day
  import opened Treatments
  import opened Calves
  import opened Seqs
  import opened Sorting
  import opened Batching
  import Genders

  datatype Farm = Farm(fattening: seq<FatteningCalf>, breeding: seq<BreedingCalf>)

  /** What the source raises. */
  datatype Error =
    | DuplicateEarTag(tag: int)               // "Ear tag N already exists"
    | CalfNotFound(tag: int)                  // `get_calf` gave `None` and the code used it
    | TreatmentMissing(tag: int, kind: Kind)  // an edit reached a node that is `None`

  /** `Farm()`. */
  const EmptyFarm: Farm := Farm([], [])

  /** `get_calves`: fattening calves first, then breeding calves. */
  function AllCalves(f: Farm): seq<Calf>
  {
    f.fattening + f.breeding
  }

  /** `size`, `len` and `__sizeof__`: the number of calves in both lists. */
  function Size(f: Farm): (n: nat)
    ensures n == |AllCalves(f)|
  {
    |f.fattening| + |f.breeding|
  }

  /** `get_ear_tags`. */
  function FarmTags(f: Farm): seq<int>
  {
    EarTags(AllCalves(f))
  }

  /** The herd's intended invariant: no ear tag twice across both lists. */
  predicate UniqueTags(f: Farm)
  {
    Unique(FarmTags(f))
  }

  lemma FarmTagsSplit(f: Farm)
    ensures FarmTags(f) == EarTags(f.fattening) + EarTags(f.breeding)
  {
    EarTagsAppend(f.fattening, f.breeding);
  }

  /** The breeding list re-batched: `set_ringworm`. */
  function Rebatch(f: Farm): (r: Farm)
    ensures r.fattening == f.fattening
    ensures multiset(FarmTags(r)) == multiset(FarmTags(f))
  {
    SetRingwormKeepsTags(f.breeding);
    FarmTagsSplit(f);
    FarmTagsSplit(f.(breeding := SetRingworm(f.breeding)));
    f.(breeding := SetRingworm(f.breeding))
  }

  /** Re-batching neither adds nor loses a tag, so uniqueness is unaffected. */
  lemma RebatchSameTags(f: Farm)
    ensures forall t :: t in FarmTags(Rebatch(f)) <==> t in FarmTags(f)
    ensures UniqueTags(Rebatch(f)) <==> UniqueTags(f)
  {
    var r := Rebatch(f);
    assert forall t :: t in FarmTags(r) <==> t in multiset(FarmTags(r));
    assert forall t :: t in FarmTags(f) <==> t in multiset(FarmTags(f));
    UniqueMultiset(FarmTags(r));
    UniqueMultiset(FarmTags(f));
  }

  /**
   * With unique tags, the calf re-batching leaves under a breeding tag is the calf that
   * had it, up to the ringworm treatments that re-batching recomputes.
   */
  lemma RebatchFindsStripped(f: Farm, tag: int)
    requires UniqueTags(f) && tag in EarTags(f.breeding)
    ensures GetCalf(f, tag).Some? && GetCalf(f, tag).value.Breeding?
    ensures GetCalf(Rebatch(f), tag).Some? && GetCalf(Rebatch(f), tag).value.Breeding?
    ensures Strip(GetCalf(Rebatch(f), tag).value) == Strip(GetCalf(f, tag).value)
  {
    FarmTagsSplit(f);
    FarmTagsSplit(Rebatch(f));
    UniqueSplit(EarTags(f.fattening), EarTags(f.breeding));
    var sorted := Sort(f.breeding, BirthKey);
    var r := SetRingworm(f.breeding);
    SetRingwormKeepsTags(f.breeding);
    assert tag in multiset(EarTags(f.breeding));
    assert tag in EarTags(r);
    var i :| 0 <= i < |r| && FindByTag(r, tag) == Some(r[i]);
    assert Strip(r[i]) == Strip(sorted[i]);
    SortSameMembers(f.breeding);
    assert sorted[i] in f.breeding;
    var j :| 0 <= j < |f.breeding| && f.breeding[j] == sorted[i];
    FindByTagUnique(f.breeding, j);
  }

  /**
   * `add_calf`: refuses an ear tag present in either list; otherwise appends the calf to
   * its list, and re-batches after a breeding calf when `setRingworm` is set.
   */
  function AddCalf(f: Farm, c: Calf, setRingworm: bool): (r: Result<Farm, Error>)
    ensures r.Failure? <==> c.earTag in FarmTags(f)
    ensures r.Failure? ==> r.error == DuplicateEarTag(c.earTag)
    ensures r.Success? ==> Size(r.value) == Size(f) + 1
    ensures r.Success? ==> multiset(FarmTags(r.value)) == multiset(FarmTags(f)) + multiset{c.earTag}
    ensures r.Success? && c.Fattening? ==> r.value == Farm(f.fattening + [c], f.breeding)
    ensures r.Success? && c.Breeding? ==> r.value.fattening == f.fattening
    ensures r.Success? && c.Breeding? && !setRingworm ==> r.value.breeding == f.breeding + [c]
    ensures r.Success? && c.Breeding? && setRingworm ==> r.value.breeding == SetRingworm(f.breeding + [c])
    ensures UniqueTags(f) && r.Success? ==> UniqueTags(r.value)
  {
    if c.earTag in FarmTags(f) then Failure(DuplicateEarTag(c.earTag))
    else
      var added := Placed(f, c);
      UniqueAfterPlacing(f, c);
      if c.Breeding? && setRingworm then
        RebatchSameTags(added);
        Success(Rebatch(added))
      else Success(added)
  }

  /** The calf appended to the list of its category. */
  function Placed(f: Farm, c: Calf): (r: Farm)
    ensures Size(r) == Size(f) + 1
    ensures multiset(FarmTags(r)) == multiset(FarmTags(f)) + multiset{c.earTag}
  {
    var r := if c.Fattening? then Farm(f.fattening + [c], f.breeding) else Farm(f.fattening, f.breeding + [c]);
    FarmTagsSplit(f);
    FarmTagsSplit(r);
    EarTagsAppend(f.fattening, [c]);
    EarTagsAppend(f.breeding, [c]);
    r
  }

  /** Appending a calf whose tag is new keeps the tags unique. */
  lemma UniqueAfterPlacing(f: Farm, c: Calf)
    requires c.earTag !in FarmTags(f)
    ensures UniqueTags(f) ==> UniqueTags(Placed(f, c))
  {
    UniqueMultiset(FarmTags(f));
    UniqueMultiset(FarmTags(Placed(f, c)));
    assert c.earTag !in multiset(FarmTags(f));
  }

  /** The result of `add_calves`: the farm as far as it got, and the error that stopped it, if any. */
  datatype Outcome = Outcome(farm: Farm, error: Option<Error>)

  /**
   * `add_calves`: adds the calves in order and stops at the first refused one; the calves
   * added before it stay.
   */
  function AddCalves(f: Farm, cs: seq<Calf>, setRingworm: bool): (r: Outcome)
    ensures r.error.None? <==> Unique(EarTags(cs)) && forall c :: c in cs ==> c.earTag !in FarmTags(f)
    ensures r.error.Some? ==> r.error.value.DuplicateEarTag? && r.error.value.tag in EarTags(cs)
    ensures r.error.None? ==> Added(f, cs, r.farm, setRingworm)
    ensures r.error.Some? ==> exists k :: 0 <= k < |cs| && Stopped(f, cs, k, r, setRingworm)
    ensures UniqueTags(f) ==> UniqueTags(r.farm)
    decreases |cs|
  {
    if |cs| == 0 then
      assert FatteningOf(cs) == [] && BreedingOf(cs) == [];
      Outcome(f, None)
    else
      match AddCalf(f, cs[0], setRingworm)
      case Failure(e) =>
        assert EarTags(cs)[0] == cs[0].earTag;
        assert cs[..0] == [];
        assert FatteningOf(cs[..0]) == [] && BreedingOf(cs[..0]) == [];
        var r := Outcome(f, Some(e));
        assert Stopped(f, cs, 0, r, setRingworm);
        r
      case Success(next) =>
        AddCalfTags(f, cs[0], setRingworm);
        AddCalvesStep(f, next, cs);
        var r := AddCalves(next, cs[1..], setRingworm);
        AddCalvesRest(f, next, cs, r, setRingworm);
        r
  }

  /** What the rest of the list did to the farm after the first calf, read from the start. */
  lemma AddCalvesRest(f: Farm, next: Farm, cs: seq<Calf>, r: Outcome, setRingworm: bool)
    requires |cs| > 0 && AddCalf(f, cs[0], setRingworm) == Success(next)
    requires r.error.None? ==> Added(next, cs[1..], r.farm, setRingworm)
    requires r.error.Some? ==> exists k :: 0 <= k < |cs[1..]| && Stopped(next, cs[1..], k, r, setRingworm)
    ensures r.error.None? ==> Added(f, cs, r.farm, setRingworm)
    ensures r.error.Some? ==> exists k :: 0 <= k < |cs| && Stopped(f, cs, k, r, setRingworm)
  {
    AddCalfAdded(f, cs[0], setRingworm);
    if r.error.None? {
      AddedTrans(f, next, r.farm, [cs[0]], cs[1..], setRingworm);
      assert [cs[0]] + cs[1..] == cs;
    } else {
      var k :| 0 <= k < |cs[1..]| && Stopped(next, cs[1..], k, r, setRingworm);
      AddedTrans(f, next, r.farm, [cs[0]], cs[1..][..k], setRingworm);
      assert [cs[0]] + cs[1..][..k] == cs[..k + 1];
      assert Stopped(f, cs, k + 1, r, setRingworm);
    }
  }

  /** The fattening calves of a list, in order. */
  function FatteningOf(cs: seq<Calf>): (r: seq<Calf>)
  {
    if |cs| == 0 then []
    else (if cs[0].Fattening? then [cs[0]] else []) + FatteningOf(cs[1..])
  }

  /** The breeding calves of a list, in order. */
  function BreedingOf(cs: seq<Calf>): (r: seq<Calf>)
  {
    if |cs| == 0 then []
    else (if cs[0].Breeding? then [cs[0]] else []) + BreedingOf(cs[1..])
  }

  /** The two filters pick out exactly the calves of their category. */
  lemma {:induction false} CategoriesMembers(cs: seq<Calf>)
    ensures forall c :: c in FatteningOf(cs) <==> c in cs && c.Fattening?
    ensures forall c :: c in BreedingOf(cs) <==> c in cs && c.Breeding?
  {
    if |cs| > 0 {
      CategoriesMembers(cs[1..]);
      assert forall c :: c in cs <==> c == cs[0] || c in cs[1..];
    }
  }

  /** Splitting a list splits its fattening calves. */
  lemma {:induction false} FatteningAppend(a: seq<Calf>, b: seq<Calf>)
    ensures FatteningOf(a + b) == FatteningOf(a) + FatteningOf(b)
  {
    if |a| == 0 {
      assert a + b == b;
    } else {
      var head := if a[0].Fattening? then [a[0]] else [];
      assert (a + b)[0] == a[0];
      assert (a + b)[1..] == a[1..] + b;
      assert FatteningOf(a + b) == head + FatteningOf(a[1..] + b);
      FatteningAppend(a[1..], b);
      assert FatteningOf(a) == head + FatteningOf(a[1..]);
    }
  }

  /** Splitting a list splits its breeding calves. */
  lemma {:induction false} BreedingAppend(a: seq<Calf>, b: seq<Calf>)
    ensures BreedingOf(a + b) == BreedingOf(a) + BreedingOf(b)
  {
    if |a| == 0 {
      assert a + b == b;
    } else {
      var head := if a[0].Breeding? then [a[0]] else [];
      assert (a + b)[0] == a[0];
      assert (a + b)[1..] == a[1..] + b;
      assert BreedingOf(a + b) == head + BreedingOf(a[1..] + b);
      BreedingAppend(a[1..], b);
      assert BreedingOf(a) == head + BreedingOf(a[1..]);
    }
  }

  /**
   * `g` is `f` with the calves `added` appended, each to its own list: the fattening list
   * exactly, the breeding list exactly unless re-batching reorders it, and the tags and
   * the size in any case.
   */
  predicate Added(f: Farm, added: seq<Calf>, g: Farm, setRingworm: bool)
  {
    && Size(g) == Size(f) + |added|
    && multiset(FarmTags(g)) == multiset(FarmTags(f)) + multiset(EarTags(added))
    && g.fattening == f.fattening + FatteningOf(added)
    && (!setRingworm ==> g.breeding == f.breeding + BreedingOf(added))
  }

  /** A successful `add_calf` adds that one calf. */
  lemma AddCalfAdded(f: Farm, c: Calf, setRingworm: bool)
    ensures AddCalf(f, c, setRingworm).Success? ==> Added(f, [c], AddCalf(f, c, setRingworm).value, setRingworm)
  {
    assert EarTags([c]) == [c.earTag];
    assert [c][1..] == [];
  }

  /** Additions one after the other add both lists. */
  lemma AddedTrans(f: Farm, g: Farm, h: Farm, a: seq<Calf>, b: seq<Calf>, setRingworm: bool)
    requires Added(f, a, g, setRingworm) && Added(g, b, h, setRingworm)
    ensures Added(f, a + b, h, setRingworm)
  {
    FatteningAppend(a, b);
    assert h.fattening == f.fattening + FatteningOf(a + b);
    BreedingAppend(a, b);
    assert !setRingworm ==> h.breeding == f.breeding + BreedingOf(a + b);
    TagsAddUp(multiset(FarmTags(f)), multiset(FarmTags(g)), multiset(FarmTags(h)), a, b);
  }

  /** The tag counts of two additions in a row add up. */
  lemma TagsAddUp(tf: multiset<int>, tg: multiset<int>, th: multiset<int>, a: seq<Calf>, b: seq<Calf>)
    requires tg == tf + multiset(EarTags(a)) && th == tg + multiset(EarTags(b))
    ensures th == tf + multiset(EarTags(a + b))
  {
    EarTagsAppend(a, b);
  }

  /**
   * `add_calves` stopped at `cs[k]`: the calves before it were added, and the refused
   * calf's tag was already in the farm they made.
   */
  predicate Stopped(f: Farm, cs: seq<Calf>, k: int, r: Outcome, setRingworm: bool)
    requires 0 <= k < |cs|
  {
    && r.error == Some(DuplicateEarTag(cs[k].earTag))
    && cs[k].earTag in FarmTags(r.farm)
    && Added(f, cs[..k], r.farm, setRingworm)
  }

  /** The tags after a successful `add_calf` are the old ones and the new calf's. */
  lemma AddCalfTags(f: Farm, c: Calf, setRingworm: bool)
    ensures AddCalf(f, c, setRingworm).Success? ==>
      forall t :: t in FarmTags(AddCalf(f, c, setRingworm).value) <==> t in FarmTags(f) || t == c.earTag
  {
    var r := AddCalf(f, c, setRingworm);
    if r.Success? {
      assert forall t :: t in FarmTags(r.value) <==> t in multiset(FarmTags(r.value));
    }
  }

  /** After the first calf went in, the rest are refused exactly when the whole list would have been. */
  lemma AddCalvesStep(f: Farm, next: Farm, cs: seq<Calf>)
    requires |cs| > 0 && cs[0].earTag !in FarmTags(f)
    requires forall t :: t in FarmTags(next) <==> t in FarmTags(f) || t == cs[0].earTag
    ensures (Unique(EarTags(cs)) && forall c :: c in cs ==> c.earTag !in FarmTags(f)) <==>
      (Unique(EarTags(cs[1..])) && forall c :: c in cs[1..] ==> c.earTag !in FarmTags(next))
    ensures forall t :: t in EarTags(cs[1..]) ==> t in EarTags(cs)
  {
    EarTagsHead(cs);
    UniqueCons(cs[0].earTag, EarTags(cs[1..]));
    InEarTags(cs[1..], cs[0].earTag);
    assert forall c :: c in cs <==> c == cs[0] || c in cs[1..];
  }

  /**
   * `get_calf`: the first fattening calf with the tag, else the first breeding calf, else
   * `None`. The source prints a message and returns `None` rather than raising.
   */
  function GetCalf(f: Farm, tag: int): (r: Option<Calf>)
    ensures r.Some? <==> tag in FarmTags(f)
    ensures r.Some? ==> r.value.earTag == tag && r.value in AllCalves(f)
    ensures r.Some? ==> (r.value.Fattening? <==> tag in EarTags(f.fattening))
  {
    FarmTagsSplit(f);
    match FindByTag(f.fattening, tag)
    case Some(c) => Some(c)
    case None => FindByTag(f.breeding, tag)
  }

  /**
   * `get_calf` returns the first calf carrying the tag, reading the fattening calves
   * before the breeding ones; with duplicate tags this fixes which one.
   */
  lemma GetCalfFirst(f: Farm, tag: int)
    ensures GetCalf(f, tag).Some? ==>
      exists i :: 0 <= i < |AllCalves(f)| && AllCalves(f)[i] == GetCalf(f, tag).value &&
        forall j :: 0 <= j < i ==> AllCalves(f)[j].earTag != tag
  {
    var all := AllCalves(f);
    var n := |f.fattening|;
    match FindByTag(f.fattening, tag)
    case Some(c) =>
      var i :| 0 <= i < n && f.fattening[i] == c && forall j :: 0 <= j < i ==> f.fattening[j].earTag != tag;
      assert all[i] == c;
      assert forall j :: 0 <= j < i ==> all[j] == f.fattening[j];
    case None =>
      if FindByTag(f.breeding, tag).Some? {
        var c := FindByTag(f.breeding, tag).value;
        var i :| 0 <= i < |f.breeding| && f.breeding[i] == c &&
          forall j :: 0 <= j < i ==> f.breeding[j].earTag != tag;
        assert all[n + i] == c;
        forall j | 0 <= j < n + i
          ensures all[j].earTag != tag
        {
          if j < n {
            assert EarTags(f.fattening)[j] == f.fattening[j].earTag;
            assert all[j] == f.fattening[j];
          } else {
            assert all[j] == f.breeding[j - n];
          }
        }
      }
  }

  /** `filter(lambda x: x.ear_tag != ear_tag, ...)`. */
  function RemoveTag(cs: seq<Calf>, tag: int): seq<Calf>
  {
    if |cs| == 0 then []
    else (if cs[0].earTag != tag then [cs[0]] else []) + RemoveTag(cs[1..], tag)
  }

  /** The filter drops exactly the calves carrying `tag`. */
  lemma {:induction false} RemoveTagCounts(cs: seq<Calf>, tag: int)
    ensures forall c :: multiset(RemoveTag(cs, tag))[c] == if c.earTag == tag then 0 else multiset(cs)[c]
  {
    if |cs| > 0 {
      RemoveTagCounts(cs[1..], tag);
      assert cs == [cs[0]] + cs[1..];
    }
  }

  /** The same, read on the ear tags. */
  lemma {:induction false} RemoveTagTags(cs: seq<Calf>, tag: int)
    ensures multiset(EarTags(RemoveTag(cs, tag))) == multiset(EarTags(cs))[tag := 0]
  {
    if |cs| > 0 {
      RemoveTagTags(cs[1..], tag);
      RemoveTagStep(cs, tag);
      var h := cs[0].earTag;
      var tail := multiset(EarTags(cs[1..]));
      if h != tag {
        assert (multiset{h} + tail)[tag := 0] == multiset{h} + tail[tag := 0];
      } else {
        assert (multiset{h} + tail)[tag := 0] == tail[tag := 0];
      }
    }
  }

  /** One step of the filter, read on the ear tags. */
  lemma RemoveTagStep(cs: seq<Calf>, tag: int)
    requires |cs| > 0
    ensures multiset(EarTags(cs)) == multiset{cs[0].earTag} + multiset(EarTags(cs[1..]))
    ensures multiset(EarTags(RemoveTag(cs, tag))) ==
      (if cs[0].earTag != tag then multiset{cs[0].earTag} else multiset{}) + multiset(EarTags(RemoveTag(cs[1..], tag)))
  {
    EarTagsHead(cs);
    var head: seq<Calf> := if cs[0].earTag != tag then [cs[0]] else [];
    EarTagsAppend(head, RemoveTag(cs[1..], tag));
  }

  lemma EarTagsHead(cs: seq<Calf>)
    requires |cs| > 0
    ensures EarTags(cs) == [cs[0].earTag] + EarTags(cs[1..])
  {
    assert cs == [cs[0]] + cs[1..];
    EarTagsAppend([cs[0]], cs[1..]);
  }

  /** Filtering out an absent tag keeps the list. */
  lemma {:induction false} RemoveAbsentTag(cs: seq<Calf>, tag: int)
    ensures tag !in EarTags(cs) ==> RemoveTag(cs, tag) == cs
  {
    if |cs| > 0 && tag !in EarTags(cs) {
      assert EarTags(cs)[0] == cs[0].earTag;
      assert EarTags(cs[1..]) == EarTags(cs)[1..];
      RemoveAbsentTag(cs[1..], tag);
      assert cs == [cs[0]] + cs[1..];
    }
  }

  /** Removing from a list of one category leaves calves of that category. */
  lemma RemoveTagKeepsCategory(cs: seq<Calf>, tag: int)
    ensures forall c :: c in RemoveTag(cs, tag) ==> c in cs
    ensures (forall c :: c in cs ==> c.Fattening?) ==> forall i :: 0 <= i < |RemoveTag(cs, tag)| ==> RemoveTag(cs, tag)[i].Fattening?
    ensures (forall c :: c in cs ==> c.Breeding?) ==> forall i :: 0 <= i < |RemoveTag(cs, tag)| ==> RemoveTag(cs, tag)[i].Breeding?
  {
    RemoveTagCounts(cs, tag);
    forall c | c in RemoveTag(cs, tag)
      ensures c in cs
    {
      assert multiset(RemoveTag(cs, tag))[c] > 0;
    }
    assert forall i :: 0 <= i < |RemoveTag(cs, tag)| ==> RemoveTag(cs, tag)[i] in RemoveTag(cs, tag);
  }

  /** Both lists without the calves carrying `tag`; no re-batching. */
  function RemoveFromFarm(f: Farm, tag: int): (r: Farm)
    ensures tag !in FarmTags(r)
    ensures forall t :: t != tag ==> multiset(FarmTags(r))[t] == multiset(FarmTags(f))[t]
    ensures tag !in FarmTags(f) ==> r == f
    ensures forall c :: multiset(r.fattening)[c] == if c.earTag == tag then 0 else multiset(f.fattening)[c]
    ensures forall c :: multiset(r.breeding)[c] == if c.earTag == tag then 0 else multiset(f.breeding)[c]
  {
    var fat, br := RemoveTag(f.fattening, tag), RemoveTag(f.breeding, tag);
    RemoveTagKeepsCategory(f.fattening, tag);
    RemoveTagKeepsCategory(f.breeding, tag);
    var r := Farm(fat, br);
    RemoveBothTags(f, tag, fat, br);
    FarmTagsSplit(r);
    r
  }

  /** The tag facts of `RemoveFromFarm`, on the two filtered lists. */
  lemma RemoveBothTags(f: Farm, tag: int, fat: seq<Calf>, br: seq<Calf>)
    requires fat == RemoveTag(f.fattening, tag) && br == RemoveTag(f.breeding, tag)
    ensures tag !in EarTags(fat) + EarTags(br)
    ensures forall t :: t != tag ==> multiset(EarTags(fat) + EarTags(br))[t] == multiset(FarmTags(f))[t]
    ensures tag !in FarmTags(f) ==> fat == f.fattening && br == f.breeding
    ensures forall c :: multiset(fat)[c] == if c.earTag == tag then 0 else multiset(f.fattening)[c]
    ensures forall c :: multiset(br)[c] == if c.earTag == tag then 0 else multiset(f.breeding)[c]
  {
    RemoveTagCounts(f.fattening, tag);
    RemoveTagCounts(f.breeding, tag);
    RemoveTagTags(f.fattening, tag);
    RemoveTagTags(f.breeding, tag);
    RemoveAbsentTag(f.fattening, tag);
    RemoveAbsentTag(f.breeding, tag);
    FarmTagsSplit(f);
    assert multiset(EarTags(fat) + EarTags(br))[tag] == 0;
  }

  /** Equal counts for every tag keep the tags unique. */
  lemma UniqueByCounts(a: seq<int>, b: seq<int>)
    requires forall t :: multiset(b)[t] <= multiset(a)[t]
    ensures Unique(a) ==> Unique(b)
  {
    UniqueMultiset(a);
    UniqueMultiset(b);
    if Unique(a) {
      forall x
        ensures multiset(b)[x] <= 1
      {
        assert multiset(b)[x] <= multiset(a)[x];
      }
    }
  }

  /**
   * `delete_calf`: removes every calf carrying `tag` from both lists, then re-batches when
   * `setRingworm` is set. An absent tag removes nothing.
   */
  function DeleteCalf(f: Farm, tag: int, setRingworm: bool): (r: Farm)
    ensures tag !in FarmTags(r) && GetCalf(r, tag).None?
    ensures forall t :: t != tag ==> multiset(FarmTags(r))[t] == multiset(FarmTags(f))[t]
    ensures tag !in FarmTags(f) && !setRingworm ==> r == f
    ensures forall c :: multiset(r.fattening)[c] == if c.earTag == tag then 0 else multiset(f.fattening)[c]
    ensures !setRingworm ==>
      forall c :: multiset(r.breeding)[c] == if c.earTag == tag then 0 else multiset(f.breeding)[c]
    ensures setRingworm ==> r.breeding == SetRingworm(RemoveFromFarm(f, tag).breeding)
    ensures UniqueTags(f) ==> UniqueTags(r)
  {
    var removed := RemoveFromFarm(f, tag);
    UniqueByCounts(FarmTags(f), FarmTags(removed));
    if setRingworm then
      RebatchSameTags(removed);
      Rebatch(removed)
    else removed
  }

  /** The loop of `delete_calves`: each tag removed in turn, with batching switched off. */
  function RemoveAll(f: Farm, tags: seq<int>): (r: Farm)
    ensures forall t :: t in tags ==> t !in FarmTags(r)
    ensures forall t :: t !in tags ==> multiset(FarmTags(r))[t] == multiset(FarmTags(f))[t]
    ensures forall c :: multiset(r.fattening)[c] == if c.earTag in tags then 0 else multiset(f.fattening)[c]
    ensures forall c :: multiset(r.breeding)[c] == if c.earTag in tags then 0 else multiset(f.breeding)[c]
    decreases |tags|
  {
    if |tags| == 0 then f
    else
      var next := RemoveFromFarm(f, tags[0]);
      var r := RemoveAll(next, tags[1..]);
      assert forall t :: t in tags <==> t == tags[0] || t in tags[1..];
      assert tags[0] !in FarmTags(r) by {
        if tags[0] !in tags[1..] {
          assert multiset(FarmTags(r))[tags[0]] == multiset(FarmTags(next))[tags[0]] == 0;
        }
      }
      r
  }

  /** `delete_calves`: deletes all the given tags, then re-batches once. */
  function DeleteCalves(f: Farm, tags: seq<int>): (r: Farm)
    ensures forall t :: t in tags ==> t !in FarmTags(r)
    ensures forall t :: t !in tags ==> multiset(FarmTags(r))[t] == multiset(FarmTags(f))[t]
    ensures forall c :: multiset(r.fattening)[c] == if c.earTag in tags then 0 else multiset(f.fattening)[c]
    ensures r.breeding == SetRingworm(RemoveAll(f, tags).breeding)
    ensures UniqueTags(f) ==> UniqueTags(r)
  {
    var removed := RemoveAll(f, tags);
    UniqueByCounts(FarmTags(f), FarmTags(removed));
    RebatchSameTags(removed);
    Rebatch(removed)
  }

  /** Updating one calf's tag changes one occurrence in the tag list. */
  lemma UpdateTags(cs: seq<Calf>, i: int, c: Calf)
    requires 0 <= i < |cs|
    ensures EarTags(cs[i := c]) == EarTags(cs)[i := c.earTag]
    ensures multiset(EarTags(cs[i := c])) == multiset(EarTags(cs)) - multiset{cs[i].earTag} + multiset{c.earTag}
  {
    var t := EarTags(cs);
    assert t == t[..i] + [t[i]] + t[i + 1..];
    assert t[i := c.earTag] == t[..i] + [c.earTag] + t[i + 1..];
  }

  /** The calf at position `i` of one list, retagged. */
  function RetagAt(cs: seq<Calf>, i: nat, newTag: int): (r: seq<Calf>)
    requires i < |cs|
    ensures |r| == |cs| && r[i].earTag == newTag
    ensures forall j :: 0 <= j < |cs| && j != i ==> r[j] == cs[j]
    ensures forall j :: 0 <= j < |cs| ==> (r[j].Fattening? <==> cs[j].Fattening?)
    ensures multiset(EarTags(r)) == multiset(EarTags(cs)) - multiset{cs[i].earTag} + multiset{newTag}
  {
    UpdateTags(cs, i, Calves.ChangeEarTag(cs[i], newTag));
    cs[i := Calves.ChangeEarTag(cs[i], newTag)]
  }

  /** A list retagged in place, put back next to the untouched other list. */
  lemma RetagCounts(a: seq<int>, a2: seq<int>, b: seq<int>, oldTag: int, newTag: int)
    requires oldTag in a
    requires multiset(a2) == multiset(a) - multiset{oldTag} + multiset{newTag}
    ensures multiset(a2 + b) == multiset(a + b) - multiset{oldTag} + multiset{newTag}
    ensures multiset(b + a2) == multiset(b + a) - multiset{oldTag} + multiset{newTag}
  {
  }

  /**
   * `change_ear_tag`: retags the calf `get_calf` finds. The source checks nothing about
   * the new tag; a missing calf raises.
   */
  function ChangeEarTag(f: Farm, oldTag: int, newTag: int): (r: Result<Farm, Error>)
    ensures r.Failure? <==> oldTag !in FarmTags(f)
    ensures r.Failure? ==> r.error == CalfNotFound(oldTag)
    ensures r.Success? ==> Size(r.value) == Size(f)
    ensures r.Success? ==> multiset(FarmTags(r.value)) == multiset(FarmTags(f)) - multiset{oldTag} + multiset{newTag}
    ensures r.Success? && oldTag in EarTags(f.fattening) ==>
      r.value.breeding == f.breeding &&
      exists i :: 0 <= i < |f.fattening| && GetCalf(f, oldTag) == Some(f.fattening[i]) &&
        r.value.fattening == f.fattening[i := Calves.ChangeEarTag(f.fattening[i], newTag)]
    ensures r.Success? && oldTag !in EarTags(f.fattening) ==>
      r.value.fattening == f.fattening &&
      exists i :: 0 <= i < |f.breeding| && GetCalf(f, oldTag) == Some(f.breeding[i]) &&
        r.value.breeding == f.breeding[i := Calves.ChangeEarTag(f.breeding[i], newTag)]
  {
    FarmTagsSplit(f);
    if oldTag in EarTags(f.fattening) then
      var i := IndexOf(EarTags(f.fattening), oldTag);
      var fat := RetagAt(f.fattening, i, newTag);
      assert forall j :: 0 <= j < |fat| ==> fat[j].Fattening?;
      var g := Farm(fat, f.breeding);
      FarmTagsSplit(g);
      RetagCounts(EarTags(f.fattening), EarTags(fat), EarTags(f.breeding), oldTag, newTag);
      Success(g)
    else if oldTag in EarTags(f.breeding) then
      var i := IndexOf(EarTags(f.breeding), oldTag);
      var br := RetagAt(f.breeding, i, newTag);
      assert forall j :: 0 <= j < |br| ==> br[j].Breeding?;
      var g := Farm(f.fattening, br);
      FarmTagsSplit(g);
      RetagCounts(EarTags(f.breeding), EarTags(br), EarTags(f.fattening), oldTag, newTag);
      Success(g)
    else Failure(CalfNotFound(oldTag))
  }

  /** Retagging a calf with a tag already in use succeeds and leaves two calves with that tag. */
  lemma ChangeEarTagCanDuplicate(a: FatteningCalf, b: BreedingCalf)
    requires a.earTag != b.earTag
    ensures UniqueTags(Farm([a], [b]))
    ensures ChangeEarTag(Farm([a], [b]), a.earTag, b.earTag).Success?
    ensures !UniqueTags(ChangeEarTag(Farm([a], [b]), a.earTag, b.earTag).value)
  {
    var f := Farm([a], [b]);
    assert FarmTags(f) == [a.earTag, b.earTag];
    assert EarTags(f.fattening) == [a.earTag];
    var g := ChangeEarTag(f, a.earTag, b.earTag).value;
    assert g.fattening == [Calves.ChangeEarTag(a, b.earTag)] && g.breeding == [b];
    assert FarmTags(g) == [b.earTag, b.earTag];
    assert FarmTags(g)[0] == FarmTags(g)[1];
  }
}

=== FILE: gender.dfy ===
/** The sex of a calf and its one-letter tag (models/gender.py). */
module Genders {
  import opened Wrappers

  /** The `Gender` enum. */
  datatype Gender = Male | Female

  /** The enum value: "m" for male, "w" (weiblich) for female. */
  function Value(g: Gender): string
  {
    match g
    case Male => "m"
    case Female => "w"
  }

  /** `str(g)`: the enum defines no `__str__`, so Python prints the qualified member name. */
  function Repr(g: Gender): string
  {
    match g
    case Male => "Gender.Male"
    case Female => "Gender.Female"
  }

  /** Lower-cases one character; only the letters A to Z have a lower-case form here. */
  function LowerChar(ch: char): char
  {
    if IsUpper(ch) then (ch as int + 32) as char else ch
  }

  /** An ASCII upper-case letter. */
  predicate IsUpper(ch: char)
  {
    'A' <= ch <= 'Z'
  }

  /**
   * `str.lower()`, restricted to ASCII: no upper-case letter is left, each one becomes
   * the letter 32 code points above it, and every other character stays where it was.
   */
  function Lower(s: string): (r: string)
    ensures |r| == |s|
    ensures forall i :: 0 <= i < |r| ==> !IsUpper(r[i])
    ensures forall i :: 0 <= i < |s| && IsUpper(s[i]) ==> r[i] as int == s[i] as int + 32
    ensures forall i :: 0 <= i < |s| && !IsUpper(s[i]) ==> r[i] == s[i]
  {
    seq(|s|, i requires 0 <= i < |s| => LowerChar(s[i]))
  }

  /** Lower-casing twice is lower-casing once. */
  lemma LowerIdempotent(s: string)
    ensures Lower(Lower(s)) == Lower(s)
  {
    var l := Lower(s);
    assert forall i :: 0 <= i < |l| ==> Lower(l)[i] == l[i];
  }

  /**
   * `Gender.from_str`: the members are tried in declaration order against the
   * lower-cased input; a string that matches neither raises `ValueError`.
   */
  function FromStr(s: string): (r: Result<Gender, string>)
    ensures r == Success(Male) <==> s == "m" || s == "M"
    ensures r == Success(Female) <==> s == "w" || s == "W"
    ensures r.Failure? ==> r.error == "Invalid gender string"
  {
    var l := Lower(s);
    if l == Value(Male) then Success(Male)
    else if l == Value(Female) then Success(Female)
    else Failure("Invalid gender string")
  }

  /** The enum value parses back to the member it came from. */
  lemma FromStrValue(g: Gender)
    ensures FromStr(Value(g)) == Success(g)
  {
  }
}

=== FILE: reports.dfy ===
/**
 * What the farm reports (models/farm.py): the jobs of a calendar week, the highest ear
 * tags in use, and the rows of the overview table.
 */
module Reports {
  import opened Wrappers
  import opened Day
  import opened Treatments
  import opened Calves
  import opened Farms

  /** One entry of `get_jobs_in_week`: ear tag, treatment name and expected date. */
  datatype Job = Job(earTag: int, name: string, expected: Date)

  /** The job a slot of the cached list yields in week `w`, if any. */
  predicate DueIn(s: Slot, w: int)
  {
    s.node.Some? && Week(s.node.value) == w
  }

  function JobOf(tag: int, s: Slot): Job
    requires s.node.Some?
  {
    Job(tag, DisplayName(s.kind), s.node.value.expected)
  }

  /**
   * The inner loop of `get_jobs_in_week`: the calf's cached treatments in order, keeping
   * those present whose week is `w`. The week is taken from the resolved date, while the
   * job reports the expected date.
   */
  function SlotJobs(tag: int, slots: seq<Slot>, w: int): (r: seq<Job>)
    ensures |r| <= |slots|
  {
    if |slots| == 0 then []
    else (if DueIn(slots[0], w) then [JobOf(tag, slots[0])] else []) + SlotJobs(tag, slots[1..], w)
  }

  /** A job is listed for a calf exactly when one of its cached slots is due that week. */
  lemma {:induction false} SlotJobsMembers(tag: int, slots: seq<Slot>, w: int, j: Job)
    ensures j in SlotJobs(tag, slots, w) <==> exists s :: s in slots && DueIn(s, w) && j == JobOf(tag, s)
  {
    if |slots| > 0 {
      SlotJobsMembers(tag, slots[1..], w, j);
      assert forall s :: s in slots <==> s == slots[0] || s in slots[1..];
    }
  }

  /** The outer loop over one list of calves. */
  function ListJobs(cs: seq<Calf>, w: int): seq<Job>
  {
    if |cs| == 0 then [] else SlotJobs(cs[0].earTag, cs[0].treatments, w) + ListJobs(cs[1..], w)
  }

  /** A job is listed for a list of calves exactly when it is listed for one of them. */
  lemma {:induction false} ListJobsMembers(cs: seq<Calf>, w: int, j: Job)
    ensures j in ListJobs(cs, w) <==> exists c :: c in cs && j in SlotJobs(c.earTag, c.treatments, w)
  {
    if |cs| > 0 {
      ListJobsMembers(cs[1..], w, j);
      assert forall c :: c in cs <==> c == cs[0] || c in cs[1..];
    }
  }

  /** `get_jobs_in_week`: the breeding calves' jobs first, then the fattening calves'. */
  function JobsInWeek(f: Farm, w: int): seq<Job>
  {
    ListJobs(f.breeding, w) + ListJobs(f.fattening, w)
  }

  /**
   * The jobs of week `w` are exactly the present slots of the calves' cached lists whose
   * week is `w`, each under its calf's ear tag.
   */
  lemma JobsInWeekMembers(f: Farm, w: int, j: Job)
    ensures j in JobsInWeek(f, w) <==>
      exists c, s :: c in AllCalves(f) && s in c.treatments && DueIn(s, w) && j == JobOf(c.earTag, s)
  {
    ListJobsMembers(f.breeding, w, j);
    ListJobsMembers(f.fattening, w, j);
    if j in JobsInWeek(f, w) {
      var cs: seq<Calf> := if j in ListJobs(f.breeding, w) then f.breeding else f.fattening;
      assert j in ListJobs(cs, w);
      ListJobsMembers(cs, w, j);
      var c: Calf :| c in cs && j in SlotJobs(c.earTag, c.treatments, w);
      SlotJobsMembers(c.earTag, c.treatments, w, j);
      assert c in AllCalves(f);
    }
    if exists c, s :: c in AllCalves(f) && s in c.treatments && DueIn(s, w) && j == JobOf(c.earTag, s) {
      var c, s :| c in AllCalves(f) && s in c.treatments && DueIn(s, w) && j == JobOf(c.earTag, s);
      SlotJobsMembers(c.earTag, c.treatments, w, j);
      assert c in f.fattening || c in f.breeding;
    }
  }

  /** A current cached list holds one slot per listed kind, carrying the calf's node of that kind. */
  lemma CurrentSlots(c: Calf, s: Slot)
    requires ListCurrent(c)
    ensures s in c.treatments <==> s.kind in ListedKinds(c) && s.node == NodeOf(c, s.kind)
  {
    CurrentTreatmentsShape(c);
    var ks := ListedKinds(c);
    if s in c.treatments {
      var i :| 0 <= i < |c.treatments| && c.treatments[i] == s;
      assert ks[i] in ks;
    }
    if s.kind in ks && s.node == NodeOf(c, s.kind) {
      var i :| 0 <= i < |ks| && ks[i] == s.kind;
      assert c.treatments[i] == s;
    }
  }

  /**
   * For a calf whose cached list is current, its jobs are its nodes of the listed kinds
   * that fall in week `w`; the birth never appears.
   */
  lemma CurrentCalfJobs(c: Calf, w: int, j: Job)
    requires ListCurrent(c)
    ensures j in SlotJobs(c.earTag, c.treatments, w) <==>
      exists k :: k in ListedKinds(c) && DueIn(Slot(k, NodeOf(c, k)), w) && j == JobOf(c.earTag, Slot(k, NodeOf(c, k)))
    ensures j in SlotJobs(c.earTag, c.treatments, w) ==> j.name != DisplayName(Birth)
  {
    SlotJobsMembers(c.earTag, c.treatments, w, j);
    CurrentTreatmentsShape(c);
    if j in SlotJobs(c.earTag, c.treatments, w) {
      var s :| s in c.treatments && DueIn(s, w) && j == JobOf(c.earTag, s);
      CurrentSlots(c, s);
      assert s == Slot(s.kind, NodeOf(c, s.kind));
      DisplayNameInjective(s.kind, Birth);
    }
    if exists k :: k in ListedKinds(c) && DueIn(Slot(k, NodeOf(c, k)), w) && j == JobOf(c.earTag, Slot(k, NodeOf(c, k))) {
      var k :| k in ListedKinds(c) && DueIn(Slot(k, NodeOf(c, k)), w) && j == JobOf(c.earTag, Slot(k, NodeOf(c, k)));
      CurrentSlots(c, Slot(k, NodeOf(c, k)));
    }
  }

  /**
   * `delete_ringworm1` does not refresh the cached list, so a calf keeps reporting the
   * cleared treatment as a job.
   */
  lemma DeletedRingworm1StillListed(c: BreedingCalf, w: int)
    requires ListCurrent(c) && c.ringworm1.Some? && Week(c.ringworm1.value) == w
    ensures DeleteRingworm1(c).ringworm1.None?
    ensures Job(c.earTag, DisplayName(Ringworm1), c.ringworm1.value.expected)
            in SlotJobs(c.earTag, DeleteRingworm1(c).treatments, w)
  {
    var s := Slot(Ringworm1, c.ringworm1);
    CurrentSlots(c, s);
    SlotJobsMembers(c.earTag, c.treatments, w, JobOf(c.earTag, s));
  }

  // ---------------------------------------------------------------------------------
  // Highest ear tags

  function DigitChar(d: int): char
    requires 0 <= d < 10
  {
    "0123456789"[d]
  }

  /** The decimal digits of a natural number, most significant first. */
  function Digits(n: nat): (s: string)
    ensures |s| >= 1
    ensures n < 10 <==> |s| == 1
  {
    if n < 10 then [DigitChar(n)] else Digits(n / 10) + [DigitChar(n % 10)]
  }

  /** `str(ear_tag)`. */
  function Decimal(n: int): string
  {
    if n < 0 then "-" + Digits(-n) else Digits(n)
  }

  /** `str(ear_tag).startswith("99")`: the marker of a wrongly issued tag. */
  predicate StartsWith99(n: int)
  {
    var s := Decimal(n);
    |s| >= 2 && s[0] == '9' && s[1] == '9'
  }

  /**
   * Appending a digit keeps the leading two digits of a number of two or more digits;
   * from a single digit it forms them. So the tags starting with 99 are 99, 990..999,
   * 9900..9999, and so on.
   */
  lemma StartsWith99Extend(n: nat, d: nat)
    requires 0 < n && d < 10
    ensures StartsWith99(10 * n + d) <==> StartsWith99(n) || (n == 9 && d == 9)
  {
    var m := 10 * n + d;
    assert m / 10 == n && m % 10 == d;
    assert Digits(m) == Digits(n) + [DigitChar(d)];
  }

  /** No negative tag and no single digit starts with 99. */
  lemma StartsWith99NeedsTwoDigits(n: int)
    ensures n < 10 ==> !StartsWith99(n)
  {
  }

  /** `max(..., default=0)`: the largest element, or 0 for an empty sequence. */
  function MaxOr0(s: seq<int>): (m: int)
    ensures |s| == 0 ==> m == 0
    ensures |s| > 0 ==> m in s && forall x :: x in s ==> x <= m
  {
    if |s| == 0 then 0
    else if |s| == 1 then s[0]
    else
      var rest := MaxOr0(s[1..]);
      assert forall x :: x in s ==> x == s[0] || x in s[1..];
      if s[0] >= rest then s[0] else rest
  }

  /** The ear tags of breeding calves that do not start with 99, in list order. */
  function EligibleTags(cs: seq<Calf>): (r: seq<int>)
    ensures forall t :: t in r <==> exists c :: c in cs && c.earTag == t && !StartsWith99(t)
  {
    if |cs| == 0 then []
    else
      var rest := EligibleTags(cs[1..]);
      assert forall c :: c in cs <==> c == cs[0] || c in cs[1..];
      (if StartsWith99(cs[0].earTag) then [] else [cs[0].earTag]) + rest
  }

  /**
   * `get_max_breeding_calf_ear_tag`: the highest breeding ear tag that does not start
   * with 99, or 0 when there is none.
   */
  function MaxBreedingEarTag(f: Farm): (m: int)
    ensures (forall c :: c in f.breeding ==> StartsWith99(c.earTag)) ==> m == 0
    ensures (exists c :: c in f.breeding && !StartsWith99(c.earTag)) ==>
      && (exists c :: c in f.breeding && c.earTag == m && !StartsWith99(m))
      && (forall c :: c in f.breeding && !StartsWith99(c.earTag) ==> c.earTag <= m)
  {
    var tags := EligibleTags(f.breeding);
    assert (exists c :: c in f.breeding && !StartsWith99(c.earTag)) ==> |tags| > 0 by {
      if exists c :: c in f.breeding && !StartsWith99(c.earTag) {
        var c :| c in f.breeding && !StartsWith99(c.earTag);
        assert c.earTag in tags;
      }
    }
    MaxOr0(tags)
  }

  /** `get_max_fattening_calf_ear_tag`: the highest fattening ear tag, or 0 when there is none. */
  function MaxFatteningEarTag(f: Farm): (m: int)
    ensures |f.fattening| == 0 ==> m == 0
    ensures |f.fattening| > 0 ==>
      (exists c :: c in f.fattening && c.earTag == m) && forall c :: c in f.fattening ==> c.earTag <= m
  {
    var tags := EarTags(f.fattening);
    assert forall c :: c in f.fattening ==> c.earTag in tags by {
      forall c | c in f.fattening
        ensures c.earTag in tags
      {
        var i :| 0 <= i < |f.fattening| && f.fattening[i] == c;
        assert tags[i] == c.earTag;
      }
    }
    InEarTags(f.fattening, MaxOr0(tags));
    MaxOr0(tags)
  }

  // ---------------------------------------------------------------------------------
  // The overview table

  /** `get_calves_as_tuple`: one row per calf, fattening calves first. */
  function CalvesAsTuple(f: Farm): (rows: seq<Row>)
    ensures |rows| == Size(f)
    ensures forall i :: 0 <= i < |rows| ==> rows[i].earTag == AllCalves(f)[i].earTag
    ensures forall i, k :: 0 <= i < |rows| && k != Birth ==>
      Column(rows[i], k) == ResolvedOf(NodeOf(AllCalves(f)[i], k))
  {
    var cs := AllCalves(f);
    var rows := seq(|cs|, i requires 0 <= i < |cs| => AsTuple(cs[i]));
    assert forall i, k :: 0 <= i < |rows| && k != Birth ==> Column(rows[i], k) == ResolvedOf(NodeOf(cs[i], k)) by {
      forall i | 0 <= i < |rows|
        ensures forall k :: k != Birth ==> Column(rows[i], k) == ResolvedOf(NodeOf(cs[i], k))
      {
        AsTupleColumns(cs[i]);
      }
    }
    assert forall i :: 0 <= i < |rows| ==> rows[i].earTag == cs[i].earTag by {
      forall i | 0 <= i < |rows|
        ensures rows[i].earTag == cs[i].earTag
      {
        AsTupleColumns(cs[i]);
      }
    }
    rows
  }
}

=== FILE: scenario.dfy ===
/**
 * Worked dates for a calf born on Monday 2023-11-20: each node of both chains lands
 * on the date the scheduler's own examples give for it.
 */
module Scenarios {
  import opened Wrappers
  import opened Day
  import opened Calendar
  import opened Genders
  import opened Treatments
  import opened Calves

  /** The day ordinals of the dates below. */
  lemma ScenarioOrdinals()
    ensures Ordinal(2023, 11, 20) == 738844 && Ordinal(2023, 11, 30) == 738854
    ensures Ordinal(2023, 12, 5) == 738859 && Ordinal(2023, 12, 10) == 738864
    ensures Ordinal(2023, 12, 11) == 738865 && Ordinal(2023, 12, 19) == 738873
    ensures Ordinal(2023, 12, 21) == 738875 && Ordinal(2023, 12, 26) == 738880
    ensures Ordinal(2024, 1, 9) == 738894
  {
    assert DaysBeforeYear(2023) == 738520;
    assert DaysBeforeYear(2024) == 738885;
    assert DaysBeforeMonth(2023, 11) == 304;
    assert DaysBeforeMonth(2023, 12) == 334;
  }

  /** Sunday 2023-12-10 moves onto Monday 2023-12-11. */
  lemma SundayMovesToMonday()
    ensures WeekdayOf(Ordinal(2023, 12, 10)) == Sunday
    ensures HandleWeekends(Ordinal(2023, 12, 10)) == Ordinal(2023, 12, 11)
  {
    ScenarioOrdinals();
  }

  /** A fresh node planned for day `d`, with no actual date. */
  function Planned(d: Date): Treatment
  {
    Treatment(d, None)
  }

  /**
   * The steps shared by both chains, from birth on 2023-11-20 (day 738844): Bovalto1
   * 11-30, Dehorn 12-05 and Restall 12-11, since 12-10 is a Sunday.
   */
  lemma FirstSteps()
    ensures Derive(Bovalto1, Planned(738844)) == Planned(738854)
    ensures Derive(Dehorn, Planned(738854)) == Planned(738859)
    ensures Derive(Restall, Planned(738859)) == Planned(738865)
  {
    assert WeekdayOf(738854) == Thursday;
    assert WeekdayOf(738859) == Tuesday;
    assert WeekdayOf(738864) == Sunday;
  }

  /** Sell on 12-19, the Tuesday after birth plus 28 days (12-18, a Monday). */
  lemma SellStep()
    ensures Derive(Sell, Planned(738844)) == Planned(738873)
  {
    assert WeekdayOf(738872) == Monday;
  }

  /** Bovalto2 on 12-21, Ringworm1 on 12-26 and Ringworm2 on 2024-01-09. */
  lemma BreedingSteps()
    ensures Derive(Bovalto2, Planned(738854)) == Planned(738875)
    ensures Derive(Ringworm1, Planned(738875)) == Planned(738880)
    ensures Derive(Ringworm2, Planned(738880)) == Planned(738894)
  {
    assert WeekdayOf(738875) == Thursday;
    assert WeekdayOf(738880) == Tuesday;
    assert WeekdayOf(738894) == Tuesday;
  }

  /**
   * A fattening calf born 2023-11-20 that is to be dehorned: Bovalto1 11-30, Dehorn
   * 12-05, Restall 12-11 and Sell 12-19, as day ordinals (see `ScenarioOrdinals`).
   */
  lemma FatteningBornNovember20(tag: int, g: Gender)
    ensures var f := NewCalf(false, 738844, g, tag, true);
      f.bovalto1 == Planned(738854) &&
      f.dehorn == Some(Planned(738859)) &&
      f.restall == Planned(738865) &&
      f.sell == Planned(738873)
  {
    FirstSteps();
    SellStep();
    var f := NewCalf(false, 738844, g, tag, true);
    DeriveIsFresh(Bovalto1, f.birth);
    DeriveIsFresh(Sell, f.birth);
    DeriveIsFresh(Dehorn, f.bovalto1);
    DeriveIsFresh(Restall, f.dehorn.value);
  }

  /**
   * A breeding calf born 2023-11-20 that is to be dehorned: Bovalto1 11-30, Restall 12-11,
   * Bovalto2 12-21, Ringworm1 12-26 and Ringworm2 2024-01-09, as day ordinals (see
   * `ScenarioOrdinals`).
   */
  lemma BreedingBornNovember20(tag: int, g: Gender)
    ensures var b := NewCalf(true, 738844, g, tag, true);
      b.bovalto1 == Planned(738854) &&
      b.restall == Planned(738865) &&
      b.bovalto2 == Planned(738875) &&
      b.ringworm1 == Some(Planned(738880)) &&
      b.ringworm2 == Some(Planned(738894))
  {
    FirstSteps();
    BreedingSteps();
    var b := NewCalf(true, 738844, g, tag, true);
    DeriveIsFresh(Bovalto1, b.birth);
    DeriveIsFresh(Dehorn, b.bovalto1);
    DeriveIsFresh(Restall, b.dehorn.value);
    DeriveIsFresh(Bovalto2, b.bovalto1);
    DeriveIsFresh(Ringworm1, b.bovalto2);
    DeriveIsFresh(Ringworm2, b.ringworm1.value);
  }
}

=== FILE: seqs.dfy ===
/** Facts about sequences of ear tags and batches that the herd operations share. */
module Seqs {

  /** No value occurs twice. */
  predicate Unique<T(==)>(s: seq<T>)
  {
    forall i, j :: 0 <= i < j < |s| ==> s[i] != s[j]
  }

  /** The first position of `x` in `s`, or `|s|` when it does not occur: Python's loop that returns at the first match. */
  function IndexOf<T(==)>(s: seq<T>, x: T): (i: nat)
    ensures i <= |s|
    ensures i < |s| ==> s[i] == x
    ensures forall j :: 0 <= j < i ==> s[j] != x
  {
    if |s| == 0 then 0
    else if s[0] == x then 0
    else 1 + IndexOf(s[1..], x)
  }

  /** The batches laid end to end. */
  function Concat<T>(ss: seq<seq<T>>): seq<T>
  {
    if |ss| == 0 then [] else ss[0] + Concat(ss[1..])
  }

  lemma {:induction false} UniqueSplit<T>(a: seq<T>, b: seq<T>)
    requires Unique(a + b)
    ensures Unique(a) && Unique(b)
    ensures forall x :: x in a ==> x !in b
  {
    forall i, j | 0 <= i < j < |a|
      ensures a[i] != a[j]
    {
      assert (a + b)[i] == a[i] && (a + b)[j] == a[j];
    }
    forall i, j | 0 <= i < j < |b|
      ensures b[i] != b[j]
    {
      assert (a + b)[|a| + i] == b[i] && (a + b)[|a| + j] == b[j];
    }
    forall x | x in a
      ensures x !in b
    {
      var i :| 0 <= i < |a| && a[i] == x;
      assert (a + b)[i] == x;
      forall j | 0 <= j < |b|
        ensures b[j] != x
      {
        assert (a + b)[|a| + j] == b[j];
      }
    }
  }

  /** With no tag repeated overall, no tag is in two batches. */
  lemma {:induction false} ConcatDisjoint<T>(ss: seq<seq<T>>, x: T, j: int, k: int)
    requires Unique(Concat(ss))
    requires 0 <= j < k < |ss|
    requires x in ss[j]
    ensures x !in ss[k]
  {
    UniqueSplit(ss[0], Concat(ss[1..]));
    if j == 0 {
      ConcatMember(ss[1..], k - 1, x);
    } else {
      ConcatDisjoint(ss[1..], x, j - 1, k - 1);
    }
  }

  lemma {:induction false} ConcatMember<T>(ss: seq<seq<T>>, k: int, x: T)
    requires 0 <= k < |ss|
    ensures x in ss[k] ==> x in Concat(ss)
  {
    if k > 0 {
      ConcatMember(ss[1..], k - 1, x);
    }
  }

  /** No part is longer than the concatenation. */
  lemma {:induction false} ConcatLength<T>(ss: seq<seq<T>>, k: int)
    requires 0 <= k < |ss|
    ensures |ss[k]| <= |Concat(ss)|
  {
    if k > 0 {
      ConcatLength(ss[1..], k - 1);
    }
  }

  /** A value of the concatenation lies in one of the parts. */
  lemma {:induction false} ConcatSplit<T>(ss: seq<seq<T>>, x: T)
    requires x in Concat(ss)
    ensures exists k :: 0 <= k < |ss| && x in ss[k]
  {
    if x !in ss[0] {
      ConcatSplit(ss[1..], x);
      var k :| 0 <= k < |ss[1..]| && x in ss[1..][k];
      assert x in ss[k + 1];
    }
  }

  lemma {:induction false} UniqueMultiset<T>(s: seq<T>)
    ensures Unique(s) <==> forall x :: multiset(s)[x] <= 1
  {
    if |s| > 0 {
      UniqueMultiset(s[1..]);
      assert s == [s[0]] + s[1..];
      if Unique(s) {
        assert Unique(s[1..]) by {
          forall i, j | 0 <= i < j < |s[1..]|
            ensures s[1..][i] != s[1..][j]
          {
            assert s[1..][i] == s[i + 1] && s[1..][j] == s[j + 1];
          }
        }
        assert s[0] !in s[1..];
      } else {
        var i, j :| 0 <= i < j < |s| && s[i] == s[j];
        if i == 0 {
          assert s[j] == s[1..][j - 1];
          assert multiset(s)[s[0]] >= 2;
        } else {
          assert s[i] == s[1..][i - 1] && s[j] == s[1..][j - 1];
          assert !Unique(s[1..]);
          var x :| multiset(s[1..])[x] > 1;
          assert multiset(s)[x] >= multiset(s[1..])[x];
        }
      }
    }
  }

  lemma UniqueCons<T>(x: T, s: seq<T>)
    ensures Unique([x] + s) <==> Unique(s) && x !in s
  {
    var t := [x] + s;
    if Unique(t) {
      forall i, j | 0 <= i < j < |s|
        ensures s[i] != s[j]
      {
        assert t[i + 1] == s[i] && t[j + 1] == s[j];
      }
      forall i | 0 <= i < |s|
        ensures s[i] != x
      {
        assert t[0] == x && t[i + 1] == s[i];
      }
    }
    if Unique(s) && x !in s {
      forall i, j | 0 <= i < j < |t|
        ensures t[i] != t[j]
      {
        if i > 0 {
          assert t[i] == s[i - 1];
        }
        assert t[j] == s[j - 1];
      }
    }
  }
}

=== FILE: sorting.dfy ===
/**
 * A stable sort by an integer key, the behaviour of Python's `list.sort(key=...)`
 * that herd batching relies on. The sort is an insertion sort; what matters is
 * its contract: ordered output, same elements, and equal keys kept in input order.
 */
module Sorting {

  /** `x` goes in front of the first element whose key is not smaller. */
  function Insert<T>(x: T, s: seq<T>, key: T -> int): (r: seq<T>)
    ensures |r| == |s| + 1
  {
    if |s| == 0 || key(x) <= key(s[0]) then [x] + s
    else [s[0]] + Insert(x, s[1..], key)
  }

  function Sort<T>(s: seq<T>, key: T -> int): (r: seq<T>)
    ensures |r| == |s|
  {
    if |s| == 0 then [] else Insert(s[0], Sort(s[1..], key), key)
  }

  predicate SortedBy<T>(s: seq<T>, key: T -> int)
  {
    forall i, j :: 0 <= i < j < |s| ==> key(s[i]) <= key(s[j])
  }

  /** The elements of `s` whose key is `v`, in their order in `s`. */
  function WithKey<T>(s: seq<T>, key: T -> int, v: int): seq<T>
  {
    if |s| == 0 then []
    else (if key(s[0]) == v then [s[0]] else []) + WithKey(s[1..], key, v)
  }

  /** `f` applied to every element. */
  function Image<T, U>(f: T -> U, s: seq<T>): (r: seq<U>)
    ensures |r| == |s|
    ensures forall i :: 0 <= i < |s| ==> r[i] == f(s[i])
  {
    if |s| == 0 then [] else [f(s[0])] + Image(f, s[1..])
  }

  lemma {:induction false} InsertSorted<T>(x: T, s: seq<T>, key: T -> int)
    requires SortedBy(s, key)
    ensures SortedBy(Insert(x, s, key), key)
  {
    if |s| == 0 || key(x) <= key(s[0]) {
    } else {
      InsertSorted(x, s[1..], key);
      var r := Insert(x, s, key);
      var t := Insert(x, s[1..], key);
      InsertMultiset(x, s[1..], key);
      forall j | 0 < j < |r|
        ensures key(r[0]) <= key(r[j])
      {
        assert r[j] == t[j - 1];
        assert t[j - 1] in multiset(t);
        assert t[j - 1] == x || t[j - 1] in multiset(s[1..]);
        if t[j - 1] != x {
          var k :| 0 <= k < |s[1..]| && s[1..][k] == t[j - 1];
          assert s[1..][k] == s[k + 1];
        }
      }
    }
  }

  /** The sorted output is ordered by the key. */
  lemma {:induction false} SortSorted<T>(s: seq<T>, key: T -> int)
    ensures SortedBy(Sort(s, key), key)
  {
    if |s| > 0 {
      SortSorted(s[1..], key);
      InsertSorted(s[0], Sort(s[1..], key), key);
    }
  }

  lemma {:induction false} InsertMultiset<T>(x: T, s: seq<T>, key: T -> int)
    ensures multiset(Insert(x, s, key)) == multiset{x} + multiset(s)
  {
    if |s| == 0 || key(x) <= key(s[0]) {
    } else {
      InsertMultiset(x, s[1..], key);
      assert s == [s[0]] + s[1..];
    }
  }

  /** The sorted output holds exactly the input's elements. */
  lemma {:induction false} SortPermutes<T>(s: seq<T>, key: T -> int)
    ensures multiset(Sort(s, key)) == multiset(s)
  {
    if |s| > 0 {
      SortPermutes(s[1..], key);
      InsertMultiset(s[0], Sort(s[1..], key), key);
      assert s == [s[0]] + s[1..];
    }
  }

  lemma {:induction false} InsertImage<T, U>(x: T, s: seq<T>, key: T -> int, f: T -> U)
    ensures multiset(Image(f, Insert(x, s, key))) == multiset{f(x)} + multiset(Image(f, s))
  {
    if |s| == 0 || key(x) <= key(s[0]) {
      assert Image(f, [x] + s) == [f(x)] + Image(f, s);
    } else {
      InsertImage(x, s[1..], key, f);
      assert Image(f, s) == [f(s[0])] + Image(f, s[1..]);
      assert Image(f, Insert(x, s, key)) == [f(s[0])] + Image(f, Insert(x, s[1..], key));
    }
  }

  /** Any property read off the elements (an ear tag, say) has the same multiset before and after sorting. */
  lemma {:induction false} SortPermutesImage<T, U>(s: seq<T>, key: T -> int, f: T -> U)
    ensures multiset(Image(f, Sort(s, key))) == multiset(Image(f, s))
  {
    if |s| > 0 {
      SortPermutesImage(s[1..], key, f);
      InsertImage(s[0], Sort(s[1..], key), key, f);
      assert Image(f, s) == [f(s[0])] + Image(f, s[1..]);
    }
  }

  lemma {:induction false} WithKeyAppend<T>(a: seq<T>, b: seq<T>, key: T -> int, v: int)
    ensures WithKey(a + b, key, v) == WithKey(a, key, v) + WithKey(b, key, v)
  {
    if |a| > 0 {
      WithKeyAppend(a[1..], b, key, v);
      assert (a + b)[1..] == a[1..] + b;
    } else {
      assert a + b == b;
    }
  }

  lemma {:induction false} InsertStable<T>(x: T, s: seq<T>, key: T -> int, v: int)
    ensures WithKey(Insert(x, s, key), key, v) == (if key(x) == v then [x] else []) + WithKey(s, key, v)
  {
    if |s| == 0 || key(x) <= key(s[0]) {
      WithKeyAppend([x], s, key, v);
    } else {
      InsertStable(x, s[1..], key, v);
      WithKeyAppend([s[0]], Insert(x, s[1..], key), key, v);
      WithKeyAppend([s[0]], s[1..], key, v);
      assert s == [s[0]] + s[1..];
    }
  }

  /** Stability: for every key value, the elements with that key keep their relative order. */
  lemma {:induction false} SortStable<T>(s: seq<T>, key: T -> int, v: int)
    ensures WithKey(Sort(s, key), key, v) == WithKey(s, key, v)
  {
    if |s| > 0 {
      SortStable(s[1..], key, v);
      InsertStable(s[0], Sort(s[1..], key), key, v);
    }
  }

  /** An already ordered sequence comes back unchanged. */
  lemma {:induction false} SortOfSorted<T>(s: seq<T>, key: T -> int)
    requires SortedBy(s, key)
    ensures Sort(s, key) == s
  {
    if |s| > 0 {
      SortedTail(s, key);
      SortOfSorted(s[1..], key);
      InsertFront(s[0], s[1..], key);
      assert s == [s[0]] + s[1..];
    }
  }

  lemma SortedTail<T>(s: seq<T>, key: T -> int)
    requires SortedBy(s, key) && |s| > 0
    ensures SortedBy(s[1..], key)
    ensures |s| > 1 ==> key(s[0]) <= key(s[1])
  {
    forall i, j | 0 <= i < j < |s[1..]|
      ensures key(s[1..][i]) <= key(s[1..][j])
    {
      assert s[1..][i] == s[i + 1] && s[1..][j] == s[j + 1];
    }
  }

  /** An element no greater than the head goes in front. */
  lemma InsertFront<T>(x: T, s: seq<T>, key: T -> int)
    requires |s| == 0 || key(x) <= key(s[0])
    ensures Insert(x, s, key) == [x] + s
  {
  }

  lemma {:induction false} InsertCommutes<T, U>(x: T, s: seq<T>, key: T -> int, f: T -> U, key2: U -> int)
    requires forall y :: key2(f(y)) == key(y)
    ensures Image(f, Insert(x, s, key)) == Insert(f(x), Image(f, s), key2)
  {
    if |s| == 0 || key(x) <= key(s[0]) {
      assert Image(f, [x] + s) == [f(x)] + Image(f, s);
    } else {
      InsertCommutes(x, s[1..], key, f, key2);
      assert Image(f, s)[1..] == Image(f, s[1..]);
      assert Image(f, Insert(x, s, key)) == [f(s[0])] + Image(f, Insert(x, s[1..], key));
    }
  }

  /** Mapping every element by something that keeps its key commutes with sorting. */
  lemma {:induction false} SortCommutes<T, U>(s: seq<T>, key: T -> int, f: T -> U, key2: U -> int)
    requires forall y :: key2(f(y)) == key(y)
    ensures Image(f, Sort(s, key)) == Sort(Image(f, s), key2)
  {
    if |s| > 0 {
      SortCommutes(s[1..], key, f, key2);
      InsertCommutes(s[0], Sort(s[1..], key), key, f, key2);
      assert Image(f, s)[1..] == Image(f, s[1..]);
    }
  }
}

=== FILE: treatment.dfy ===
/**
 * One scheduled milestone of a calf (models/treatment.py): its kind, a derived
 * expected date and an optional actual date recorded by the farmer.
 */
module Treatments {
  import opened Wrappers
  import opened Day
  import Calendar

  /** The eight treatment classes, `Birth` to `Ringworm2`. */
  datatype Kind = Birth | Bovalto1 | Dehorn | Restall | Sell | Bovalto2 | Ringworm1 | Ringworm2

  /** `_ORDER_ID`: position in the chain; `Sell` and `Bovalto2` share 4 as they never meet on one calf. */
  function OrderId(k: Kind): nat
  {
    match k
    case Birth => 0
    case Bovalto1 => 1
    case Dehorn => 2
    case Restall => 3
    case Sell => 4
    case Bovalto2 => 4
    case Ringworm1 => 5
    case Ringworm2 => 6
  }

  /** `_REST_DAYS`: days a kind follows its predecessor; the root `Birth` has none. */
  function RestDays(k: Kind): nat
  {
    match k
    case Birth => 0
    case Bovalto1 => 10
    case Dehorn => 5
    case Restall => 5
    case Sell => 28
    case Bovalto2 => 21
    case Ringworm1 => 5
    case Ringworm2 => 14
  }

  /** `display_name`: the class name, capitalised. */
  function DisplayName(k: Kind): string
  {
    match k
    case Birth => "Birth"
    case Bovalto1 => "Bovalto1"
    case Dehorn => "Dehorn"
    case Restall => "Restall"
    case Sell => "Sell"
    case Bovalto2 => "Bovalto2"
    case Ringworm1 => "Ringworm1"
    case Ringworm2 => "Ringworm2"
  }

  lemma DisplayNameInjective(k1: Kind, k2: Kind)
    ensures DisplayName(k1) == DisplayName(k2) <==> k1 == k2
  {
  }

  /** A node of the chain: the planned date and the date it actually happened, if recorded. */
  datatype Treatment = Treatment(expected: Date, actual: Option<Date>)

  /** `Birth(date)`: the root, dated directly and not yet confirmed. */
  function NewBirth(d: Date): Treatment
  {
    Treatment(d, None)
  }

  /** `get_date`: the actual date once recorded, otherwise the expected one. */
  function Resolved(t: Treatment): Date
  {
    t.actual.GetOr(t.expected)
  }

  /** `get_week`: the ISO week of the expected date, or of the actual date once recorded. */
  function Week(t: Treatment): (w: int)
    ensures w == Calendar.IsoWeek(Resolved(t))
    ensures 1 <= w <= 53
  {
    Calendar.IsoWeekRange(Resolved(t));
    match t.actual
    case None => Calendar.IsoWeek(t.expected)
    case Some(a) => Calendar.IsoWeek(a)
  }

  /**
   * The date policy of a kind: the predecessor's resolved date plus the rest days,
   * moved off a weekend; `Sell` then rolls on to the next Tuesday.
   */
  function ExpectedAfter(k: Kind, base: Date): Date
    requires k != Birth
  {
    var shifted := HandleWeekends(base + RestDays(k));
    if k == Sell then NextTuesday(shifted) else shifted
  }

  /** `Kind(prev)` for a non-root kind: a fresh node scheduled after `prev`, with no actual date. */
  function Derive(k: Kind, prev: Treatment): (t: Treatment)
    requires k != Birth
    ensures t.actual == None
    ensures Resolved(prev) + RestDays(k) <= t.expected
    ensures k != Sell ==> IsWorkday(t.expected) && t.expected <= Resolved(prev) + RestDays(k) + 2
    ensures k == Sell ==> WeekdayOf(t.expected) == Tuesday && t.expected <= Resolved(prev) + RestDays(k) + 6
  {
    NextTuesdayAfterHandleWeekends(Resolved(prev) + RestDays(k));
    Treatment(ExpectedAfter(k, Resolved(prev)), None)
  }

  /** `Sell` lands on the first Tuesday on or after birth plus 28 days: the weekend shift taken first changes nothing. */
  lemma SellIsFirstTuesday(prev: Treatment)
    ensures Derive(Sell, prev).expected == NextTuesday(Resolved(prev) + 28)
  {
    NextTuesdayAfterHandleWeekends(Resolved(prev) + 28);
  }

  /** `t` carries the expected date the policy of kind `k` gives after `prev`. */
  predicate Follows(k: Kind, prev: Treatment, t: Treatment)
    requires k != Birth
  {
    t.expected == ExpectedAfter(k, Resolved(prev))
  }

  /** `t` is exactly what `Kind(prev)` builds: scheduled after `prev` and not yet confirmed. */
  predicate FreshAfter(k: Kind, prev: Treatment, t: Treatment)
    requires k != Birth
  {
    Follows(k, prev, t) && t.actual.None?
  }

  lemma DeriveIsFresh(k: Kind, prev: Treatment)
    requires k != Birth
    ensures FreshAfter(k, prev, Derive(k, prev))
    ensures forall t :: FreshAfter(k, prev, t) ==> t == Derive(k, prev)
  {
  }

  /** `update(date)`: records the actual date and keeps the expected one. */
  function Update(t: Treatment, d: Date): (r: Treatment)
    ensures Resolved(r) == d
    ensures r.actual == Some(d)
    ensures r.expected == t.expected
  {
    t.(actual := Some(d))
  }

  /** `reset(planned, actual)`: overwrites both dates as given, without recomputing from any predecessor. */
  function Reset(t: Treatment, planned: Date, actual: Option<Date>): (r: Treatment)
    ensures Resolved(r) == (if actual.Some? then actual.value else planned)
    ensures r.expected == planned && r.actual == actual
  {
    Treatment(planned, actual)
  }

  // The comparison operators. Same kind: by resolved date; different kinds: by order id.
  // Python's `if self._ACTUAL_DATE and other._ACTUAL_DATE` branches only pick the
  // resolved dates, as a `date` is always truthy.

  /** `__lt__`. */
  function Less(k1: Kind, t1: Treatment, k2: Kind, t2: Treatment): bool
  {
    if k1 == k2 then
      match (t1.actual, t2.actual)
      case (Some(a1), Some(a2)) => a1 < a2
      case (Some(a1), None) => a1 < t2.expected
      case (None, Some(a2)) => t1.expected < a2
      case (None, None) => t1.expected < t2.expected
    else OrderId(k1) < OrderId(k2)
  }

  /** `__gt__`. */
  function Greater(k1: Kind, t1: Treatment, k2: Kind, t2: Treatment): bool
  {
    if k1 == k2 then
      match (t1.actual, t2.actual)
      case (Some(a1), Some(a2)) => a1 > a2
      case (Some(a1), None) => a1 > t2.expected
      case (None, Some(a2)) => t1.expected > a2
      case (None, None) => t1.expected > t2.expected
    else OrderId(k1) > OrderId(k2)
  }

  /** `__eq__`. */
  function Equal(k1: Kind, t1: Treatment, k2: Kind, t2: Treatment): bool
  {
    if k1 == k2 then
      match (t1.actual, t2.actual)
      case (Some(a1), Some(a2)) => a1 == a2
      case (Some(a1), None) => a1 == t2.expected
      case (None, Some(a2)) => t1.expected == a2
      case (None, None) => t1.expected == t2.expected
    else OrderId(k1) == OrderId(k2)
  }

  /** `__le__`. */
  function LessEq(k1: Kind, t1: Treatment, k2: Kind, t2: Treatment): bool
  {
    if k1 == k2 then
      match (t1.actual, t2.actual)
      case (Some(a1), Some(a2)) => a1 <= a2
      case (Some(a1), None) => a1 <= t2.expected
      case (None, Some(a2)) => t1.expected <= a2
      case (None, None) => t1.expected <= t2.expected
    else OrderId(k1) <= OrderId(k2)
  }

  /** `__ge__`. */
  function GreaterEq(k1: Kind, t1: Treatment, k2: Kind, t2: Treatment): bool
  {
    if k1 == k2 then
      match (t1.actual, t2.actual)
      case (Some(a1), Some(a2)) => a1 >= a2
      case (Some(a1), None) => a1 >= t2.expected
      case (None, Some(a2)) => t1.expected >= a2
      case (None, None) => t1.expected >= t2.expected
    else OrderId(k1) >= OrderId(k2)
  }

  /** The key the operators compare: the resolved date within a kind, the order id across kinds. */
  function SortKey(k1: Kind, t1: Treatment, k2: Kind, t2: Treatment): (int, int)
  {
    if k1 == k2 then (Resolved(t1), Resolved(t2)) else (OrderId(k1), OrderId(k2))
  }

  /** The five operators are the integer comparisons of the sort key, so exactly one of <, ==, > holds. */
  lemma ComparisonsByKey(k1: Kind, t1: Treatment, k2: Kind, t2: Treatment)
    ensures var (a, b) := SortKey(k1, t1, k2, t2);
      && (Less(k1, t1, k2, t2) <==> a < b)
      && (Greater(k1, t1, k2, t2) <==> a > b)
      && (Equal(k1, t1, k2, t2) <==> a == b)
      && (LessEq(k1, t1, k2, t2) <==> a <= b)
      && (GreaterEq(k1, t1, k2, t2) <==> a >= b)
  {
  }

  /** Apart from the shared rank of `Sell` and `Bovalto2`, `__le__` is transitive. */
  lemma LessEqTransitive(k1: Kind, t1: Treatment, k2: Kind, t2: Treatment, k3: Kind, t3: Treatment)
    requires !({Sell, Bovalto2} <= {k1, k2, k3})
    requires LessEq(k1, t1, k2, t2) && LessEq(k2, t2, k3, t3)
    ensures LessEq(k1, t1, k3, t3)
  {
    ComparisonsByKey(k1, t1, k2, t2);
    ComparisonsByKey(k2, t2, k3, t3);
    ComparisonsByKey(k1, t1, k3, t3);
  }

  /** With `Sell` and `Bovalto2` mixed, `__le__` is not transitive: the shared rank hides the dates. */
  lemma LessEqNotTransitiveAcrossSharedRank()
    ensures var s5, b, s3 := Treatment(5, None), Treatment(0, None), Treatment(3, None);
      && LessEq(Sell, s5, Bovalto2, b) && LessEq(Bovalto2, b, Sell, s3) && !LessEq(Sell, s5, Sell, s3)
  {
  }
}

=== FILE: wrappers.dfy ===
/** Failure-carrying return types shared by the model. */
module Wrappers {

  /** A value that may be absent; Python's `X | None`. */
  datatype Option<+T> = None | Some(value: T) {

    /** The value, or `default` when absent (Python's `x or default` on objects that are always truthy). */
    function GetOr(default: T): T {
      match this
      case Some(v) => v
      case None => default
    }
  }

  /** The outcome of an operation that can raise: the new value, or the error it raises. */
  datatype Result<+T, +E> = Success(value: T) | Failure(error: E)
}
